=== FILE: README.md ===
# Reimbursement dashboard: the decisions behind the screens

This project models the front end of a travel-reimbursement service. The
service has these screens:

- sign-in, with an authentication context that keeps the session;
- a dashboard of request counts;
- the employee's own requests and the requests of their team (approve / reject);
- the new-request form;
- the list of companies for the product administrator;
- the company page with its roles, for the company administrator;
- the employee CSV upload.

The screens are React components. The model lifts the decisions made inside them out as pure functions over immutable records and sequences. Those decisions are:

- filtering, sorting and paging lists;
- which menu entries a role sees;
- where a user lands after signing in;
- how the sign-in answer is classified;
- how a request payload is built;
- how requests are counted by status;
- how CSV rows are counted and how long the upload is estimated to take.

Every network answer is an input value (`Response`: an answer with a status and body, or `Thrown`). Every state change is a function from the old screen state to the new one.

Modules follow the program's structure:

- `Base`: options, answers, and the permission-level claim;
- `Text`: lower/upper case, `includes`, `split`, string order, decimal rendering;
- `Listing`: filter, stable sort, slices and pages, Previous/Next navigation. These are shared by every list screen.
- `Reimbursement`: the request record, the purpose filter and the status counts;
- one module per screen: `MyRequests`, `TeamRequests`, `Companies`, `MyCompany`, `NewRequest`, `Dashboard`, `Sidebar`, `Auth`, `LoginPage`, `EmployeeUpload`.

The JavaScript sort is stable, so it is modelled as a stable insertion sort driven by a comparator. The model proves these facts about it:

- the result is a permutation of its input;
- the result is ordered by the comparator;
- entries that compare equal keep their order;
- sorting commutes with filtering.

A token's claims are a `Claim`:

- no token at all (`NoToken`, where `jwtUtils` returns `null`);
- a token without the claim (`Absent`, JavaScript `undefined`);
- a value (`Present`).

The distinction matters: `permissionLevel <= 1` is false for `undefined` and true for `null`.

## Model

| member | source | states |
|---|---|---|
| Base.LevelTests | src/app/dashboard/page.js:42 | `level <= 1` and `level > 1` never both hold, and one of them holds exactly when the level is not missing from a present token |
| Text.Lower | src/app/myteamrequests/page.js:66 | a lower-cased character is never an upper-case letter, and it differs from its input exactly when the input was an upper-case letter |
| Text.Upper | src/app/mycompany/page.js:152 | an upper-cased character is never a lower-case letter, and it differs from its input exactly for lower-case letters |
| Text.LowerStr | src/app/myteamrequests/page.js:65-67 | lower-casing a string keeps its length, leaves no upper-case letter, and agrees with the input up to case at every position |
| Text.LowerStrIdempotent | src/app/requests/page.js:61-63 | lower-casing twice is the same as lower-casing once |
| Text.Capitalize | src/app/mycompany/page.js:152-153 | the capitalised key has the same length, its first letter upper-cased and the rest unchanged |
| Text.IncludesIff | src/app/myteamrequests/page.js:66 | `includes` holds exactly when the query occurs at some position of the text |
| Text.IncludesEmpty | src/app/requests/page.js:61-63 | every text includes the empty query |
| Text.MatchesEmptyQuery | src/app/myteamrequests/page.js:65-67 | an empty filter matches every purpose |
| Text.Occurrences | src/app/employee/page.js:37 | a character occurs at most as often as the text is long |
| Text.Split | src/app/employee/page.js:37 | `split` yields one more part than there are separators, and no part holds the separator |
| Text.JoinSplit | src/app/companies/page.js:50 | joining the parts of a split with the separator gives back the original text |
| Text.SplitJoin | src/app/employee/page.js:37 | splitting a join of separator-free parts gives back exactly those parts |
| Text.SplitPrefix | src/app/companies/page.js:50 | a separator-free prefix only extends the first part of a split |
| Text.StrLessIrreflexive | src/app/mycompany/page.js:155-156 | no string is less than itself under the lexicographic code-point order that models JavaScript's `<` on strings |
| Text.StrLessAsymmetric | src/app/mycompany/page.js:155-156 | two strings are never each less than the other under the code-point order |
| Text.StrLessTransitive | src/app/mycompany/page.js:155-156 | the code-point order on strings is transitive |
| Text.StrLessTotal | src/app/mycompany/page.js:155-156 | two different strings are always ordered one way or the other under the code-point order |
| Text.NatToDecimal | src/app/mycompany/page.js:152 | `toString` of a whole number is a non-empty string of digits |
| Text.DecimalRoundTrip | src/app/mycompany/page.js:152 | reading back the decimal text of a number gives the number |
| Text.LowerDecimal | src/app/mycompany/page.js:152 | lower-casing a number's decimal text changes nothing |
| Listing.Filter | src/app/myteamrequests/page.js:65-67 | the kept list is no longer than the input and holds exactly the input's entries that pass the test |
| Listing.FilterIsSubsequence | src/app/myteamrequests/page.js:65-67 | the filter keeps entries in their original order (a subsequence of the input) |
| Listing.FilterMultiset | src/app/requests/page.js:61-63 | an entry that passes is kept as many times as it occurs; one that fails is dropped entirely |
| Listing.FilterIdempotent | src/app/myteamrequests/page.js:65-67 | filtering a filtered list again changes nothing |
| Listing.FilterKeepsAll | src/app/requests/page.js:61-63 | a filter every entry passes returns the list unchanged |
| Listing.FilterConcat | src/app/dashboard/page.js:74-77 | filtering a concatenation is concatenating the filtered parts |
| Listing.Insert | src/app/requests/page.js:65-88 | inserting adds exactly one copy of the new entry and keeps all the others |
| Listing.Sort | src/app/requests/page.js:65-88 | the sorted list is a permutation of the input |
| Listing.InsertSorted | src/app/requests/page.js:65-88 | inserting into an ordered list under a consistent comparator keeps it ordered |
| Listing.SortSorted | src/app/requests/page.js:65-88 | with a consistent comparator the sorted list is ordered |
| Listing.SortOfSorted | src/app/requests/page.js:65-88 | sorting an already ordered list returns it unchanged |
| Listing.AllTiesKeepOrder | src/app/requests/page.js:85-86 | a comparator that always answers 0 leaves the list in its original order |
| Listing.InsertStable | src/app/requests/page.js:65-88 | inserting keeps the relative order of the entries with any given key |
| Listing.SortStable | src/app/requests/page.js:65-88 | the sort is stable: the entries that compare equal to a given one appear in their original order |
| Listing.FilterSortCommute | src/app/companies/page.js:49-59 | filtering after sorting gives the same list as sorting after filtering |
| Listing.SubsequenceSorted | src/app/companies/page.js:57-59 | every subsequence of an ordered list is ordered |
| Listing.SubsequenceMembers | src/app/companies/page.js:57-59 | every entry of a subsequence is an entry of the list |
| Listing.FilterPreservesSorted | src/app/companies/page.js:57-59 | filtering an ordered list leaves it ordered |
| Listing.FlipComparator | src/app/requests/page.js:67-70 | swapping the arguments of a consistent comparator gives a consistent comparator |
| Listing.FlipSorted | src/app/requests/page.js:69-70 | a list ordered by the swapped comparator is in descending order of the original one |
| Listing.ByKeyComparator | src/app/requests/page.js:67-84 | comparing records by one column of a consistent order is consistent |
| Listing.StrCompare | src/app/companies/page.js:51-53 | the three-way string comparison answers 0 exactly for equal strings |
| Listing.StrCompareDescending | src/app/companies/page.js:51-53 | the descending comparison is the ascending one with the arguments swapped |
| Listing.StrCompareComparator | src/app/companies/page.js:51-53 | the string comparison is a consistent comparator in both directions |
| Listing.ComparatorPointwise | src/app/mycompany/page.js:150-158 | a comparator that answers as a consistent order on a derived key is consistent |
| Listing.ParseSortOption | src/app/companies/page.js:50 | the key is the text before the first `-` and holds no `-`; it is the whole option exactly when there is no `-`; ascending means `-asc` follows the key |
| Listing.SortOptionRoundTrip | src/app/companies/page.js:50 | splitting `key-order` recovers the key, and the order reads as ascending exactly for `asc` |
| Listing.JsSlice | src/app/myteamrequests/page.js:70 | `slice` is empty exactly when it starts at or past the end or ends before its start, and copies the entries in range position by position |
| Listing.TotalPages | src/app/myteamrequests/page.js:69 | the page count is the least number of pages that holds all entries (`ceil(n / size)`) |
| Listing.PageFromOneShift | src/app/companies/page.js:61-63 | the 1-based page `p` is the 0-based page `p - 1` |
| Listing.PageShape | src/app/myteamrequests/page.js:69-70 | a page holds at most `size` entries; it is non-empty exactly below the page count; every page but the last is full; its i-th entry is entry `p*size + i` |
| Listing.PagesPrefix | src/app/requests/page.js:90-91 | the first `k` pages together are the list's first `k*size` entries |
| Listing.PagesCoverList | src/app/myteamrequests/page.js:69-70 | the pages `0 .. totalPages-1` concatenate back to the whole list |
| Listing.ChangePage | src/app/myteamrequests/page.js:88-94 | a page change moves by at most one; it moves forward exactly on `next` below the last page, and back exactly on `prev` above page 0; a page in range stays in range |
| Listing.WalkStaysInRange | src/app/requests/page.js:105-111 | any run of page changes from a page in range stays in range |
| Listing.ClickFromOne | src/app/companies/page.js:114-125 | on a 1-based screen a click moves by at most one, never below 1, and only through an enabled button |
| Listing.NextClicksRunAway | src/app/companies/page.js:122-125 | with nothing to show, `n` clicks on Next from page `p` reach page `p + n` |
| Listing.NextRunsPastLastPage | src/app/companies/page.js:124 | with no entries Next is enabled on page 1, moves to page 2, and is still enabled there |
| Listing.ClickBounded | src/app/companies/page.js:122-125 | with Next disabled from the last page on, a click never leaves pages `1 .. max(1, totalPages)` |
| Listing.WalkBoundedStaysInRange | src/app/companies/page.js:114-125 | under that rule any run of clicks from a page in range stays in range |
| Reimbursement.FilterByPurposeSpec | src/app/myteamrequests/page.js:65-67 | a request is shown exactly when its lower-cased purpose includes the lower-cased query; multiplicities and order are kept |
| Reimbursement.EmptyQueryKeepsAll | src/app/requests/page.js:61-63 | the empty query shows every request, in order |
| Reimbursement.FilterByPurposeIdempotent | src/app/myteamrequests/page.js:65-67 | applying the purpose filter twice is applying it once |
| Reimbursement.CountByStatus | src/app/dashboard/page.js:68 | a status count never exceeds the list length |
| Reimbursement.StatusColumn | src/app/dashboard/page.js:68 | the status column lists each request's status in order |
| Reimbursement.CountIsOccurrences | src/app/dashboard/page.js:68-71 | the count for a status is the number of requests whose status equals it |
| Reimbursement.CountHeadTail | src/app/dashboard/page.js:68 | the count of a list is the first request's share plus the count of the rest |
| Reimbursement.StatusCountsBounded | src/app/dashboard/page.js:68-71 | the Pending, Approved and Rejected counts together never exceed the list length |
| MyRequests.ParseSortMode | src/app/requests/page.js:66-87 | each of the six listed options selects the mode whose label it is (`"Purpose asc"` sorts purposes ascending, and so on); any other option sorts nothing |
| MyRequests.OptionText | src/app/requests/page.js:66-87 | every sorting mode's label is one of the six options the switch lists |
| MyRequests.OptionTextRoundTrip | src/app/requests/page.js:66-87 | reading back a mode's label gives that mode, so no two modes share a label |
| MyRequests.ModesCompareColumns | src/app/requests/page.js:67-86 | each ascending mode compares its own column; each descending mode is its ascending mode with the arguments swapped; the default compares everything as equal |
| MyRequests.ComparisonConsistent | src/app/requests/page.js:65-88 | every mode is a consistent comparator when the column orders are |
| MyRequests.NoSortKeepsOrder | src/app/requests/page.js:85-86 | without a sort mode the screen shows the filtered requests in their original order |
| MyRequests.SortedRequestsPermutation | src/app/requests/page.js:61-88 | for any column orders, consistent or not, every sort mode shows a permutation of the filtered requests |
| MyRequests.SortedRequestsSpec | src/app/requests/page.js:61-88 | the shown list is a permutation of the filtered requests, ordered by the chosen mode, with equal requests in their original order |
| MyRequests.Loaded | src/app/requests/page.js:28-53 | with a user, loading ends and a 2xx answer replaces the list; a failure keeps it; without a user nothing changes |
| MyRequests.PagesShowEverything | src/app/requests/page.js:90-91 | the pages of the sorted list concatenate back to it; the current page holds at most five requests and is non-empty exactly below the page count |
| MyRequests.HandlePageChange | src/app/requests/page.js:105-111 | only the page changes; a page in range stays in range; it grows only on `next` and shrinks only on `prev` |
| MyRequests.HandleViewClick | src/app/requests/page.js:94-97 | the popup opens on the clicked request and nothing else changes |
| MyRequests.HandleClosePopup | src/app/requests/page.js:99-102 | the popup closes and the selection is cleared; nothing else changes |
| TeamRequests.Loaded | src/app/myteamrequests/page.js:31-57 | with a user, loading ends and a 2xx answer replaces the list; a failure keeps it; without a user nothing changes |
| TeamRequests.PagesShowEverything | src/app/myteamrequests/page.js:65-70 | the pages of the filtered list concatenate back to it; the current page holds at most five requests and is non-empty exactly below the page count |
| TeamRequests.HandlePageChange | src/app/myteamrequests/page.js:88-94 | only the page changes; a page in range stays in range; it grows only on `next` and shrinks only on `prev` |
| TeamRequests.HandleViewClick | src/app/myteamrequests/page.js:73-76 | the details popup opens on the clicked request and nothing else changes |
| TeamRequests.HandleClosePopup | src/app/myteamrequests/page.js:78-81 | the popup closes and the selection is cleared; nothing else changes |
| TeamRequests.HandleConfirmationClose | src/app/myteamrequests/page.js:83-85 | the handler (defined, but attached to no element) closes only the confirmation popup |
| TeamRequests.HandleActionClick | src/app/myteamrequests/page.js:97-100 | the action is staged and confirmation opens; the requests and everything else are unchanged |
| TeamRequests.StatusFor | src/app/myteamrequests/page.js:129 | the new status is Approved exactly for the action `approve`, and Rejected for any other action |
| TeamRequests.ApplyDecision | src/app/myteamrequests/page.js:126-132 | the list keeps its length; every request with the selected ID takes the new status whatever its old one; no other request and no other field changes |
| TeamRequests.ApplyDecisionIdempotent | src/app/myteamrequests/page.js:126-132 | applying the same decision twice is applying it once |
| TeamRequests.ApplyDecisionElsewhere | src/app/myteamrequests/page.js:126-132 | a decision for an ID not in the list leaves the list unchanged |
| TeamRequests.DecisionKeepsFilter | src/app/myteamrequests/page.js:65-67 | a decision changes no purpose, so the filtered view is the decision applied to the old filtered view |
| TeamRequests.DecisionMovesOneRequest | src/app/myteamrequests/page.js:126-132 | deciding a pending request with a unique ID moves exactly one request out of Pending and into the new status |
| TeamRequests.HandleConfirmAction | src/app/myteamrequests/page.js:102-149 | the call is sent exactly on confirm with a selection, carrying that request's ID, the action and the employee; every branch closes both popups and clears the selection and action; only a sent call with a 2xx answer changes the list, by the decision |
| TeamRequests.ConfirmedApprovalShows | src/app/myteamrequests/page.js:126-132 | after a successful approval every request with the selected ID shows as Approved |
| Companies.Field | src/app/companies/page.js:51-52 | `a[key]` is undefined exactly for keys that are not company fields, and numeric exactly for the ID |
| Companies.IntOrderComparator | src/app/companies/page.js:51-53 | comparing numbers in either direction is a consistent comparator |
| Companies.CompanyComparisonConsistent | src/app/companies/page.js:49-54 | the company comparison for any sort option is a consistent comparator |
| Companies.FilteredCompaniesSpec | src/app/companies/page.js:49-59 | the shown list is sorting applied to the name-filtered list, ordered by the option, and holds exactly the companies whose lower-cased name includes the query |
| Companies.DefaultSortIsNameAscending | src/app/companies/page.js:15 | the default option sorts by company name, ascending |
| Companies.ByNameAscending | src/app/companies/page.js:49-54 | under the default option, an earlier company never has a greater name than a later one |
| Companies.Loaded | src/app/companies/page.js:17-46 | with a user, loading ends and a 2xx answer replaces the list; a failure keeps it; without a user nothing changes |
| Companies.PagesShowEverything | src/app/companies/page.js:61-64 | the 1-based pages concatenate back to the shown list; the current page holds at most five and is non-empty exactly up to the page count |
| Companies.ClickAsWritten | src/app/companies/page.js:114-125 | only the page changes; it grows only on Next when the page is not the page count, and shrinks only on Previous away from page 1 |
| Companies.NextPastEmptyList | src/app/companies/page.js:122-125 | with no company shown, Next from page 1 moves to an empty page 2 and is still enabled there |
| Companies.Click | src/app/companies/page.js:122-125 | with Next bounded by the page count, a click from a page in range lands on a non-empty page unless there is nothing to show |
| MyCompany.RoleField | src/app/mycompany/page.js:152-153 | the capitalised key reads nothing exactly for keys that are not role fields and for a missing name or level |
| MyCompany.RoleValue | src/app/mycompany/page.js:152-153 | the compared value is empty exactly for a missing or falsy field (or one that renders empty), and is never upper-case |
| MyCompany.RoleComparisonConsistent | src/app/mycompany/page.js:150-158 | the role comparison for any sort option is a consistent comparator |
| MyCompany.OptionKeysReadFields | src/app/mycompany/page.js:151-153 | the option keys `roleName` and `permissionLevel` read the `RoleName` and `PermissionLevel` fields, lower-cased |
| MyCompany.LevelOptionAscending | src/app/mycompany/page.js:151 | `permissionLevel-asc` sorts by `permissionLevel`, ascending |
| MyCompany.LevelTexts | src/app/mycompany/page.js:152 | levels 10 and 9 compare as the texts "10" and "9" |
| MyCompany.LevelsSortAsText | src/app/mycompany/page.js:152-157 | ascending by level puts level 10 before level 9: levels order as text, not as numbers |
| MyCompany.MissingValuesFirst | src/app/mycompany/page.js:152-157 | a role with a missing value sorts first in ascending order and last in descending order |
| MyCompany.FilteredRolesSpec | src/app/mycompany/page.js:150-162 | the shown roles are the sorted name-filtered roles, ordered by the option, and a role is shown exactly when its name is present, non-empty and includes the query |
| MyCompany.HandleEditToggle | src/app/mycompany/page.js:30-35 | editing flips; leaving edit mode resets the label to Save Changes; entering it keeps the label; nothing else changes |
| MyCompany.HandleSaveChanges | src/app/mycompany/page.js:37-44 | editing ends; the label becomes Saved Changes exactly when it was Save Changes, and Save Changes otherwise |
| MyCompany.SaveTwiceRestoresLabel | src/app/mycompany/page.js:37-44 | saving twice restores either label |
| MyCompany.RolesLoaded | src/app/mycompany/page.js:73-96 | with a user, role loading ends and a 2xx answer replaces the roles; a failure keeps them; without a user nothing changes |
| MyCompany.HandleAddRole | src/app/mycompany/page.js:98-121 | the role is posted exactly when name and level are both non-empty; the roles are re-fetched and both inputs cleared exactly on a 2xx answer; otherwise nothing changes |
| MyCompany.HandleDeleteRole | src/app/mycompany/page.js:123-142 | the delete is sent for that role exactly when confirmed, and re-fetches exactly on a 2xx answer |
| NewRequest.HandleInputChange | src/app/newrequest/page.js:29-34 | the named field takes the value; every other field and the receipts are unchanged |
| NewRequest.InputChangeLaws | src/app/newrequest/page.js:29-34 | writing a field's own value changes nothing, and a second write to the same field overrides the first |
| NewRequest.HandleFileChange | src/app/newrequest/page.js:36-42 | the new files are appended after the existing receipts, which keep their order; no text field changes |
| NewRequest.NameInjective | src/app/newrequest/page.js:49-52 | different categories have different names |
| NewRequest.Names | src/app/newrequest/page.js:49-52 | the type list names each category in order |
| NewRequest.BuildFrom | src/app/newrequest/page.js:47-52 | each step of the build keeps the two lists the same length, appends the filled categories in order, and pairs each with its parsed amount |
| NewRequest.BuildExpenses | src/app/newrequest/page.js:47-52 | the types are the filled categories in the fixed order, and the amounts are aligned with them, each the parse of its own field |
| NewRequest.CategoriesListedOnce | src/app/newrequest/page.js:49-52 | each of the four categories appears exactly once in the fixed order |
| NewRequest.ExpensesShape | src/app/newrequest/page.js:47-52 | there are at most four types, in the fixed order, without duplicates, and a category is listed exactly when its amount field is non-empty |
| NewRequest.ReceiptPaths | src/app/newrequest/page.js:63 | one path per file, in order, each `/uploads/` followed by the file name |
| NewRequest.ReceiptPathsAppend | src/app/newrequest/page.js:63 | the paths of appended files are appended paths |
| NewRequest.BuildPayload | src/app/newrequest/page.js:44-64 | types and amounts are aligned and built from the filled categories; one `/uploads/<name>` receipt path per file, in order; IDs, dates, purpose and description are copied |
| NewRequest.HandleSubmit | src/app/newrequest/page.js:44-88 | the payload is always posted; a 2xx answer opens the popup and marks success with no alert; a failure status alerts "Failed to submit request!" and a thrown call "An error occurred!", leaving the screen as it was |
| NewRequest.HandleClosePopup | src/app/newrequest/page.js:92-108 | the popup closes and the success flag clears; the form is reset to empty exactly after a success |
| NewRequest.HandleGoToRequests | src/app/newrequest/page.js:110-113 | the router goes to `/requests` and the popup closes as in `handleClosePopup` |
| NewRequest.SubmitThenClose | src/app/newrequest/page.js:76-108 | a successful submit followed by closing the popup leaves an empty form; a failed one leaves the form as typed |
| Dashboard.Refresh | src/app/dashboard/page.js:19-65 | loading ends at once; the own list is asked for exactly with a user; the team list exactly with a user whose level is above 1 or missing; each list changes only on a 2xx answer to a call that was sent |
| Dashboard.SumNonNegative | src/app/dashboard/page.js:76 | amounts that are never negative have a non-negative sum |
| Dashboard.SumAllNonNegative | src/app/dashboard/page.js:74-77 | requests without negative amounts have a non-negative total |
| Dashboard.SumAllConcat | src/app/dashboard/page.js:74-77 | the total of two lists together is the sum of their totals |
| Dashboard.ApprovedTotalConcat | src/app/dashboard/page.js:74-77 | the approved total is additive over concatenation |
| Dashboard.ApprovedTotalOne | src/app/dashboard/page.js:74-77 | one request adds its own amounts when approved and nothing otherwise |
| Dashboard.ApprovedTotalNonNegative | src/app/dashboard/page.js:74-83 | without negative amounts the approved total is never negative |
| Dashboard.StatsOf | src/app/dashboard/page.js:67-83 | each card counts the requests with its status; the three counts sum to at most the list length; the total is never negative when no amount is |
| Dashboard.Render | src/app/dashboard/page.js:85-92 | the loading text shows exactly while loading; otherwise the own cards show the own figures, and the team cards appear exactly when the level is above 1 |
| Dashboard.TeamFetchMatchesSection | src/app/dashboard/page.js:41-42 | when the team section is drawn for a user the team list was asked for; with no token or a level of at most 1 it never is, and stays empty |
| Dashboard.MissingLevelFetchesHiddenTeam | src/app/dashboard/page.js:41-60 | a token without a level makes the dashboard fetch the team list that it never shows |
| Sidebar.PathsDistinct | src/components/Sidebar.js:76-137 | two menu entries have the same path exactly when they are the same entry |
| Sidebar.KindOf | src/components/Sidebar.js:81-111 | the role is the product administrator or the company administrator exactly when the claim equals that role's name |
| Sidebar.FetchRoles | src/components/Sidebar.js:36-62 | role loading always ends; the roles are asked for exactly with a user and a company; a 2xx answer replaces them, anything else keeps them |
| Sidebar.InMenu | src/components/Sidebar.js:76-137 | every entry is on the menu |
| Sidebar.ListedIffVisible | src/components/Sidebar.js:150-163 | an entry is drawn exactly when its visibility rule holds |
| Sidebar.KeptIsFilter | src/components/Sidebar.js:150-163 | keeping, entry by entry, the entries a test accepts is filtering the menu by that test |
| Sidebar.ProductSection | src/components/Sidebar.js:77-88 | Companies and Create Company are shown to the product administrator and to nobody else |
| Sidebar.CompanySection | src/components/Sidebar.js:89-106 | My Company, Employee and Employees are shown to the company administrator and to nobody else |
| Sidebar.EmployeeSectionHidden | src/components/Sidebar.js:107-130 | neither administrator sees Dashboard, New Request, My Requests or My Team Requests |
| Sidebar.BellShown | src/components/Sidebar.js:131-136 | Notifications is shown to every kind of user at every level |
| Sidebar.Render | src/components/Sidebar.js:68-163 | nothing is drawn exactly without a user; a loading text exactly while roles load; otherwise exactly the visible entries, always including Notifications |
| Sidebar.MenuOfRender | src/components/Sidebar.js:150-163 | the drawn menu is the menu in its fixed order with the invisible entries dropped |
| Sidebar.AdminMenus | src/components/Sidebar.js:76-137 | the product administrator's menu is Companies, Create Company, Notifications; the company administrator's is My Company, Employee, Employees, Notifications |
| Sidebar.ProductAdminKept | src/components/Sidebar.js:76-137 | the whole menu kept for the product administrator is the product section then Notifications |
| Sidebar.CompanyAdminKept | src/components/Sidebar.js:76-137 | the whole menu kept for the company administrator is the company section then Notifications |
| Sidebar.EmployeeMenus | src/components/Sidebar.js:107-136 | anyone else sees Dashboard; New Request and My Requests exactly when a token is present; My Team Requests exactly above level 1; then Notifications |
| Sidebar.EmployeeKept | src/components/Sidebar.js:76-137 | for anyone else both administrator sections drop out, leaving the employee section then Notifications |
| Sidebar.EmployeeSection | src/components/Sidebar.js:107-130 | a non-administrator sees Dashboard; New Request and My Requests exactly with a token; My Team Requests exactly above level 1; in that order |
| Auth.LandingPageOnMenu | src/context/AuthContext.js:74-81 | every landing route is the path of a menu entry the same role is shown, whatever its level |
| Auth.Login | src/context/AuthContext.js:51-89 | 401 gives "Invalid credentials" and other failure statuses the server-error message, both leaving the session alone; a thrown call or a `null` or unreadable body gives the unexpected-error message, leaves the session alone and routes nowhere; a 2xx answer stores its token (the text "undefined" when the field is missing); without a user it leaves nobody signed in and reports the unexpected error; with one it sets the user, routes by `role_id` and returns nothing |
| Auth.Logout | src/context/AuthContext.js:93-99 | in a browser the user and token are cleared and the router goes to `/`; elsewhere nothing happens |
| Auth.Startup | src/context/AuthContext.js:12-49 | a user is signed in exactly when a truthy stored token is accepted with a user, routed by `role` for the two administrators only; any other outcome of validation logs out; without a token only pages other than `/` redirect to `/` |
| Auth.TokenAccompaniesUser | src/context/AuthContext.js:12-99 | start-up, sign-in and sign-out all keep a signed-in user paired with a stored token |
| Auth.StartupAgreesWithLogin | src/context/AuthContext.js:35-40 | when `role` and `role_id` agree, start-up sends the administrators where sign-in would, and leaves everyone else on the current page |
| LoginPage.SetEmail | src/app/page.js:44-45 | typing an e-mail changes the e-mail only |
| LoginPage.SetPassword | src/app/page.js:54-55 | typing a password changes the password only |
| LoginPage.RedirectIfSignedIn | src/app/page.js:13-23 | the page redirects exactly when a user is signed in, to `/companies` for a product administrator, `/mycompany` for a company administrator and `/dashboard` otherwise (by `role_id`) |
| LoginPage.RedirectAgreesWithLogin | src/app/page.js:15-21 | after a successful sign-in, the page's redirect and the context's route agree |
| LoginPage.AlertAsWritten | src/app/page.js:25-31 | any alert shown is "Invalid credentials" |
| LoginPage.AlertInverted | src/app/page.js:27-30 | as written, a successful sign-in raises the alert and a 401 raises none |
| LoginPage.Alert | src/app/page.js:28-30 | any alert shown is "Invalid credentials" |
| LoginPage.AlertOnlyOnFailure | src/app/page.js:27-30 | with the test corrected, the alert appears exactly when the attempt left nobody signed in |
| LoginPage.HandleSubmit | src/app/page.js:25-31 | as written: the submit signs in and alerts exactly when `login` returned nothing, so in a browser the alert comes exactly with a route and never after a failure status |
| LoginPage.HandleSubmitCorrected | src/app/page.js:25-31 | with the test corrected: from the sign-in page the alert appears exactly when nobody is signed in afterwards, and never with a route |
| EmployeeUpload.RowsCount | src/app/employee/page.js:37 | the row count is the number of line breaks in the text (parts of the split minus one) |
| EmployeeUpload.CountsDataLines | src/app/employee/page.js:37 | a header followed by `n` lines joined with line breaks counts `n` rows |
| EmployeeUpload.TrailingBreakCountsExtraRow | src/app/employee/page.js:139 | the same file ending in a line break counts `n + 1` rows |
| EmployeeUpload.HandleFileChange | src/app/employee/page.js:29-45 | no file leaves the screen unchanged; a file is described by its name, size and row count and fills the input; nothing else changes |
| EmployeeUpload.HandleDrop | src/app/employee/page.js:127-135 | a dropped file is described with zero rows until read; the hidden input is not touched |
| EmployeeUpload.DropLoaded | src/app/employee/page.js:136-145 | reading the dropped file changes only the row count, to its line-break count |
| EmployeeUpload.DropMatchesDialog | src/app/employee/page.js:127-147 | dropping and reading a file describes it as choosing it in the dialog does |
| EmployeeUpload.HandleRemoveFile | src/app/employee/page.js:108-116 | the description resets to empty name, size 0 and 0 rows; the input clears; the message is empty and the bar at 0 |
| EmployeeUpload.HandleClosePopup | src/app/employee/page.js:118-121 | closing the popup hides it and removes the file |
| EmployeeUpload.HandlersKeepDescription | src/app/employee/page.js:29-147 | every handler keeps the described file and the picked file the same one |
| EmployeeUpload.Estimate | src/app/employee/page.js:61-64 | the estimate is never below the one-second loading effect |
| EmployeeUpload.TicksFill | src/app/employee/page.js:69-77 | after `n` ticks the bar shows the elapsed share of the estimate, capped at 100, and is full exactly when `n` ticks of 300 ms cover the estimate |
| EmployeeUpload.EstimateGrowsPerRow | src/app/employee/page.js:62-64 | an empty file is estimated at 1000 ms, and each row adds 4714 ms |
| EmployeeUpload.Settle | src/app/employee/page.js:79-105 | once the call settles the bar is full, loading ends and the popup opens; an answer shows its message and a thrown call the upload error |
| EmployeeUpload.HandleUploadAsWritten | src/app/employee/page.js:47-106 | with no described file it alerts and sends nothing; otherwise it posts the hidden input's file and settles |
| EmployeeUpload.DroppedFileNotUploaded | src/app/employee/page.js:53-56 | after a drop onto a fresh screen the named file is not posted: the form carries no file |
| EmployeeUpload.StaleDialogFileUploaded | src/app/employee/page.js:53-56 | after choosing one file and dropping another, the post carries the first |
| EmployeeUpload.HandleUpload | src/app/employee/page.js:47-106 | with no described file it alerts and sends nothing; otherwise it posts a form and settles |
| EmployeeUpload.UploadSendsShownFile | src/app/employee/page.js:53-56 | the corrected upload always posts the file whose name and size the screen shows |
| EmployeeUpload.PopupTitle | src/app/employee/page.js:208 | the heading exists exactly when there is a message, and reads "Upload Failed!" exactly when the message contains "Error" |
| EmployeeUpload.FailureTitled | src/app/employee/page.js:95-101 | a thrown upload is always headed "Upload Failed!" |

## Left out

- The network: `fetch`, the endpoints and JSON parsing are not modelled. Each call's outcome is an input. This covers an answer with a status and body (`None` when the body lacks the field read), or a thrown call. Calls that run concurrently are applied as if each answer arrived before rendering.
- `localStorage`, `jwtDecode` and src/utils/jwtUtils.js: the stored token and the decoded claims are inputs (`Option`, `Claim`).
- React: hooks, effects and rendering are not modelled, and neither is the Next.js router. Redirects are returned route strings; screen state is an immutable record.
- Case mapping: `toLowerCase`/`toUpperCase` are modelled on ASCII letters only. JavaScript's full Unicode case tables are not.
- `localeCompare`, `Date` subtraction and the Amount comparator are not computed. They are passed in as column orders (`RequestOrders`), assumed consistent where a proof needs it.
- Text.StrLess: strings compare lexicographically by Unicode code point, while JavaScript's `<` compares UTF-16 code units. The orders differ only when a character above U+FFFF meets one from U+E000 to U+FFFF (JavaScript puts U+1F600 before U+FF21; the model puts it after), so company and role sorts over such text may differ. UTF-16 encoding is not modelled.
- `Purpose` and `companyName` are plain strings. In the source, `request.Purpose.toLowerCase()` and `company.companyName.toLowerCase()` throw when the field is `null`; the model cannot express a missing field there and does not model the exception.
- Amount arithmetic: `parseFloat` is a parameter, and amounts are exact reals. Floating-point rounding of the sums and `toFixed(2)` are not modelled.
- Date and number display (`toLocaleString`, the KB size) is not modelled.
- EmployeeUpload.TicksFill: the progress bar is computed in exact reals, while the page adds `100 / totalIntervals` in IEEE doubles. When the estimate is an exact multiple of 300 ms the accumulated rounding can delay the full bar by one tick (200 rows give 943800 ms: exact arithmetic fills at tick 3146, doubles at tick 3147), so "full exactly when the ticks cover the estimate" holds for the exact-real model only.
- Upload timing: the `setInterval` timer is modelled only as the tick sequence it would produce. The 500 ms popup delay is folded into the settled state, and `FileReader` is modelled as the text it reads.
- `handleDragOver` only prevents the browser default.
- The HTML `required` and `type="email"` form validation happen in the browser before `handleSubmit`.
- The company page's detail form: its fields are fetched and shown, but only the edit and save toggles carry logic.
- The sidebar's expand/collapse toggle (`isExpanded`) and the logout button are not modelled.
- Sidebar.Render: the sidebar waits on `isLoading` from the authentication context. The context never provides it, so it is always `undefined` and the model omits it.
- Not part of this model, because they hold no decision beyond the modelled ones: src/app/company/page.js, src/components/RequireAuth.js, src/components/MobileNav.js, src/context/SidebarContext.js, src/components/LoadingSpinner.js, src/app/layout.js and src/app/employees/page.js.
- Auth.Startup: the redirect after a stored token is accepted reads `role`, while sign-in reads `role_id`. The model keeps both fields and relates them only when they agree (`Auth.StartupAgreesWithLogin`).
- EmployeeUpload.PopupTitle: when the server's answer has no `message`, the heading throws. The model returns `None` there rather than modelling the exception.

## Findings

| source | as written | input that shows it | evidently intended | confidence | as-written member | corrected member |
|---|---|---|---|---|---|---|
| src/app/page.js:27-30 | the alert fires when `login` returns a falsy value, but `login` returns `undefined` on success and a message on failure | a 2xx answer with a token and a user raises "Invalid credentials"; a 401 raises no alert | alert exactly when `login` returned a message | not executed | LoginPage.AlertInverted | LoginPage.AlertOnlyOnFailure |
| src/app/companies/page.js:122-125 | Next is disabled only when `currentPage === totalPages` | a filter matching no company gives `totalPages` 0, so Next on page 1 moves to page 2, 3, … each empty | Next disabled from the last page on (`currentPage >= totalPages`) | not executed | Listing.NextClicksRunAway | Listing.WalkBoundedStaysInRange |
| src/app/employee/page.js:54 | the upload posts the hidden file input's file, which only the file dialog fills | drop a file onto a fresh screen: the screen names it but the post carries no file; choose `a`, then drop `b`: the post carries `a` | post the file the screen describes | not executed | EmployeeUpload.StaleDialogFileUploaded | EmployeeUpload.UploadSendsShownFile |

=== FILE: auth.dfy ===
/** The authentication context: signing in, signing out, and re-validating a
    stored token when the application starts. The session is the signed-in
    user together with the token kept in local storage. */
module Auth {
  import opened Base
  import Sidebar

  /** The user record the backend returns. The login answer carries `role_id`;
      the token validation is read through `role`. */
  datatype User = User(email: string, role: Option<string>, role_id: Option<string>)

  datatype Session = Session(user: Option<User>, token: Option<string>)

  const INVALID_CREDENTIALS := "Invalid credentials"
  const SERVER_ERROR := "Server error. Please try again later."
  const UNEXPECTED_ERROR := "An unexpected error occurred. Please try again."

  /** What `localStorage.setItem('token', undefined)` stores. */
  const UNDEFINED_TEXT := "undefined"

  /** Whether a stored token passes `if (token)`: present and not empty. */
  predicate Truthy(token: Option<string>) {
    token.Some? && token.value != ""
  }

  /** The page a role lands on after signing in. */
  function LandingRoute(roleID: Option<string>): string {
    if roleID == Some(Sidebar.PRODUCT_ADMIN) then "/companies"
    else if roleID == Some(Sidebar.COMPANY_ADMIN) then "/mycompany"
    else "/dashboard"
  }

  /** The role claim of a token issued with this `role_id`. */
  function AsClaim(roleID: Option<string>): Claim<string> {
    if roleID.Some? then Present(roleID.value) else Absent
  }

  /** The menu entry for each landing page. */
  function LandingEntry(roleID: Option<string>): Sidebar.MenuEntry {
    if roleID == Some(Sidebar.PRODUCT_ADMIN) then Sidebar.CompaniesLink
    else if roleID == Some(Sidebar.COMPANY_ADMIN) then Sidebar.MyCompanyLink
    else Sidebar.DashboardLink
  }

  /** Every landing page is on the menu the same user is shown, whatever their
      permission level: the route is the path of an entry the sidebar makes
      visible for a token carrying the same role. */
  lemma LandingPageOnMenu(roleID: Option<string>, level: Claim<int>)
    ensures Sidebar.Path(LandingEntry(roleID)) == LandingRoute(roleID)
    ensures Sidebar.Visible(LandingEntry(roleID), Sidebar.KindOf(AsClaim(roleID)), level)
  {
  }

  // ---------------------------------------------------------------------------
  // Signing in
  // ---------------------------------------------------------------------------

  /** The decoded login answer: its `token` and `user` fields, either of which
      may be missing (as both are when the body is a number or a string). */
  datatype LoginData = LoginData(token: Option<string>, user: Option<User>)

  /** The session after a call, where the router was sent, and the message the
      call returned (`undefined` is `None`). */
  datatype LoginOutcome = LoginOutcome(session: Session, route: Option<string>, message: Option<string>)

  /** `login(email, password)` with the backend's answer (`None` for a `null`
      or unreadable body; a number or string body reads as both fields
      missing). Outside a browser nothing happens and nothing is returned.
      A 401 and any other failure status return their messages and leave the
      session alone, as do a network failure and a `null` body. A 2xx
      answer stores its token (the text "undefined" when the field is missing)
      and sets the user; without a user the following role lookup throws, so
      the call reports the unexpected error, otherwise it routes by role. */
  function Login(s: Session, inBrowser: bool, response: Response<Option<LoginData>>): (out: LoginOutcome)
    ensures !inBrowser ==> out == LoginOutcome(s, None, None)
    ensures out.message == Some(INVALID_CREDENTIALS)
        <==> inBrowser && response.Answered? && response.status == 401
    ensures out.message == Some(SERVER_ERROR)
        <==> inBrowser && response.Answered? && !IsOk(response.status) && response.status != 401
    ensures out.message.Some? && out.message != Some(UNEXPECTED_ERROR) ==> out.session == s
    ensures out.route.Some? <==> inBrowser && out.message.None?
    ensures out.route.Some? <==> inBrowser && Succeeded(response) && response.body.Some? && response.body.value.user.Some?
    ensures out.route.Some? ==>
              out.session.user == response.body.value.user &&
              out.route == Some(LandingRoute(out.session.user.value.role_id))
    ensures out.session.user.Some? ==> out.session.token.Some? || out.session == s
    ensures inBrowser && (response.Thrown? || (Succeeded(response) && response.body.None?)) ==>
              out == LoginOutcome(s, None, Some(UNEXPECTED_ERROR))
    ensures inBrowser && Succeeded(response) && response.body.Some? ==>
              out.session.token == Some(if response.body.value.token.Some? then response.body.value.token.value
                                        else UNDEFINED_TEXT)
    ensures inBrowser && Succeeded(response) && response.body.Some? && response.body.value.user.None? ==>
              out.session.user.None?
  {
    if !inBrowser then LoginOutcome(s, None, None)
    else if response.Thrown? then LoginOutcome(s, None, Some(UNEXPECTED_ERROR))
    else if !IsOk(response.status) then
      LoginOutcome(s, None, Some(if response.status == 401 then INVALID_CREDENTIALS else SERVER_ERROR))
    else if response.body.None? then LoginOutcome(s, None, Some(UNEXPECTED_ERROR))
    else
      var data := response.body.value;
      var stored := Some(if data.token.Some? then data.token.value else UNDEFINED_TEXT);
      if data.user.None? then LoginOutcome(Session(None, stored), None, Some(UNEXPECTED_ERROR))
      else LoginOutcome(Session(data.user, stored), Some(LandingRoute(data.user.value.role_id)), None)
  }

  /** `logout`: in a browser the user and the token are both gone and the
      router goes to the login page; elsewhere nothing happens. */
  function Logout(s: Session, inBrowser: bool): (out: (Session, Option<string>))
    ensures inBrowser ==> out.0.user.None? && out.0.token.None? && out.1 == Some("/")
    ensures !inBrowser ==> out == (s, None)
  {
    if inBrowser then (Session(None, None), Some("/")) else (s, None)
  }

  // ---------------------------------------------------------------------------
  // Start-up
  // ---------------------------------------------------------------------------

  /** The redirect after a stored token was accepted: only the two
      administrator roles are sent anywhere. */
  function AdminRoute(role: Option<string>): Option<string> {
    if role == Some(Sidebar.PRODUCT_ADMIN) then Some("/companies")
    else if role == Some(Sidebar.COMPANY_ADMIN) then Some("/mycompany")
    else None
  }

  /** The start-up effect with the stored token and the answer of the
      validation call (`None` for a body without a user). A truthy token is
      validated: acceptance with a user signs that user in, anything else logs
      out. Without a token, any page but the login page redirects to it. */
  function Startup(inBrowser: bool, stored: Option<string>, pathname: string,
                   validation: Response<Option<User>>): (out: (Session, Option<string>))
    ensures out.0.user.Some? <==> inBrowser && Truthy(stored) && Succeeded(validation) && validation.body.Some?
    ensures out.0.user.Some? ==>
              out.0.user == validation.body && out.0.token == stored &&
              out.1 == AdminRoute(out.0.user.value.role)
    ensures out.0.user.None? && inBrowser && Truthy(stored) ==> out == (Session(None, None), Some("/"))
    ensures inBrowser && !Truthy(stored) ==> out == (Session(None, stored), if pathname != "/" then Some("/") else None)
    ensures !inBrowser ==> out == (Session(None, stored), None)
  {
    var initial := Session(None, stored);
    if !inBrowser then (initial, None)
    else if Truthy(stored) then
      if Succeeded(validation) && validation.body.Some? then
        (Session(validation.body, stored), AdminRoute(validation.body.value.role))
      else Logout(initial, true)
    else if pathname != "/" then (initial, Some("/"))
    else (initial, None)
  }

  /** A session with a user also holds a token. */
  predicate SignedInWithToken(s: Session) {
    s.user.Some? ==> s.token.Some?
  }

  /** Start-up, signing in and signing out all keep a signed-in user paired
      with a stored token; after start-up that token is a truthy one. */
  lemma TokenAccompaniesUser(s: Session, inBrowser: bool, response: Response<Option<LoginData>>,
                             stored: Option<string>, pathname: string, validation: Response<Option<User>>)
    requires SignedInWithToken(s)
    ensures SignedInWithToken(Login(s, inBrowser, response).session)
    ensures SignedInWithToken(Logout(s, inBrowser).0)
    ensures SignedInWithToken(Startup(inBrowser, stored, pathname, validation).0)
    ensures Startup(inBrowser, stored, pathname, validation).0.user.Some? ==>
              Truthy(Startup(inBrowser, stored, pathname, validation).0.token)
  {
  }

  /** For the administrators, a re-validated session lands where signing in
      would have sent the same user, provided the user's `role` and `role_id`
      agree; any other user stays on the current page instead of going to
      the dashboard. */
  lemma StartupAgreesWithLogin(u: User, stored: Option<string>, pathname: string, status: int)
    requires u.role == u.role_id && Truthy(stored) && IsOk(status)
    ensures var out := Startup(true, stored, pathname, Answered(status, Some(u)));
            out.0.user == Some(u) &&
            (out.1.Some? <==> LandingRoute(u.role_id) != "/dashboard") &&
            (out.1.Some? ==> out.1.value == LandingRoute(u.role_id))
  {
  }
}

=== FILE: base.dfy ===
/** Values shared by every screen: optional values (JavaScript's null/undefined)
    and the outcome of a network call, which the model takes as an input. */
module Base {

  /** A value that may be absent, as a JavaScript `null` or `undefined` field. */
  datatype Option<+T> = None | Some(value: T)

  /** What a `fetch` produced, as far as the caller can observe it: a response
      with an HTTP status and a decoded body, or an exception (network failure,
      malformed JSON). */
  datatype Response<+B> = Answered(status: int, body: B) | Thrown

  /** `response.ok` of the Fetch standard: the status is in the range 200-299. */
  predicate IsOk(status: int) {
    200 <= status <= 299
  }

  /** A claim read from the stored token: `null` when there is no token,
      `undefined` when the token lacks the claim, otherwise its value. */
  datatype Claim<+T> = NoToken | Absent | Present(value: T)

  /** JavaScript's `level <= 1`: `null` converts to 0, `undefined` to NaN. */
  predicate AtMostOne(level: Claim<int>) {
    match level
    case NoToken => true
    case Absent => false
    case Present(n) => n <= 1
  }

  /** JavaScript's `level > 1`. */
  predicate AboveOne(level: Claim<int>) {
    level.Present? && level.value > 1
  }

  /** The two tests exclude each other, and only a missing claim fails both. */
  lemma LevelTests(level: Claim<int>)
    ensures !(AtMostOne(level) && AboveOne(level))
    ensures AtMostOne(level) || AboveOne(level) <==> !level.Absent?
  {
  }

  /** True when the call completed with a 2xx status. */
  predicate Succeeded<B>(r: Response<B>) {
    r.Answered? && IsOk(r.status)
  }
}

=== FILE: companies.dfy ===
/** The "Companies" screen of the product administrator: every company, sorted
    by the chosen "<key>-<order>" option, then filtered by name, five to a
    1-based page. */
module Companies {
  import opened Base
  import opened Text
  import opened Listing

  datatype Company = Company(
    companyID: int,
    companyName: string,
    address: string,
    contactEmail: string,
    createdAt: string)

  /** `itemsPerPage`. */
  const ITEMS_PER_PAGE: nat := 5

  /** The sort option selected on first render. */
  const DEFAULT_SORT := "companyName-asc"

  /** The value `company[key]` reads: a text field, the numeric ID, or
      `undefined` for a key the record does not have. */
  datatype FieldValue = Text(text: string) | Number(number: int) | Undefined

  function Field(c: Company, key: string): (v: FieldValue)
    ensures v.Undefined? <==> key !in {"companyID", "companyName", "address", "contactEmail", "createdAt"}
    ensures v.Number? <==> key == "companyID"
  {
    if key == "companyID" then Number(c.companyID)
    else if key == "companyName" then Text(c.companyName)
    else if key == "address" then Text(c.address)
    else if key == "contactEmail" then Text(c.contactEmail)
    else if key == "createdAt" then Text(c.createdAt)
    else Undefined
  }

  /** JavaScript's `x < y` on two field values: strings compare by code point,
      numbers numerically, and `undefined` is never less than anything. */
  predicate ValueLess(x: FieldValue, y: FieldValue) {
    match (x, y)
    case (Text(a), Text(b)) => StrLess(a, b)
    case (Number(a), Number(b)) => a < b
    case _ => false
  }

  /** The comparator given to `sort`: `a[key] < b[key]` first, then
      `a[key] > b[key]`, otherwise a tie. */
  function CompareCompanies(a: Company, b: Company, o: SortOption): int {
    var x := Field(a, o.key);
    var y := Field(b, o.key);
    if ValueLess(x, y) then (if o.ascending then -1 else 1)
    else if ValueLess(y, x) then (if o.ascending then 1 else -1)
    else 0
  }

  function CompanyComparison(option: string): (Company, Company) -> int {
    ByOption(ParseSortOption(option))
  }

  function ByOption(o: SortOption): (Company, Company) -> int {
    (a: Company, b: Company) => CompareCompanies(a, b, o)
  }

  function IntCompare(a: int, b: int, ascending: bool): int {
    if a < b then (if ascending then -1 else 1)
    else if b < a then (if ascending then 1 else -1)
    else 0
  }

  function IntOrder(ascending: bool): (int, int) -> int {
    (a: int, b: int) => IntCompare(a, b, ascending)
  }

  lemma IntOrderComparator(ascending: bool)
    ensures Comparator(IntOrder(ascending))
  {
  }

  /** Whether the key names one of the text fields. */
  predicate TextKey(key: string) {
    Field(Company(0, "", "", "", ""), key).Text?
  }

  /** On a text key the comparator is the string comparison of that field. */
  lemma TextKeyCompares(a: Company, b: Company, o: SortOption)
    requires TextKey(o.key)
    ensures CompareCompanies(a, b, o) == StrCompare(Field(a, o.key).text, Field(b, o.key).text, o.ascending)
  {
    var x := Field(a, o.key).text;
    var y := Field(b, o.key).text;
    StrLessAsymmetric(x, y);
    StrLessIrreflexive(x);
    StrLessTotal(x, y);
  }

  lemma TextKeyConsistent(o: SortOption)
    requires TextKey(o.key)
    ensures Comparator(ByOption(o))
  {
    var key := (c: Company) => Field(c, o.key).text;
    StrCompareComparator(o.ascending);
    forall a: Company, b: Company
      ensures ByOption(o)(a, b) == StrOrder(o.ascending)(key(a), key(b))
    {
      TextKeyCompares(a, b, o);
    }
    ComparatorPointwise(ByOption(o), key, StrOrder(o.ascending));
  }

  lemma IdKeyConsistent(o: SortOption)
    requires o.key == "companyID"
    ensures Comparator(ByOption(o))
  {
    IntOrderComparator(o.ascending);
    ComparatorPointwise(ByOption(o), (c: Company) => c.companyID, IntOrder(o.ascending));
  }

  /** For every option the comparator is consistent: on a text key it is the
      string comparison of that field, on the ID the numeric one, and on an
      unknown key every pair ties. */
  lemma CompanyComparisonConsistent(option: string)
    ensures Comparator(CompanyComparison(option))
  {
    var o := ParseSortOption(option);
    if o.key == "companyID" {
      IdKeyConsistent(o);
    } else if TextKey(o.key) {
      TextKeyConsistent(o);
    } else {
      assert forall a, b :: ByOption(o)(a, b) == 0;
    }
  }

  /** The name filter: the lower-cased company name contains the lower-cased query. */
  function NameMatches(query: string): Company -> bool {
    (c: Company) => MatchesQuery(c.companyName, query)
  }

  /** `filteredCompanies`: sort first, then filter, as the screen does. */
  function FilteredCompanies(companies: seq<Company>, query: string, option: string): seq<Company> {
    Filter(Sort(companies, CompanyComparison(option)), NameMatches(query))
  }

  /** The shown list holds exactly the matching companies, each as often as
      loaded, in sorted order, and equals filtering before sorting. */
  lemma FilteredCompaniesSpec(companies: seq<Company>, query: string, option: string)
    ensures FilteredCompanies(companies, query, option)
         == Sort(Filter(companies, NameMatches(query)), CompanyComparison(option))
    ensures multiset(FilteredCompanies(companies, query, option)) == multiset(Filter(companies, NameMatches(query)))
    ensures SortedBy(FilteredCompanies(companies, query, option), CompanyComparison(option))
    ensures forall c :: c in FilteredCompanies(companies, query, option)
                    <==> c in companies && MatchesQuery(c.companyName, query)
  {
    var cmp := CompanyComparison(option);
    CompanyComparisonConsistent(option);
    FilterSortCommute(companies, cmp, NameMatches(query));
    SortSorted(Filter(companies, NameMatches(query)), cmp);
    var sorted := Sort(companies, cmp);
    forall c
      ensures c in FilteredCompanies(companies, query, option) <==> c in companies && MatchesQuery(c.companyName, query)
    {
      assert c in sorted <==> c in multiset(sorted);
      assert c in companies <==> c in multiset(companies);
    }
  }

  /** The initial option sorts by company name, ascending. */
  lemma DefaultSortIsNameAscending()
    ensures ParseSortOption(DEFAULT_SORT) == SortOption("companyName", true)
  {
    SortOptionRoundTrip("companyName", "asc");
    assert "companyName" + "-" + "asc" == DEFAULT_SORT;
  }

  /** With the initial option, a company listed later never has a
      lexicographically smaller name than one listed earlier. */
  lemma ByNameAscending(companies: seq<Company>, query: string, i: nat, j: nat)
    requires i < j < |FilteredCompanies(companies, query, DEFAULT_SORT)|
    ensures var shown := FilteredCompanies(companies, query, DEFAULT_SORT);
            !StrLess(shown[j].companyName, shown[i].companyName)
  {
    var shown := FilteredCompanies(companies, query, DEFAULT_SORT);
    var cmp := CompanyComparison(DEFAULT_SORT);
    CompanyComparisonConsistent(DEFAULT_SORT);
    SortSorted(companies, cmp);
    FilterPreservesSorted(Sort(companies, cmp), NameMatches(query), cmp);
    DefaultSortIsNameAscending();
    assert cmp(shown[i], shown[j]) <= 0;
  }

  // ---------------------------------------------------------------------------
  // The screen's state
  // ---------------------------------------------------------------------------

  datatype CompaniesView = CompaniesView(
    companies: seq<Company>,
    loading: bool,
    currentPage: nat,
    filter: string,
    sortOption: string)

  function Initial(): CompaniesView {
    CompaniesView([], true, 1, "", DEFAULT_SORT)
  }

  /** The fetch effect: without a user it returns before the `try`, so the
      screen keeps loading; otherwise a 2xx answer replaces the list, a failure
      keeps it, and loading ends. */
  function Loaded(v: CompaniesView, hasUser: bool, response: Response<seq<Company>>): (w: CompaniesView)
    ensures !hasUser ==> w == v
    ensures hasUser ==> !w.loading
    ensures hasUser && Succeeded(response) ==> w.companies == response.body
    ensures !Succeeded(response) ==> w.companies == v.companies
    ensures w.(companies := v.companies, loading := v.loading) == v
  {
    if !hasUser then v
    else if Succeeded(response) then v.(companies := response.body, loading := false)
    else v.(loading := false)
  }

  function Shown(v: CompaniesView): seq<Company> {
    FilteredCompanies(v.companies, v.filter, v.sortOption)
  }

  function TotalPagesOf(v: CompaniesView): nat {
    TotalPages(|Shown(v)|, ITEMS_PER_PAGE)
  }

  /** `currentCompanies`, on the 1-based page. */
  function CurrentCompanies(v: CompaniesView): seq<Company>
    requires v.currentPage >= 1
  {
    PageFromOne(Shown(v), v.currentPage, ITEMS_PER_PAGE)
  }

  /** Pages 1 to `totalPages` show the filtered list exactly once, and a page
      has rows exactly when it is at most the page count. */
  lemma PagesShowEverything(v: CompaniesView)
    requires v.currentPage >= 1
    ensures Pages(Shown(v), TotalPagesOf(v), ITEMS_PER_PAGE) == Shown(v)
    ensures |CurrentCompanies(v)| <= ITEMS_PER_PAGE
    ensures |CurrentCompanies(v)| > 0 <==> v.currentPage <= TotalPagesOf(v)
  {
    PagesCoverList(Shown(v), ITEMS_PER_PAGE);
    PageFromOneShift(Shown(v), v.currentPage, ITEMS_PER_PAGE);
    PageShape(Shown(v), v.currentPage - 1, ITEMS_PER_PAGE);
  }

  /** The Previous and Next buttons as written: Next is disabled only when the
      page equals the page count. */
  function ClickAsWritten(v: CompaniesView, direction: string): (w: CompaniesView)
    requires v.currentPage >= 1
    ensures w.currentPage >= 1
    ensures w.(currentPage := v.currentPage) == v
    ensures w.currentPage > v.currentPage ==> direction == "next" && v.currentPage != TotalPagesOf(v)
    ensures w.currentPage < v.currentPage ==> direction == "prev" && v.currentPage != 1
  {
    v.(currentPage := ClickFromOne(v.currentPage, TotalPagesOf(v), direction))
  }

  /** When the filter matches no company the as-written Next button moves on
      to a page 2 that is as empty as page 1, and stays enabled there. */
  lemma NextPastEmptyList(v: CompaniesView)
    requires v.currentPage == 1 && Shown(v) == []
    ensures ClickAsWritten(v, "next").currentPage == 2
    ensures |CurrentCompanies(ClickAsWritten(v, "next"))| == 0
    ensures NextEnabledFromOne(2, TotalPagesOf(v))
  {
    NextRunsPastLastPage();
  }

  /** The buttons with Next disabled from the last page on. */
  function Click(v: CompaniesView, direction: string): (w: CompaniesView)
    requires v.currentPage >= 1
    ensures w.currentPage >= 1
    ensures w.(currentPage := v.currentPage) == v
    ensures v.currentPage <= TotalPagesOf(v) ==> |CurrentCompanies(w)| > 0 || TotalPagesOf(v) == 0
  {
    PagesShowEverything(v.(currentPage := ClickBounded(v.currentPage, TotalPagesOf(v), direction)));
    v.(currentPage := ClickBounded(v.currentPage, TotalPagesOf(v), direction))
  }
}

=== FILE: dashboard.dfy ===
/** The dashboard: counts of the user's own requests by status and the total
    they were reimbursed, and the same figures for their team when their
    permission level is above 1. */
module Dashboard {
  import opened Base
  import opened Listing
  import opened Reimbursement

  datatype DashboardView = DashboardView(
    myRequests: seq<Request>,
    teamRequests: seq<Request>,
    loading: bool)

  /** The state on first render. */
  function Initial(): DashboardView {
    DashboardView([], [], true)
  }

  /** What one run of the fetch effect did: the new state and which of the two
      requests went out. */
  datatype RefreshStep = RefreshStep(view: DashboardView, mySent: bool, teamSent: bool)

  /** The fetch effect with both answers in. The own-requests fetch needs a
      user; the team fetch also returns early on `permissionLevel <= 1`, so a
      missing token skips it but a token without the claim does not. A 2xx
      answer replaces its list and anything else keeps it. Loading ends
      unconditionally, without waiting for either answer. */
  function Refresh(v: DashboardView, hasUser: bool, level: Claim<int>,
                   mine: Response<seq<Request>>, team: Response<seq<Request>>): (step: RefreshStep)
    ensures !step.view.loading
    ensures step.mySent <==> hasUser
    ensures step.teamSent <==> hasUser && (AboveOne(level) || level.Absent?)
    ensures step.view.myRequests == if step.mySent && Succeeded(mine) then mine.body else v.myRequests
    ensures step.view.teamRequests == if step.teamSent && Succeeded(team) then team.body else v.teamRequests
  {
    LevelTests(level);
    var mySent := hasUser;
    var teamSent := hasUser && !AtMostOne(level);
    var my := if mySent && Succeeded(mine) then mine.body else v.myRequests;
    var tm := if teamSent && Succeeded(team) then team.body else v.teamRequests;
    RefreshStep(DashboardView(my, tm, false), mySent, teamSent)
  }

  // ---------------------------------------------------------------------------
  // The figures on the cards
  // ---------------------------------------------------------------------------

  /** `amounts.reduce((sum, amount) => sum + amount, 0)`, in exact arithmetic. */
  function Sum(amounts: seq<real>): real {
    if amounts == [] then 0.0 else Sum(amounts[..|amounts| - 1]) + amounts[|amounts| - 1]
  }

  /** The summed amounts of every request in the list. */
  function SumAll(rs: seq<Request>): real {
    if rs == [] then 0.0 else SumAll(rs[..|rs| - 1]) + Sum(rs[|rs| - 1].Amounts)
  }

  predicate NonNegative(amounts: seq<real>) {
    forall i :: 0 <= i < |amounts| ==> amounts[i] >= 0.0
  }

  /** Amounts that are never negative sum to a non-negative total. */
  lemma {:induction false} SumNonNegative(amounts: seq<real>)
    requires NonNegative(amounts)
    ensures Sum(amounts) >= 0.0
    decreases |amounts|
  {
    if amounts != [] {
      SumNonNegative(amounts[..|amounts| - 1]);
    }
  }

  lemma {:induction false} SumAllNonNegative(rs: seq<Request>)
    requires forall i :: 0 <= i < |rs| ==> NonNegative(rs[i].Amounts)
    ensures SumAll(rs) >= 0.0
    decreases |rs|
  {
    if rs != [] {
      SumAllNonNegative(rs[..|rs| - 1]);
      SumNonNegative(rs[|rs| - 1].Amounts);
    }
  }

  /** Adding up two lists one after the other is adding up their concatenation. */
  lemma {:induction false} SumAllConcat(a: seq<Request>, b: seq<Request>)
    ensures SumAll(a + b) == SumAll(a) + SumAll(b)
    decreases |b|
  {
    if b == [] {
      assert a + b == a;
    } else {
      var b' := b[..|b| - 1];
      assert (a + b)[..|a + b| - 1] == a + b';
      assert (a + b)[|a + b| - 1] == b[|b| - 1];
      SumAllConcat(a, b');
    }
  }

  /** `totalApproved...`: the summed amounts of the approved requests only. */
  function ApprovedTotal(rs: seq<Request>): real {
    SumAll(Filter(rs, HasStatus(APPROVED)))
  }

  /** The approved total of two lists put together is the sum of their totals:
      every request contributes on its own, and only when it is approved. */
  lemma ApprovedTotalConcat(a: seq<Request>, b: seq<Request>)
    ensures ApprovedTotal(a + b) == ApprovedTotal(a) + ApprovedTotal(b)
  {
    FilterConcat(a, b, HasStatus(APPROVED));
    SumAllConcat(Filter(a, HasStatus(APPROVED)), Filter(b, HasStatus(APPROVED)));
  }

  /** A single request adds its own amounts when approved and nothing otherwise. */
  lemma ApprovedTotalOne(r: Request)
    ensures ApprovedTotal([r]) == if r.Status == APPROVED then Sum(r.Amounts) else 0.0
  {
    FilterHeadTail([r], HasStatus(APPROVED));
    assert [r][1..] == [];
    if r.Status == APPROVED {
      assert Filter([r], HasStatus(APPROVED)) == [r];
      assert [r][..0] == [];
      assert SumAll([r]) == SumAll([]) + Sum(r.Amounts);
    } else {
      assert Filter([r], HasStatus(APPROVED)) == [];
    }
  }

  /** With no negative amount anywhere, the approved total is never negative. */
  lemma ApprovedTotalNonNegative(rs: seq<Request>)
    ensures (forall i :: 0 <= i < |rs| ==> NonNegative(rs[i].Amounts)) ==> ApprovedTotal(rs) >= 0.0
  {
    var approved := Filter(rs, HasStatus(APPROVED));
    if forall i :: 0 <= i < |rs| ==> NonNegative(rs[i].Amounts) {
      FilterIsSubsequence(rs, HasStatus(APPROVED));
      SubsequenceMembers(approved, rs);
      forall i | 0 <= i < |approved|
        ensures NonNegative(approved[i].Amounts)
      {
        assert approved[i] in rs;
      }
      SumAllNonNegative(approved);
    }
  }

  /** The four cards of one section. */
  datatype Stats = Stats(pending: nat, approved: nat, rejected: nat, approvedTotal: real)

  /** The cards for a list: the three status counts never exceed the list, and
      the total is never negative when no amount is. */
  function StatsOf(rs: seq<Request>): (s: Stats)
    ensures s.pending + s.approved + s.rejected <= |rs|
    ensures s.pending == multiset(StatusColumn(rs))[PENDING]
    ensures s.approved == multiset(StatusColumn(rs))[APPROVED]
    ensures s.rejected == multiset(StatusColumn(rs))[REJECTED]
    ensures (forall i :: 0 <= i < |rs| ==> NonNegative(rs[i].Amounts)) ==> s.approvedTotal >= 0.0
  {
    StatusCountsBounded(rs);
    CountIsOccurrences(rs, PENDING);
    CountIsOccurrences(rs, APPROVED);
    CountIsOccurrences(rs, REJECTED);
    ApprovedTotalNonNegative(rs);
    Stats(CountByStatus(rs, PENDING), CountByStatus(rs, APPROVED), CountByStatus(rs, REJECTED), ApprovedTotal(rs))
  }

  /** `permissionLevel > 1`: whether the team section is drawn. */
  predicate TeamSectionShown(level: Claim<int>) {
    AboveOne(level)
  }

  /** What the screen draws: a loading text, or the own cards and, for a
      manager, the team cards. */
  datatype Screen = LoadingText | Cards(mine: Stats, team: Option<Stats>)

  function Render(v: DashboardView, level: Claim<int>): (s: Screen)
    ensures s.LoadingText? <==> v.loading
    ensures s.Cards? ==> s.mine == StatsOf(v.myRequests)
    ensures s.Cards? ==> (s.team.Some? <==> TeamSectionShown(level))
    ensures s.Cards? && s.team.Some? ==> s.team.value == StatsOf(v.teamRequests)
  {
    if v.loading then LoadingText
    else if AboveOne(level) then Cards(StatsOf(v.myRequests), Some(StatsOf(v.teamRequests)))
    else Cards(StatsOf(v.myRequests), None)
  }

  /** Whenever the team section is drawn for a signed-in user, the team list
      was asked for; with no token or a level of at most 1 it never is, and
      the team list stays empty from the first render. */
  lemma TeamFetchMatchesSection(hasUser: bool, level: Claim<int>,
                                mine: Response<seq<Request>>, team: Response<seq<Request>>)
    ensures hasUser && TeamSectionShown(level) ==> Refresh(Initial(), hasUser, level, mine, team).teamSent
    ensures AtMostOne(level) ==> !Refresh(Initial(), hasUser, level, mine, team).teamSent
    ensures AtMostOne(level) ==> Refresh(Initial(), hasUser, level, mine, team).view.teamRequests == []
  {
    LevelTests(level);
  }

  /** A token without a permission level makes the dashboard fetch the team
      list and then never show it. */
  lemma MissingLevelFetchesHiddenTeam(mine: Response<seq<Request>>, team: Response<seq<Request>>)
    ensures var step := Refresh(Initial(), true, Absent, mine, team);
            step.teamSent && Render(step.view, Absent).Cards? && Render(step.view, Absent).team == None
  {
  }
}

=== FILE: employee_upload.dfy ===
/** The "Employee" screen of the company administrator: a CSV file of employees
    is picked (through the file dialog or by dropping it), its rows counted,
    and uploaded with a simulated progress bar and a result popup. */
module EmployeeUpload {
  import opened Base
  import opened Text

  /** A file as the browser describes it. */
  datatype File = File(name: string, size: nat)

  /** `fileInfo`: what the screen shows about the chosen file. */
  datatype FileInfo = FileInfo(name: string, size: nat, rowsCount: int)

  const NO_FILE := FileInfo("", 0, 0)

  const SELECT_ALERT := "Please select a file to upload."
  const UPLOAD_ERROR := "Error uploading file."
  const FAILED_TITLE := "Upload Failed!"
  const SUCCESS_TITLE := "Upload Successful!"

  /** The screen's state. `input` is the file held by the hidden file input,
      which only the file dialog fills; `chosen` is the file `fileInfo`
      describes, however it was picked. `message` is `None` when the server's
      answer had no `message` field. */
  datatype UploadView = UploadView(
    fileInfo: FileInfo,
    input: Option<File>,
    chosen: Option<File>,
    message: Option<string>,
    loading: bool,
    uploadProgress: real,
    popupVisible: bool)

  function Initial(): UploadView {
    UploadView(NO_FILE, None, None, Some(""), false, 0.0, false)
  }

  // ---------------------------------------------------------------------------
  // Counting rows
  // ---------------------------------------------------------------------------

  /** `text.split('\n').length - 1`: the lines after the header. */
  function RowsCount(text: string): (rows: int)
    ensures rows == Occurrences(text, '\n')
  {
    |Split(text, '\n')| - 1
  }

  /** A file of a header and data lines, joined by line breaks, counts exactly
      its data lines. */
  lemma CountsDataLines(header: string, rows: seq<string>)
    requires '\n' !in header
    requires forall k :: 0 <= k < |rows| ==> '\n' !in rows[k]
    ensures RowsCount(Join([header] + rows, '\n')) == |rows|
  {
    SplitJoin([header] + rows, '\n');
  }

  /** A file that ends in a line break counts one row more than it has: the
      empty piece after the last break is counted as a row. */
  lemma TrailingBreakCountsExtraRow(header: string, rows: seq<string>)
    requires '\n' !in header
    requires forall k :: 0 <= k < |rows| ==> '\n' !in rows[k]
    ensures RowsCount(Join([header] + rows + [""], '\n')) == |rows| + 1
  {
    var parts := [header] + rows + [""];
    forall k | 0 <= k < |parts|
      ensures '\n' !in parts[k]
    {
      if 0 < k <= |rows| {
        assert parts[k] == rows[k - 1];
      }
    }
    SplitJoin(parts, '\n');
  }

  // ---------------------------------------------------------------------------
  // Picking a file
  // ---------------------------------------------------------------------------

  /** `handleFileChange`, once the reader has loaded the file's text: nothing
      happens without a file; otherwise the input holds it and `fileInfo`
      describes it with its counted rows. */
  function HandleFileChange(v: UploadView, file: Option<File>, text: string): (w: UploadView)
    ensures file.None? ==> w == v
    ensures file.Some? ==>
              w.fileInfo == FileInfo(file.value.name, file.value.size, Occurrences(text, '\n')) &&
              w.input == file && w.chosen == file
    ensures w.(fileInfo := v.fileInfo, input := v.input, chosen := v.chosen) == v
  {
    if file.None? then v
    else v.(fileInfo := FileInfo(file.value.name, file.value.size, RowsCount(text)), input := file, chosen := file)
  }

  /** `handleDrop`: a dropped file is described at once with zero rows; the
      hidden input is not touched. */
  function HandleDrop(v: UploadView, file: Option<File>): (w: UploadView)
    ensures file.None? ==> w == v
    ensures file.Some? ==> w.fileInfo == FileInfo(file.value.name, file.value.size, 0) && w.chosen == file
    ensures w.input == v.input
    ensures w.(fileInfo := v.fileInfo, chosen := v.chosen) == v
  {
    if file.None? then v
    else v.(fileInfo := FileInfo(file.value.name, file.value.size, 0), chosen := file)
  }

  /** The dropped file's reader has loaded: only the row count changes. */
  function DropLoaded(v: UploadView, text: string): (w: UploadView)
    ensures w.fileInfo.rowsCount == Occurrences(text, '\n')
    ensures w.(fileInfo := v.fileInfo) == v
    ensures w.fileInfo.(rowsCount := v.fileInfo.rowsCount) == v.fileInfo
  {
    v.(fileInfo := v.fileInfo.(rowsCount := RowsCount(text)))
  }

  /** Dropping a file and letting it load describes it exactly as choosing it
      in the dialog does; only the hidden input differs. */
  lemma DropMatchesDialog(v: UploadView, f: File, text: string)
    ensures DropLoaded(HandleDrop(v, Some(f)), text)
         == HandleFileChange(v, Some(f), text).(input := v.input)
  {
  }

  /** `handleRemoveFile`: the file, the message and the progress are reset. */
  function HandleRemoveFile(v: UploadView): (w: UploadView)
    ensures w.fileInfo == NO_FILE && w.input == None && w.chosen == None
    ensures w.message == Some("") && w.uploadProgress == 0.0
    ensures w.loading == v.loading && w.popupVisible == v.popupVisible
  {
    v.(fileInfo := NO_FILE, input := None, chosen := None, message := Some(""), uploadProgress := 0.0)
  }

  /** "Upload Another File": the popup closes and the file is removed. */
  function HandleClosePopup(v: UploadView): (w: UploadView)
    ensures !w.popupVisible
    ensures w == HandleRemoveFile(v).(popupVisible := false)
  {
    HandleRemoveFile(v.(popupVisible := false))
  }

  /** The file the screen describes is the one picked last: the invariant
      every handler keeps. */
  ghost predicate Describes(v: UploadView) {
    v.chosen.Some? ==> v.chosen.value.name == v.fileInfo.name && v.chosen.value.size == v.fileInfo.size
  }

  ghost predicate ChosenWhenNamed(v: UploadView) {
    Describes(v) && (v.fileInfo.name != "" ==> v.chosen.Some?)
  }

  lemma HandlersKeepDescription(v: UploadView, file: Option<File>, text: string)
    requires ChosenWhenNamed(v)
    ensures ChosenWhenNamed(HandleFileChange(v, file, text))
    ensures ChosenWhenNamed(HandleDrop(v, file))
    ensures ChosenWhenNamed(DropLoaded(v, text))
    ensures ChosenWhenNamed(HandleRemoveFile(v))
    ensures ChosenWhenNamed(HandleClosePopup(v))
  {
  }

  // ---------------------------------------------------------------------------
  // The simulated progress bar
  // ---------------------------------------------------------------------------

  const MS_PER_ROW := 4714
  const LOADING_EFFECT_MS := 1000
  const TICK_MS := 300

  /** `totalUploadTime`: 4714 ms per counted row plus one second. */
  function TotalUploadTime(rows: int): int {
    rows * MS_PER_ROW + LOADING_EFFECT_MS
  }

  function Min(a: real, b: real): real {
    if a <= b then a else b
  }

  /** The estimate for a file with `rows` counted rows, in milliseconds. */
  function Estimate(rows: nat): (total: real)
    ensures total >= LOADING_EFFECT_MS as real
  {
    TotalUploadTime(rows) as real
  }

  /** One 300 ms tick: the bar grows by 100 / (total / 300) percent, capped at 100. */
  function Tick(prev: real, rows: nat): real {
    Min(prev + 100.0 / (Estimate(rows) / TICK_MS as real), 100.0)
  }

  /** The bar after `n` ticks from an empty start. */
  function Ticks(n: nat, rows: nat): real {
    if n == 0 then 0.0 else Tick(Ticks(n - 1, rows), rows)
  }

  /** After `n` ticks the bar shows the elapsed share of the estimated time,
      capped at 100: it fills exactly when `n` ticks cover the estimate. */
  lemma {:induction false} TicksFill(n: nat, rows: nat)
    ensures Ticks(n, rows) == Min(n as real * 30000.0 / Estimate(rows), 100.0)
    ensures Ticks(n, rows) == 100.0 <==> n as real * 300.0 >= Estimate(rows)
  {
    var total := Estimate(rows);
    if n > 0 {
      TicksFill(n - 1, rows);
      assert 100.0 / (total / 300.0) == 30000.0 / total;
      assert (n - 1) as real * 30000.0 / total + 30000.0 / total == n as real * 30000.0 / total;
    }
    ShareFull(n as real * 30000.0, total);
  }

  lemma ShareFull(a: real, total: real)
    requires total > 0.0
    ensures a / total >= 100.0 <==> a / 100.0 >= total
  {
    var q := a / total;
    assert q * total == a;
    if q >= 100.0 {
      assert q * total >= 100.0 * total;
    } else {
      assert q * total < 100.0 * total;
    }
  }

  /** The estimate for a file with no rows is the one second of effect, and
      each row adds the same time. */
  lemma EstimateGrowsPerRow(rows: int)
    ensures TotalUploadTime(0) == LOADING_EFFECT_MS
    ensures TotalUploadTime(rows + 1) == TotalUploadTime(rows) + MS_PER_ROW
  {
  }

  // ---------------------------------------------------------------------------
  // Uploading
  // ---------------------------------------------------------------------------

  /** The form posted: the file slot (`None` is the `undefined` the empty
      input yields) and the company ID claim. */
  datatype UploadForm = UploadForm(file: Option<File>, companyID: Claim<int>)

  datatype UploadStep = UploadStep(view: UploadView, sent: Option<UploadForm>, alert: Option<string>)

  /** The state once the upload call settled, whatever form was sent: any
      answer, whatever its status, shows its `message`; a failure shows the
      upload error; either way the bar is full, loading ends, and the popup
      opens (after the 500 ms delay for an answer). */
  function Settle(v: UploadView, response: Response<Option<string>>): (w: UploadView)
    ensures w.uploadProgress == 100.0 && !w.loading && w.popupVisible
    ensures w.message == if response.Thrown? then Some(UPLOAD_ERROR) else response.body
    ensures w.(message := v.message, uploadProgress := v.uploadProgress, loading := v.loading, popupVisible := v.popupVisible) == v
  {
    var message := if response.Thrown? then Some(UPLOAD_ERROR) else response.body;
    v.(message := message, uploadProgress := 100.0, loading := false, popupVisible := true)
  }

  /** `handleUpload` as written: without a described file it alerts and sends
      nothing; otherwise it posts whatever the hidden input holds. */
  function HandleUploadAsWritten(v: UploadView, companyID: Claim<int>, response: Response<Option<string>>): (step: UploadStep)
    ensures step.alert.Some? <==> v.fileInfo.name == ""
    ensures step.alert.Some? ==> step.view == v && step.sent.None? && step.alert.value == SELECT_ALERT
    ensures step.alert.None? ==> step.sent == Some(UploadForm(v.input, companyID))
    ensures step.alert.None? ==> step.view == Settle(v, response)
  {
    if v.fileInfo.name == "" then UploadStep(v, None, Some(SELECT_ALERT))
    else UploadStep(Settle(v, response), Some(UploadForm(v.input, companyID)), None)
  }

  /** A dropped file is never the one uploaded: from a fresh screen the post
      carries no file at all, although the screen names the dropped file. */
  lemma DroppedFileNotUploaded(f: File, text: string, companyID: Claim<int>, response: Response<Option<string>>)
    requires f.name != ""
    ensures var v := DropLoaded(HandleDrop(Initial(), Some(f)), text);
            v.fileInfo.name == f.name &&
            HandleUploadAsWritten(v, companyID, response).sent == Some(UploadForm(None, companyID))
  {
  }

  /** After choosing `a` in the dialog and then dropping `b`, the screen names
      `b` but the post carries `a`. */
  lemma StaleDialogFileUploaded(a: File, b: File, text: string, companyID: Claim<int>,
                                response: Response<Option<string>>)
    requires a != b && b.name != ""
    ensures var v := HandleDrop(HandleFileChange(Initial(), Some(a), text), Some(b));
            v.fileInfo.name == b.name &&
            HandleUploadAsWritten(v, companyID, response).sent == Some(UploadForm(Some(a), companyID))
  {
  }

  /** `handleUpload` posting the file the screen describes. */
  function HandleUpload(v: UploadView, companyID: Claim<int>, response: Response<Option<string>>): (step: UploadStep)
    ensures step.alert.Some? <==> v.fileInfo.name == ""
    ensures step.alert.Some? ==> step.view == v && step.sent.None? && step.alert.value == SELECT_ALERT
    ensures step.alert.None? ==> step.sent.Some? && step.view == Settle(v, response)
  {
    if v.fileInfo.name == "" then UploadStep(v, None, Some(SELECT_ALERT))
    else UploadStep(Settle(v, response), Some(UploadForm(v.chosen, companyID)), None)
  }

  /** With the invariant the handlers keep, the corrected upload always posts
      a file, and it is the one whose name and size the screen shows. */
  lemma UploadSendsShownFile(v: UploadView, companyID: Claim<int>, response: Response<Option<string>>)
    requires ChosenWhenNamed(v) && v.fileInfo.name != ""
    ensures var sent := HandleUpload(v, companyID, response).sent;
            sent.Some? && sent.value.file.Some? &&
            sent.value.file.value.name == v.fileInfo.name && sent.value.file.value.size == v.fileInfo.size
  {
  }

  /** The popup heading: `message.includes('Error')` decides between failure
      and success; an undefined message makes the heading throw (`None`). */
  function PopupTitle(message: Option<string>): (title: Option<string>)
    ensures title.Some? <==> message.Some?
    ensures title == Some(FAILED_TITLE) <==> message.Some? && exists i :: OccursAt(message.value, "Error", i)
  {
    if message.None? then None
    else
      IncludesIff(message.value, "Error");
      Some(if Includes(message.value, "Error") then FAILED_TITLE else SUCCESS_TITLE)
  }

  /** A failed upload is always reported as failed. */
  lemma FailureTitled(v: UploadView, companyID: Claim<int>)
    requires v.fileInfo.name != ""
    ensures PopupTitle(HandleUpload(v, companyID, Thrown).view.message) == Some(FAILED_TITLE)
  {
    assert IsPrefix("Error", UPLOAD_ERROR);
  }
}

=== FILE: listing.dfy ===
/** The list conventions every table screen re-implements: a filter that keeps
    the matching rows in order, the stable comparator-driven sort of
    `Array.prototype.sort`, and fixed-size pagination with Previous/Next buttons,
    either 0-based (requests, team requests) or 1-based (companies). */
module Listing {
  import opened Text

  // ===========================================================================
  // Filtering: `items.filter(keep)`
  // ===========================================================================

  function Filter<T(!new)>(s: seq<T>, keep: T -> bool): (r: seq<T>)
    ensures |r| <= |s|
    ensures forall x :: x in r <==> x in s && keep(x)
    decreases |s|
  {
    if s == [] then [] else (if keep(s[0]) then [s[0]] else []) + Filter(s[1..], keep)
  }

  /** `r` is `s` with some elements dropped and the rest left in order. */
  ghost predicate IsSubsequence<T(!new)>(r: seq<T>, s: seq<T>)
    decreases |s|
  {
    r == [] || (s != [] && ((r[0] == s[0] && IsSubsequence(r[1..], s[1..])) || IsSubsequence(r, s[1..])))
  }

  lemma {:induction false} FilterIsSubsequence<T(!new)>(s: seq<T>, keep: T -> bool)
    ensures IsSubsequence(Filter(s, keep), s)
    decreases |s|
  {
    if s != [] {
      FilterIsSubsequence(s[1..], keep);
      var r := Filter(s, keep);
      if keep(s[0]) {
        assert r[0] == s[0] && r[1..] == Filter(s[1..], keep);
      } else {
        assert r == Filter(s[1..], keep);
      }
    }
  }

  /** Each kept value appears as often as in the input; dropped values vanish. */
  lemma {:induction false} FilterMultiset<T(!new)>(s: seq<T>, keep: T -> bool, x: T)
    ensures multiset(Filter(s, keep))[x] == if keep(x) then multiset(s)[x] else 0
    decreases |s|
  {
    if s != [] {
      FilterMultiset(s[1..], keep, x);
      assert s == [s[0]] + s[1..];
    }
  }

  /** Filtering the filtered list again changes nothing. */
  lemma {:induction false} FilterIdempotent<T(!new)>(s: seq<T>, keep: T -> bool)
    ensures Filter(Filter(s, keep), keep) == Filter(s, keep)
  {
    FilterKeepsAll(Filter(s, keep), keep);
  }

  /** When every element passes, the filter is the identity. */
  lemma {:induction false} FilterKeepsAll<T(!new)>(s: seq<T>, keep: T -> bool)
    requires forall x :: x in s ==> keep(x)
    ensures Filter(s, keep) == s
    decreases |s|
  {
    if s != [] {
      FilterKeepsAll(s[1..], keep);
      assert s == [s[0]] + s[1..];
    }
  }

  /** Filtering distributes over concatenation. */
  lemma {:induction false} FilterConcat<T(!new)>(a: seq<T>, b: seq<T>, keep: T -> bool)
    ensures Filter(a + b, keep) == Filter(a, keep) + Filter(b, keep)
    decreases |a|
  {
    if a != [] {
      assert (a + b)[1..] == a[1..] + b;
      FilterConcat(a[1..], b, keep);
    } else {
      assert a + b == b;
    }
  }

  // ===========================================================================
  // Sorting: the stable `Array.prototype.sort` with a comparator
  // ===========================================================================

  /** A consistent comparator in the sense `Array.prototype.sort` requires:
      swapping the arguments flips the sign, and "not after" is transitive. */
  ghost predicate Comparator<T(!new)>(cmp: (T, T) -> int) {
    && (forall a, b :: cmp(a, b) > 0 <==> cmp(b, a) < 0)
    && (forall a, b, c :: cmp(a, b) <= 0 && cmp(b, c) <= 0 ==> cmp(a, c) <= 0)
  }

  /** No element compares after one that follows it. */
  ghost predicate SortedBy<T(!new)>(s: seq<T>, cmp: (T, T) -> int) {
    forall i, j :: 0 <= i < j < |s| ==> cmp(s[i], s[j]) <= 0
  }

  /** Places `x` in front of the first element it does not compare after. */
  function Insert<T(!new)>(x: T, t: seq<T>, cmp: (T, T) -> int): (r: seq<T>)
    ensures multiset(r) == multiset(t) + multiset{x}
    ensures forall y :: y in r <==> y == x || y in t
    decreases |t|
  {
    if t == [] then [x]
    else if cmp(x, t[0]) <= 0 then [x] + t
    else
      assert t == [t[0]] + t[1..];
      [t[0]] + Insert(x, t[1..], cmp)
  }

  /** The stable sort: an insertion sort, which keeps equal elements in input order. */
  function Sort<T(!new)>(s: seq<T>, cmp: (T, T) -> int): (r: seq<T>)
    ensures multiset(r) == multiset(s)
    ensures |r| == |s|
    decreases |s|
  {
    if s == [] then []
    else
      assert s == [s[0]] + s[1..];
      Insert(s[0], Sort(s[1..], cmp), cmp)
  }

  /** Prepending an element that compares before every element keeps a list sorted. */
  lemma Prepend<T(!new)>(y: T, rest: seq<T>, cmp: (T, T) -> int)
    requires SortedBy(rest, cmp)
    requires forall z :: z in rest ==> cmp(y, z) <= 0
    ensures SortedBy([y] + rest, cmp)
  {
    var r := [y] + rest;
    forall i, j | 0 <= i < j < |r|
      ensures cmp(r[i], r[j]) <= 0
    {
      assert r[j] == rest[j - 1];
      if i == 0 {
        assert rest[j - 1] in rest;
      } else {
        assert r[i] == rest[i - 1];
      }
    }
  }

  /** In a sorted list, what compares before the head compares before every element. */
  lemma BeforeHeadBeforeAll<T(!new)>(x: T, t: seq<T>, cmp: (T, T) -> int)
    requires Comparator(cmp) && SortedBy(t, cmp)
    requires t != [] && cmp(x, t[0]) <= 0
    ensures forall z :: z in t ==> cmp(x, z) <= 0
  {
    forall z | z in t
      ensures cmp(x, z) <= 0
    {
      var k :| 0 <= k < |t| && t[k] == z;
      if k > 0 {
        assert cmp(t[0], t[k]) <= 0;
      }
    }
  }

  lemma {:induction false} InsertSorted<T(!new)>(x: T, t: seq<T>, cmp: (T, T) -> int)
    requires Comparator(cmp) && SortedBy(t, cmp)
    ensures SortedBy(Insert(x, t, cmp), cmp)
    decreases |t|
  {
    if t != [] {
      if cmp(x, t[0]) <= 0 {
        BeforeHeadBeforeAll(x, t, cmp);
        Prepend(x, t, cmp);
      } else {
        assert SortedBy(t[1..], cmp);
        InsertSorted(x, t[1..], cmp);
        var rest := Insert(x, t[1..], cmp);
        assert cmp(t[0], x) <= 0;
        forall z | z in rest
          ensures cmp(t[0], z) <= 0
        {
          if z != x {
            var k :| 0 <= k < |t[1..]| && t[1..][k] == z;
            assert t[k + 1] == z;
          }
        }
        Prepend(t[0], rest, cmp);
      }
    }
  }

  /** Sorting with a consistent comparator yields a sorted permutation. */
  lemma {:induction false} SortSorted<T(!new)>(s: seq<T>, cmp: (T, T) -> int)
    requires Comparator(cmp)
    ensures SortedBy(Sort(s, cmp), cmp)
    decreases |s|
  {
    if s != [] {
      SortSorted(s[1..], cmp);
      InsertSorted(s[0], Sort(s[1..], cmp), cmp);
    }
  }

  /** An already sorted list is returned as it is: the sort moves nothing needlessly. */
  lemma {:induction false} SortOfSorted<T(!new)>(s: seq<T>, cmp: (T, T) -> int)
    requires SortedBy(s, cmp)
    ensures Sort(s, cmp) == s
    decreases |s|
  {
    if s != [] {
      assert SortedBy(s[1..], cmp);
      SortOfSorted(s[1..], cmp);
      if |s| > 1 {
        assert cmp(s[0], s[1..][0]) <= 0;
      }
      assert [s[0]] + s[1..] == s;
    }
  }

  /** A comparator that always answers 0 (the "no sorting" option) leaves the
      list in its original order. */
  lemma AllTiesKeepOrder<T(!new)>(s: seq<T>, cmp: (T, T) -> int)
    requires forall a, b :: cmp(a, b) == 0
    ensures Sort(s, cmp) == s
  {
    SortOfSorted(s, cmp);
  }

  /** The elements comparing equal to `k`. */
  function SameKey<T(!new)>(cmp: (T, T) -> int, k: T): T -> bool {
    x => cmp(x, k) == 0
  }

  lemma {:induction false} InsertStable<T(!new)>(x: T, t: seq<T>, cmp: (T, T) -> int, k: T)
    requires Comparator(cmp)
    ensures Filter(Insert(x, t, cmp), SameKey(cmp, k))
         == (if cmp(x, k) == 0 then [x] else []) + Filter(t, SameKey(cmp, k))
    decreases |t|
  {
    var eq := SameKey(cmp, k);
    if t == [] {
    } else if cmp(x, t[0]) <= 0 {
      FilterConcat([x], t, eq);
    } else {
      var rest := t[1..];
      assert t == [t[0]] + rest;
      InsertBehindHead(x, t[0], rest, cmp);
      InsertStable(x, rest, cmp, k);
      FilterConcat([t[0]], Insert(x, rest, cmp), eq);
      FilterConcat([t[0]], rest, eq);
      SameKeyNotAfter(cmp, x, t[0], k);
    }
  }

  /** Two elements that both compare equal to `k` never compare after one another. */
  lemma SameKeyNotAfter<T(!new)>(cmp: (T, T) -> int, a: T, b: T, k: T)
    requires Comparator(cmp)
    ensures cmp(a, k) == 0 && cmp(b, k) == 0 ==> cmp(a, b) <= 0
  {
    if cmp(a, k) == 0 && cmp(b, k) == 0 {
      assert cmp(k, b) <= 0;
    }
  }

  /** Stability: among elements that compare equal to any given `k`, the sort
      keeps their relative input order. */
  lemma {:induction false} SortStable<T(!new)>(s: seq<T>, cmp: (T, T) -> int, k: T)
    requires Comparator(cmp)
    ensures Filter(Sort(s, cmp), SameKey(cmp, k)) == Filter(s, SameKey(cmp, k))
    decreases |s|
  {
    if s != [] {
      SortStable(s[1..], cmp, k);
      InsertStable(s[0], Sort(s[1..], cmp), cmp, k);
      FilterConcat([s[0]], s[1..], SameKey(cmp, k));
      assert [s[0]] + s[1..] == s;
    }
  }

  lemma {:induction false} FilterInsert<T(!new)>(x: T, t: seq<T>, cmp: (T, T) -> int, keep: T -> bool)
    requires Comparator(cmp) && SortedBy(t, cmp)
    ensures Filter(Insert(x, t, cmp), keep)
         == if keep(x) then Insert(x, Filter(t, keep), cmp) else Filter(t, keep)
    decreases |t|
  {
    if t == [] {
    } else if cmp(x, t[0]) <= 0 {
      FilterInsertFront(x, t, cmp, keep);
    } else {
      assert SortedBy(t[1..], cmp);
      FilterInsert(x, t[1..], cmp, keep);
      FilterInsertBehind(x, t, cmp, keep);
    }
  }

  /** One step of `FilterInsert` when `x` goes behind the head. */
  lemma FilterInsertBehind<T(!new)>(x: T, t: seq<T>, cmp: (T, T) -> int, keep: T -> bool)
    requires t != [] && cmp(x, t[0]) > 0
    requires Filter(Insert(x, t[1..], cmp), keep)
          == if keep(x) then Insert(x, Filter(t[1..], keep), cmp) else Filter(t[1..], keep)
    ensures Filter(Insert(x, t, cmp), keep)
         == if keep(x) then Insert(x, Filter(t, keep), cmp) else Filter(t, keep)
  {
    var rest := Insert(x, t[1..], cmp);
    var f1 := Filter(t[1..], keep);
    FilterHeadTail(t, keep);
    assert Insert(x, t, cmp) == [t[0]] + rest;
    FilterHeadTail([t[0]] + rest, keep);
    assert ([t[0]] + rest)[1..] == rest;
    if keep(x) && keep(t[0]) {
      InsertBehindHead(x, t[0], f1, cmp);
    }
  }

  /** Filtering a non-empty list looks at its head, then filters the tail. */
  lemma FilterHeadTail<T(!new)>(s: seq<T>, keep: T -> bool)
    requires s != []
    ensures Filter(s, keep) == (if keep(s[0]) then [s[0]] + Filter(s[1..], keep) else Filter(s[1..], keep))
  {
  }

  lemma InsertBehindHead<T(!new)>(x: T, h: T, f: seq<T>, cmp: (T, T) -> int)
    requires cmp(x, h) > 0
    ensures Insert(x, [h] + f, cmp) == [h] + Insert(x, f, cmp)
  {
    assert ([h] + f)[1..] == f;
  }

  lemma FilterInsertFront<T(!new)>(x: T, t: seq<T>, cmp: (T, T) -> int, keep: T -> bool)
    requires Comparator(cmp) && SortedBy(t, cmp)
    requires t != [] && cmp(x, t[0]) <= 0
    ensures Filter(Insert(x, t, cmp), keep)
         == if keep(x) then Insert(x, Filter(t, keep), cmp) else Filter(t, keep)
  {
    assert Insert(x, t, cmp) == [x] + t;
    FilterConcat([x], t, keep);
    var ft := Filter(t, keep);
    if keep(x) && ft != [] {
      BeforeHeadBeforeAll(x, t, cmp);
      assert ft[0] in t;
      assert Insert(x, ft, cmp) == [x] + ft;
    }
  }

  /** Sorting then filtering equals filtering then sorting: the order in which a
      screen applies the two does not change what it shows. */
  lemma {:induction false} FilterSortCommute<T(!new)>(s: seq<T>, cmp: (T, T) -> int, keep: T -> bool)
    requires Comparator(cmp)
    ensures Filter(Sort(s, cmp), keep) == Sort(Filter(s, keep), cmp)
    decreases |s|
  {
    if s != [] {
      FilterCommuteStep(s, cmp, keep);
    }
  }

  lemma {:induction false} FilterCommuteStep<T(!new)>(s: seq<T>, cmp: (T, T) -> int, keep: T -> bool)
    requires Comparator(cmp) && s != []
    ensures Filter(Sort(s, cmp), keep) == Sort(Filter(s, keep), cmp)
    decreases |s|, 0
  {
    FilterSortCommute(s[1..], cmp, keep);
    SortSorted(s[1..], cmp);
    FilterInsert(s[0], Sort(s[1..], cmp), cmp, keep);
    FilterConcat([s[0]], s[1..], keep);
    assert [s[0]] + s[1..] == s;
    var f := Filter(s, keep);
    if keep(s[0]) {
      assert f == [s[0]] + Filter(s[1..], keep);
      assert f[1..] == Filter(s[1..], keep);
    } else {
      assert f == Filter(s[1..], keep);
    }
  }

  /** Dropping elements cannot break sortedness. */
  lemma {:induction false} SubsequenceSorted<T(!new)>(r: seq<T>, s: seq<T>, cmp: (T, T) -> int)
    requires IsSubsequence(r, s) && SortedBy(s, cmp)
    ensures SortedBy(r, cmp)
    decreases |s|
  {
    if r != [] {
      assert s != [];
      assert SortedBy(s[1..], cmp);
      if r[0] == s[0] && IsSubsequence(r[1..], s[1..]) {
        SubsequenceSorted(r[1..], s[1..], cmp);
        SubsequenceMembers(r[1..], s[1..]);
        forall z | z in r[1..]
          ensures cmp(s[0], z) <= 0
        {
          var k :| 0 <= k < |s[1..]| && s[1..][k] == z;
          assert s[k + 1] == z;
        }
        Prepend(s[0], r[1..], cmp);
        assert [s[0]] + r[1..] == r;
      } else {
        SubsequenceSorted(r, s[1..], cmp);
      }
    }
  }

  lemma {:induction false} SubsequenceMembers<T(!new)>(r: seq<T>, s: seq<T>)
    requires IsSubsequence(r, s)
    ensures forall x :: x in r ==> x in s
    decreases |s|
  {
    if r != [] {
      if r[0] == s[0] && IsSubsequence(r[1..], s[1..]) {
        SubsequenceMembers(r[1..], s[1..]);
        assert r == [r[0]] + r[1..];
        assert s == [s[0]] + s[1..];
      } else {
        SubsequenceMembers(r, s[1..]);
        assert s == [s[0]] + s[1..];
      }
    }
  }

  /** Filtering a sorted list leaves it sorted. */
  lemma FilterPreservesSorted<T(!new)>(s: seq<T>, keep: T -> bool, cmp: (T, T) -> int)
    requires SortedBy(s, cmp)
    ensures SortedBy(Filter(s, keep), cmp)
  {
    FilterIsSubsequence(s, keep);
    SubsequenceSorted(Filter(s, keep), s, cmp);
  }

  // ---------------------------------------------------------------------------
  // Building comparators
  // ---------------------------------------------------------------------------

  /** The descending variant of an ascending comparator: arguments swapped. */
  function Flip<T(!new)>(cmp: (T, T) -> int): (T, T) -> int {
    (a, b) => cmp(b, a)
  }

  lemma FlipComparator<T(!new)>(cmp: (T, T) -> int)
    requires Comparator(cmp)
    ensures Comparator(Flip(cmp))
  {
  }

  /** A list sorted by the flipped comparator is the reverse order of the original one. */
  lemma FlipSorted<T(!new)>(s: seq<T>, cmp: (T, T) -> int)
    requires SortedBy(s, Flip(cmp))
    ensures forall i, j :: 0 <= i < j < |s| ==> cmp(s[j], s[i]) <= 0
  {
    forall i, j | 0 <= i < j < |s|
      ensures cmp(s[j], s[i]) <= 0
    {
      assert Flip(cmp)(s[i], s[j]) <= 0;
    }
  }

  /** Compare records by a key extracted from each. */
  function ByKey<T(!new), K(!new)>(key: T -> K, cmp: (K, K) -> int): (T, T) -> int {
    (a, b) => cmp(key(a), key(b))
  }

  lemma ByKeyComparator<T(!new), K(!new)>(key: T -> K, cmp: (K, K) -> int)
    requires Comparator(cmp)
    ensures Comparator(ByKey(key, cmp))
  {
    var c := ByKey(key, cmp);
    forall a, b, d | c(a, b) <= 0 && c(b, d) <= 0
      ensures c(a, d) <= 0
    {
      assert cmp(key(a), key(b)) <= 0 && cmp(key(b), key(d)) <= 0;
    }
  }

  /** The comparison the companies and roles screens write out by hand:
      `if (a < b) return asc ? -1 : 1; if (a > b) return asc ? 1 : -1; return 0`. */
  function StrCompare(a: string, b: string, ascending: bool): (r: int)
    ensures r == 0 <==> a == b
  {
    StrLessIrreflexive(a);
    StrLessTotal(a, b);
    if StrLess(a, b) then (if ascending then -1 else 1)
    else if StrLess(b, a) then (if ascending then 1 else -1)
    else 0
  }

  /** The descending comparison is the ascending one with its arguments swapped. */
  lemma StrCompareDescending(a: string, b: string)
    ensures StrCompare(a, b, false) == StrCompare(b, a, true)
  {
    StrLessAsymmetric(a, b);
  }

  /** The string comparison in one direction, as a comparator. */
  function StrOrder(ascending: bool): (string, string) -> int {
    (a: string, b: string) => StrCompare(a, b, ascending)
  }

  /** Both directions of the string comparison are consistent comparators. */
  lemma StrCompareComparator(ascending: bool)
    ensures Comparator(StrOrder(ascending))
  {
    var c := StrOrder(ascending);
    forall a: string, b: string
      ensures c(a, b) > 0 <==> c(b, a) < 0
    {
      StrLessAsymmetric(a, b);
    }
    forall a: string, b: string, d: string | c(a, b) <= 0 && c(b, d) <= 0
      ensures c(a, d) <= 0
    {
      StrLessAsymmetric(a, b);
      StrLessAsymmetric(b, d);
      StrLessAsymmetric(a, d);
      StrLessTotal(a, b);
      StrLessTotal(b, d);
      StrLessTotal(a, d);
      if StrLess(a, b) && StrLess(b, d) {
        StrLessTransitive(a, b, d);
      }
      if StrLess(b, a) && StrLess(d, b) {
        StrLessTransitive(d, b, a);
      }
    }
  }

  /** A comparator that agrees everywhere with a consistent comparator on
      extracted keys is itself consistent. */
  lemma ComparatorPointwise<T(!new), K(!new)>(cmp: (T, T) -> int, key: T -> K, base: (K, K) -> int)
    requires Comparator(base)
    requires forall a, b :: cmp(a, b) == base(key(a), key(b))
    ensures Comparator(cmp)
  {
    ByKeyComparator(key, base);
    assert forall a, b :: cmp(a, b) == ByKey(key, base)(a, b);
  }

  // ---------------------------------------------------------------------------
  // Sort options of the form "<key>-<order>"
  // ---------------------------------------------------------------------------

  /** A dropdown value such as "companyName-desc", read as a key and a direction. */
  datatype SortOption = SortOption(key: string, ascending: bool)

  /** `const [key, order] = option.split('-')` followed by `order === 'asc'`:
      the key is the text before the first dash, and the order is ascending only
      when the second piece is exactly "asc" (a missing piece is `undefined`). */
  function ParseSortOption(option: string): (o: SortOption)
    ensures '-' !in o.key && IsPrefix(o.key, option)
    ensures o.key == option <==> '-' !in option
    ensures o.ascending ==> IsPrefix(o.key + "-asc", option)
  {
    var parts := Split(option, '-');
    SplitShape(option, '-');
    SortOption(parts[0], |parts| > 1 && parts[1] == "asc")
  }

  /** The first piece of a split is a prefix, and when there are more pieces it
      is followed by the separator and the second piece. */
  lemma {:induction false} SplitShape(s: string, sep: char)
    ensures IsPrefix(Split(s, sep)[0], s)
    ensures |Split(s, sep)| == 1 <==> sep !in s
    ensures |Split(s, sep)| > 1 ==> IsPrefix(Split(s, sep)[0] + [sep] + Split(s, sep)[1], s)
    ensures |Split(s, sep)| > 1 ==> |Split(s, sep)[0]| < |s|
    ensures |Split(s, sep)| == 1 ==> Split(s, sep)[0] == s
  {
    var parts := Split(s, sep);
    JoinSplit(s, sep);
    OccurrencesZero(s, sep);
    if |parts| > 1 {
      var tail := Join(parts[1..], sep);
      assert s == parts[0] + [sep] + tail;
      JoinHead(parts[1..], sep);
      assert s == (parts[0] + [sep] + parts[1]) + tail[|parts[1]|..];
    } else {
      assert s == parts[0];
    }
  }

  /** A join starts with its first piece. */
  lemma JoinHead(parts: seq<string>, sep: char)
    requires |parts| >= 1
    ensures IsPrefix(parts[0], Join(parts, sep))
  {
    if |parts| > 1 {
      assert Join(parts, sep) == parts[0] + ([sep] + Join(parts[1..], sep));
    }
  }

  lemma {:induction false} OccurrencesZero(s: string, c: char)
    ensures Occurrences(s, c) == 0 <==> c !in s
    decreases |s|
  {
    if s != [] {
      OccurrencesZero(s[1..], c);
      assert s == [s[0]] + s[1..];
    }
  }

  /** Reading back a dash-free key and order joined by a dash. */
  lemma SortOptionRoundTrip(key: string, order: string)
    requires '-' !in key && '-' !in order
    ensures ParseSortOption(key + "-" + order) == SortOption(key, order == "asc")
  {
    var parts := [key, order];
    assert Join(parts, '-') == key + "-" + order by {
      assert Join(parts[1..], '-') == order;
    }
    SplitJoin(parts, '-');
  }

  // ===========================================================================
  // Pagination
  // ===========================================================================

  /** `s.slice(start, end)` for non-negative bounds: both clamp to the length,
      and an end before the start gives the empty list. */
  function JsSlice<T(!new)>(s: seq<T>, start: nat, end: nat): (r: seq<T>)
    ensures start <= end ==> |r| <= end - start
    ensures |r| == 0 <==> start >= |s| || end <= start
    ensures forall i :: start <= i < end && i < |s| ==> i - start < |r| && r[i - start] == s[i]
  {
    var lo := if start < |s| then start else |s|;
    var hi := if end < lo then lo else if end < |s| then end else |s|;
    s[lo..hi]
  }

  /** `Math.ceil(n / size)`: the least number of pages holding `n` rows. */
  function TotalPages(n: nat, size: nat): (pages: nat)
    requires size > 0
    ensures pages * size >= n
    ensures pages == 0 || (pages - 1) * size < n
  {
    var q := (n + size - 1) / size;
    assert q * size + (n + size - 1) % size == n + size - 1;
    q
  }

  /** The rows shown on 0-based page `p`: `slice(p*size, (p+1)*size)`. */
  function Page<T(!new)>(s: seq<T>, p: nat, size: nat): seq<T> {
    JsSlice(s, p * size, (p + 1) * size)
  }

  /** The rows shown on 1-based page `p`: `slice((p-1)*size, p*size)`. */
  function PageFromOne<T(!new)>(s: seq<T>, p: nat, size: nat): seq<T>
    requires p >= 1
  {
    JsSlice(s, (p - 1) * size, p * size)
  }

  /** 1-based page `p` shows what 0-based page `p - 1` shows. */
  lemma PageFromOneShift<T(!new)>(s: seq<T>, p: nat, size: nat)
    requires p >= 1
    ensures PageFromOne(s, p, size) == Page(s, p - 1, size)
  {
    assert (p - 1 + 1) * size == p * size;
  }

  /** Page `p` holds rows `[p*size, (p+1)*size)`; it is non-empty exactly when
      `p` is below the page count, and only the last page may be short. */
  lemma PageShape<T(!new)>(s: seq<T>, p: nat, size: nat)
    requires size > 0
    ensures |Page(s, p, size)| <= size
    ensures |Page(s, p, size)| > 0 <==> p < TotalPages(|s|, size)
    ensures p + 1 < TotalPages(|s|, size) ==> |Page(s, p, size)| == size
    ensures forall i :: 0 <= i < |Page(s, p, size)| ==> Page(s, p, size)[i] == s[p * size + i]
  {
    var n := TotalPages(|s|, size);
    var r := Page(s, p, size);
    PageBounds(p, n, size, |s|);
    if p + 1 < n {
      var last := p * size + size - 1;
      assert last - p * size < |r|;
    }
    forall i | 0 <= i < |r|
      ensures r[i] == s[p * size + i]
    {
      assert p * size + i < |s|;
    }
  }

  /** The arithmetic behind `PageShape`. */
  lemma PageBounds(p: nat, n: nat, size: nat, len: nat)
    requires size > 0 && n == TotalPages(len, size)
    ensures (p + 1) * size == p * size + size
    ensures p * size < len <==> p < n
    ensures p + 1 < n ==> (p + 1) * size < len
  {
    if p < n {
      MulMonotone(p, n - 1, size);
    } else {
      MulMonotone(n, p, size);
    }
    if p + 1 < n {
      MulMonotone(p + 1, n - 1, size);
    }
  }

  lemma MulMonotone(a: nat, b: nat, c: nat)
    requires a <= b
    ensures a * c <= b * c
  {
  }

  /** The first `k` pages laid end to end. */
  function Pages<T(!new)>(s: seq<T>, k: nat, size: nat): seq<T> {
    if k == 0 then [] else Pages(s, k - 1, size) + Page(s, k - 1, size)
  }

  lemma {:induction false} PagesPrefix<T(!new)>(s: seq<T>, k: nat, size: nat)
    requires size > 0
    ensures Pages(s, k, size) == s[..if k * size < |s| then k * size else |s|]
  {
    if k > 0 {
      PagesPrefix(s, k - 1, size);
      assert (k - 1) * size + size == k * size;
      var lo := if (k - 1) * size < |s| then (k - 1) * size else |s|;
      var hi := if k * size < |s| then k * size else |s|;
      assert Page(s, k - 1, size) == s[lo..hi];
      assert s[..lo] + s[lo..hi] == s[..hi];
    }
  }

  /** The pages `0 .. TotalPages-1` concatenate back to the whole list. */
  lemma PagesCoverList<T(!new)>(s: seq<T>, size: nat)
    requires size > 0
    ensures Pages(s, TotalPages(|s|, size), size) == s
  {
    PagesPrefix(s, TotalPages(|s|, size), size);
  }

  // ---------------------------------------------------------------------------
  // Page navigation
  // ---------------------------------------------------------------------------

  /** `handlePageChange(direction)` of the 0-based screens: "next" moves on only
      below the last page, "prev" moves back only above page 0. */
  function ChangePage(p: nat, total: nat, direction: string): (q: nat)
    ensures q == p || q == p + 1 || q + 1 == p
    ensures q == p + 1 <==> direction == "next" && p + 1 < total
    ensures q + 1 == p <==> direction == "prev" && p > 0
    ensures p < total ==> q < total
    ensures q <= p || q < total
  {
    if direction == "next" && p < total - 1 then p + 1
    else if direction == "prev" && p > 0 then p - 1
    else p
  }

  /** The page reached after a run of button clicks. */
  function Walk(p: nat, total: nat, clicks: seq<string>): nat
    decreases |clicks|
  {
    if clicks == [] then p else Walk(ChangePage(p, total, clicks[0]), total, clicks[1..])
  }

  /** Starting on a valid page, no sequence of clicks leaves `[0, total-1]`. */
  lemma {:induction false} WalkStaysInRange(p: nat, total: nat, clicks: seq<string>)
    requires p < total
    ensures Walk(p, total, clicks) < total
    decreases |clicks|
  {
    if clicks != [] {
      WalkStaysInRange(ChangePage(p, total, clicks[0]), total, clicks[1..]);
    }
  }

  /** Previous is disabled on page 1 of a 1-based screen. */
  predicate PrevEnabledFromOne(p: nat) {
    p != 1
  }

  /** Next is disabled when the page equals the page count (as written). */
  predicate NextEnabledFromOne(p: nat, total: nat) {
    p != total
  }

  /** A click on the Previous or Next button of a 1-based screen; a click on a
      disabled button does nothing. */
  function ClickFromOne(p: nat, total: nat, direction: string): (q: nat)
    requires p >= 1
    ensures q >= 1
    ensures q == p || q == p + 1 || q + 1 == p
    ensures q != p ==> (direction == "prev" && PrevEnabledFromOne(p)) || (direction == "next" && NextEnabledFromOne(p, total))
  {
    if direction == "prev" && PrevEnabledFromOne(p) then p - 1
    else if direction == "next" && NextEnabledFromOne(p, total) then p + 1
    else p
  }

  /** The page reached after a run of clicks on a 1-based screen, as written. */
  function WalkFromOne(p: nat, total: nat, clicks: seq<string>): (q: nat)
    requires p >= 1
    ensures q >= 1
    decreases |clicks|
  {
    if clicks == [] then p else WalkFromOne(ClickFromOne(p, total, clicks[0]), total, clicks[1..])
  }

  /** `n` clicks on the same button. */
  function Repeat(click: string, n: nat): (r: seq<string>)
    ensures |r| == n && forall i :: 0 <= i < n ==> r[i] == click
  {
    seq(n, i => click)
  }

  /** With no rows (zero pages) the as-written Next button never disables:
      `n` clicks from page `p` land on page `p + n`, every one of them empty. */
  lemma {:induction false} NextClicksRunAway(p: nat, n: nat)
    requires p >= 1
    ensures WalkFromOne(p, TotalPages(0, 5), Repeat("next", n)) == p + n
    decreases n
  {
    if n > 0 {
      assert Repeat("next", n)[1..] == Repeat("next", n - 1);
      NextClicksRunAway(p + 1, n - 1);
    }
  }

  /** With no rows at all (zero pages), Next stays enabled on page 1, and each
      click moves one page further past the end. */
  lemma NextRunsPastLastPage()
    ensures NextEnabledFromOne(1, TotalPages(0, 5))
    ensures ClickFromOne(1, TotalPages(0, 5), "next") == 2
    ensures NextEnabledFromOne(2, TotalPages(0, 5))
    ensures Page<int>([], 1, 5) == []
  {
  }

  /** The evidently intended rule: Next only below the last page. */
  predicate NextEnabledBounded(p: nat, total: nat) {
    p < total
  }

  function ClickBounded(p: nat, total: nat, direction: string): (q: nat)
    requires p >= 1
    ensures 1 <= q
    ensures p <= (if total < 1 then 1 else total) ==> q <= (if total < 1 then 1 else total)
    ensures q == p || q == p + 1 || q + 1 == p
  {
    if direction == "prev" && PrevEnabledFromOne(p) then p - 1
    else if direction == "next" && NextEnabledBounded(p, total) then p + 1
    else p
  }

  /** Under the bounded rule a walk from page 1 never leaves `[1, max(1, total)]`. */
  function WalkBounded(p: nat, total: nat, clicks: seq<string>): nat
    requires p >= 1
    decreases |clicks|
  {
    if clicks == [] then p else WalkBounded(ClickBounded(p, total, clicks[0]), total, clicks[1..])
  }

  lemma {:induction false} WalkBoundedStaysInRange(p: nat, total: nat, clicks: seq<string>)
    requires 1 <= p <= (if total < 1 then 1 else total)
    ensures 1 <= WalkBounded(p, total, clicks) <= (if total < 1 then 1 else total)
    decreases |clicks|
  {
    if clicks != [] {
      WalkBoundedStaysInRange(ClickBounded(p, total, clicks[0]), total, clicks[1..]);
    }
  }
}

=== FILE: login_page.dfy ===
/** The sign-in page: the credential form, the redirect of a user who is
    already signed in, and the alert after a sign-in attempt. */
module LoginPage {
  import opened Base
  import opened Auth

  datatype Credentials = Credentials(email: string, password: string)

  const EMPTY_CREDENTIALS := Credentials("", "")

  /** Typing into the e-mail field changes the e-mail only. */
  function SetEmail(c: Credentials, email: string): (d: Credentials)
    ensures d.email == email && d.password == c.password
  {
    c.(email := email)
  }

  /** Typing into the password field changes the password only. */
  function SetPassword(c: Credentials, password: string): (d: Credentials)
    ensures d.password == password && d.email == c.email
  {
    c.(password := password)
  }

  /** The redirect effect: a signed-in user is sent to the page of their role. */
  function RedirectIfSignedIn(user: Option<User>): (route: Option<string>)
    ensures route.Some? <==> user.Some?
    ensures user.Some? ==> route == Some(LandingRoute(user.value.role_id))
  {
    if user.Some? then Some(LandingRoute(user.value.role_id)) else None
  }

  /** After a successful sign-in the page's own redirect and the one the
      context performed go to the same place. */
  lemma RedirectAgreesWithLogin(s: Session, response: Response<Option<LoginData>>)
    requires Login(s, true, response).route.Some?
    ensures RedirectIfSignedIn(Login(s, true, response).session.user) == Login(s, true, response).route
  {
  }

  // ---------------------------------------------------------------------------
  // The alert after submitting
  // ---------------------------------------------------------------------------

  const ALERT_TEXT := "Invalid credentials"

  /** The alert as written: `if (!success)` with `success` the value `login`
      returned, which is `undefined` exactly when signing in succeeded. */
  function AlertAsWritten(result: Option<string>): (alert: Option<string>)
    ensures alert.Some? ==> alert.value == ALERT_TEXT
  {
    if result.None? || result == Some("") then Some(ALERT_TEXT) else None
  }

  /** The test is inverted: a successful sign-in raises the "Invalid
      credentials" alert, and a rejected password raises none. */
  lemma AlertInverted(s: Session, status: int, token: string, u: User)
    requires IsOk(status)
    ensures var ok := Login(s, true, Answered(status, Some(LoginData(Some(token), Some(u)))));
            ok.session.user == Some(u) && AlertAsWritten(ok.message) == Some(ALERT_TEXT)
    ensures var rejected := Login(s, true, Answered(401, None));
            rejected.message == Some(INVALID_CREDENTIALS) && AlertAsWritten(rejected.message) == None
  {
  }

  /** The alert raised only when `login` reported a failure. */
  function Alert(result: Option<string>): (alert: Option<string>)
    ensures alert.Some? ==> alert.value == ALERT_TEXT
  {
    if result.Some? then Some(ALERT_TEXT) else None
  }

  /** On the sign-in page (no user yet), the corrected alert appears exactly
      when the attempt left nobody signed in. */
  lemma AlertOnlyOnFailure(s: Session, response: Response<Option<LoginData>>)
    requires s.user.None?
    ensures Alert(Login(s, true, response).message).Some? <==> Login(s, true, response).session.user.None?
  {
  }

  /** `handleSubmit` as written: sign in, then alert when `login` returned
      nothing. A sign-in that succeeds both routes and raises the alert; a
      rejected one raises none. */
  function HandleSubmit(s: Session, inBrowser: bool, response: Response<Option<LoginData>>): (out: (LoginOutcome, Option<string>))
    ensures out.0 == Login(s, inBrowser, response)
    ensures out.1.Some? <==> out.0.message.None?
    ensures out.1.Some? ==> out.1.value == ALERT_TEXT
    ensures inBrowser ==> (out.1.Some? <==> out.0.route.Some?)
    ensures inBrowser && response.Answered? && !IsOk(response.status) ==> out.1.None?
  {
    var outcome := Login(s, inBrowser, response);
    (outcome, AlertAsWritten(outcome.message))
  }

  /** `handleSubmit` with the test corrected: the alert is raised only when the
      attempt failed, and never together with a route. */
  function HandleSubmitCorrected(s: Session, inBrowser: bool, response: Response<Option<LoginData>>): (out: (LoginOutcome, Option<string>))
    ensures out.0 == Login(s, inBrowser, response)
    ensures s.user.None? && inBrowser ==> (out.1.Some? <==> out.0.session.user.None?)
    ensures out.1.Some? ==> out.0.route.None?
  {
    var outcome := Login(s, inBrowser, response);
    (outcome, Alert(outcome.message))
  }
}

=== FILE: my_company.dfy ===
/** The "Manage Company" screen of the company administrator: the company's
    roles, sorted on a lower-cased text rendering of the chosen field and
    filtered by role name, plus the add-role form and the edit toggles. */
module MyCompany {
  import opened Base
  import opened Text
  import opened Listing

  /** A role record as the backend sends it; the name and level may be null. */
  datatype Role = Role(
    RoleID: int,
    RoleName: Option<string>,
    PermissionLevel: Option<int>,
    CompanyID: int)

  /** The sort option selected on first render. */
  const DEFAULT_SORT := "roleName-asc"

  /** The value `role[key]` reads. */
  datatype RoleFieldValue = Text(text: string) | Number(number: int) | Missing

  function RoleField(r: Role, key: string): (v: RoleFieldValue)
    ensures v.Missing? <==> key !in {"RoleID", "RoleName", "PermissionLevel", "CompanyID"}
                              || (key == "RoleName" && r.RoleName.None?)
                              || (key == "PermissionLevel" && r.PermissionLevel.None?)
  {
    if key == "RoleID" then Number(r.RoleID)
    else if key == "CompanyID" then Number(r.CompanyID)
    else if key == "RoleName" then (if r.RoleName.Some? then Text(r.RoleName.value) else Missing)
    else if key == "PermissionLevel" then (if r.PermissionLevel.Some? then Number(r.PermissionLevel.value) else Missing)
    else Missing
  }

  /** JavaScript truthiness of a field value: a non-empty string or a non-zero number. */
  predicate Truthy(v: RoleFieldValue) {
    match v
    case Text(s) => s != ""
    case Number(n) => n != 0
    case Missing => false
  }

  /** `value.toString()`. */
  function Render(v: RoleFieldValue): string {
    match v
    case Text(s) => s
    case Number(n) => IntToDecimal(n)
    case Missing => ""
  }

  /** The sort value of a role under an option key: the field named by the key
      with its first letter capitalised, rendered as lower-case text, or the
      empty string when that field is falsy. */
  function RoleValue(r: Role, key: string): (s: string)
    ensures s == "" <==> !Truthy(RoleField(r, Capitalize(key))) || Render(RoleField(r, Capitalize(key))) == ""
    ensures forall k :: 0 <= k < |s| ==> !IsUpperAscii(s[k])
  {
    var v := RoleField(r, Capitalize(key));
    if Truthy(v) then LowerStr(Render(v)) else ""
  }

  /** The comparator given to `sort`: both values compared as strings. */
  function RoleComparison(option: string): (Role, Role) -> int {
    var o := ParseSortOption(option);
    (a: Role, b: Role) => StrCompare(RoleValue(a, o.key), RoleValue(b, o.key), o.ascending)
  }

  lemma RoleComparisonConsistent(option: string)
    ensures Comparator(RoleComparison(option))
  {
    var o := ParseSortOption(option);
    StrCompareComparator(o.ascending);
    ComparatorPointwise(RoleComparison(option), (r: Role) => RoleValue(r, o.key), StrOrder(o.ascending));
  }

  /** The two option keys read the `RoleName` and `PermissionLevel` fields:
      the lower-cased name, and the level's decimal digits, each `''` when
      the field is null, empty or zero. */
  lemma OptionKeysReadFields(r: Role)
    ensures RoleValue(r, "roleName")
         == if r.RoleName.Some? && r.RoleName.value != "" then LowerStr(r.RoleName.value) else ""
    ensures RoleValue(r, "permissionLevel")
         == if r.PermissionLevel.Some? && r.PermissionLevel.value != 0 then IntToDecimal(r.PermissionLevel.value) else ""
  {
    NameKeyReadsName(r);
    LevelKeyReadsLevel(r);
  }

  lemma NameKeyReadsName(r: Role)
    ensures RoleValue(r, "roleName")
         == if r.RoleName.Some? && r.RoleName.value != "" then LowerStr(r.RoleName.value) else ""
  {
    assert Capitalize("roleName") == "RoleName";
  }

  lemma LevelKeyReadsLevel(r: Role)
    ensures RoleValue(r, "permissionLevel")
         == if r.PermissionLevel.Some? && r.PermissionLevel.value != 0 then IntToDecimal(r.PermissionLevel.value) else ""
  {
    assert Capitalize("permissionLevel") == "PermissionLevel";
    if r.PermissionLevel.Some? {
      LowerDecimal(r.PermissionLevel.value);
    }
  }

  /** The option that sorts by level, ascending. */
  lemma LevelOptionAscending()
    ensures ParseSortOption("permissionLevel-asc") == SortOption("permissionLevel", true)
  {
    SortOptionRoundTrip("permissionLevel", "asc");
    assert "permissionLevel" + "-" + "asc" == "permissionLevel-asc";
  }

  /** Levels 10 and 9 read as the texts "10" and "9". */
  lemma LevelTexts(a: Role, b: Role)
    requires a.PermissionLevel == Some(10) && b.PermissionLevel == Some(9)
    ensures RoleValue(a, "permissionLevel") == "10" && RoleValue(b, "permissionLevel") == "9"
  {
    OptionKeysReadFields(a);
    OptionKeysReadFields(b);
    assert NatToDecimal(10) == NatToDecimal(1) + [DigitChar(0)];
  }

  /** Levels sort as text, not as numbers: ascending, level 10 comes before level 9. */
  lemma LevelsSortAsText(a: Role, b: Role)
    requires a.PermissionLevel == Some(10) && b.PermissionLevel == Some(9)
    ensures RoleComparison("permissionLevel-asc")(a, b) < 0
  {
    LevelOptionAscending();
    LevelTexts(a, b);
    assert StrLess("10", "9");
    assert RoleComparison("permissionLevel-asc")(a, b) == StrCompare("10", "9", true);
  }

  /** A role whose sort field is falsy reads as `''`, which sorts before every
      other value in ascending order and after it in descending order. */
  lemma MissingValuesFirst(a: Role, b: Role, option: string)
    requires RoleValue(a, ParseSortOption(option).key) == ""
    ensures ParseSortOption(option).ascending ==> RoleComparison(option)(a, b) <= 0
    ensures !ParseSortOption(option).ascending ==> RoleComparison(option)(b, a) <= 0
  {
    var o := ParseSortOption(option);
    assert RoleComparison(option)(a, b) == StrCompare("", RoleValue(b, o.key), o.ascending);
    assert RoleComparison(option)(b, a) == StrCompare(RoleValue(b, o.key), "", o.ascending);
    assert !StrLess(RoleValue(b, o.key), "");
  }

  /** The role filter: a truthy `RoleName` whose lower-cased form contains the
      lower-cased query. */
  function NameMatches(query: string): Role -> bool {
    (r: Role) => r.RoleName.Some? && r.RoleName.value != "" && MatchesQuery(r.RoleName.value, query)
  }

  /** `filteredRoles`: sorted first, then filtered. */
  function FilteredRoles(roles: seq<Role>, query: string, option: string): seq<Role> {
    Filter(Sort(roles, RoleComparison(option)), NameMatches(query))
  }

  /** The shown list is sorted, equals filtering before sorting, and holds
      exactly the roles with a non-empty matching name. */
  lemma FilteredRolesSpec(roles: seq<Role>, query: string, option: string)
    ensures FilteredRoles(roles, query, option) == Sort(Filter(roles, NameMatches(query)), RoleComparison(option))
    ensures SortedBy(FilteredRoles(roles, query, option), RoleComparison(option))
    ensures forall r :: r in FilteredRoles(roles, query, option)
                    <==> r in roles && r.RoleName.Some? && r.RoleName.value != "" && MatchesQuery(r.RoleName.value, query)
  {
    var cmp := RoleComparison(option);
    RoleComparisonConsistent(option);
    FilterSortCommute(roles, cmp, NameMatches(query));
    SortSorted(Filter(roles, NameMatches(query)), cmp);
    var sorted := Sort(roles, cmp);
    forall r
      ensures r in FilteredRoles(roles, query, option)
          <==> r in roles && r.RoleName.Some? && r.RoleName.value != "" && MatchesQuery(r.RoleName.value, query)
    {
      assert r in sorted <==> r in multiset(sorted);
      assert r in roles <==> r in multiset(roles);
    }
  }

  // ---------------------------------------------------------------------------
  // The screen's state
  // ---------------------------------------------------------------------------

  const SAVE_CHANGES := "Save Changes"
  const SAVED_CHANGES := "Saved Changes"

  datatype CompanyView = CompanyView(
    isEditing: bool,
    buttonText: string,
    roles: seq<Role>,
    loadingRoles: bool,
    newRoleName: string,
    newRoleLevel: string,
    filter: string,
    sortOption: string)

  function Initial(): CompanyView {
    CompanyView(false, SAVE_CHANGES, [], true, "", "", "", DEFAULT_SORT)
  }

  /** `handleEditToggle`: flips edit mode; leaving edit mode resets the save
      button's label. */
  function HandleEditToggle(v: CompanyView): (w: CompanyView)
    ensures w.isEditing != v.isEditing
    ensures v.isEditing ==> w.buttonText == SAVE_CHANGES
    ensures !v.isEditing ==> w.buttonText == v.buttonText
    ensures w.(isEditing := v.isEditing, buttonText := v.buttonText) == v
  {
    v.(isEditing := !v.isEditing, buttonText := if v.isEditing then SAVE_CHANGES else v.buttonText)
  }

  /** `handleSaveChanges`: the label alternates between the two texts, and
      edit mode always ends. */
  function HandleSaveChanges(v: CompanyView): (w: CompanyView)
    ensures !w.isEditing
    ensures w.buttonText == SAVE_CHANGES || w.buttonText == SAVED_CHANGES
    ensures w.buttonText == SAVED_CHANGES <==> v.buttonText == SAVE_CHANGES
    ensures w.(isEditing := v.isEditing, buttonText := v.buttonText) == v
  {
    v.(buttonText := if v.buttonText == SAVE_CHANGES then SAVED_CHANGES else SAVE_CHANGES, isEditing := false)
  }

  /** Saving twice brings back a label that was one of the two texts. */
  lemma SaveTwiceRestoresLabel(v: CompanyView)
    requires v.buttonText == SAVE_CHANGES || v.buttonText == SAVED_CHANGES
    ensures HandleSaveChanges(HandleSaveChanges(v)).buttonText == v.buttonText
  {
  }

  /** `fetchRoles`: nothing without a user; otherwise a 2xx answer replaces
      the roles, a failure keeps them, and loading ends. */
  function RolesLoaded(v: CompanyView, hasUser: bool, response: Response<seq<Role>>): (w: CompanyView)
    ensures !hasUser ==> w == v
    ensures hasUser ==> !w.loadingRoles
    ensures hasUser && Succeeded(response) ==> w.roles == response.body
    ensures !Succeeded(response) ==> w.roles == v.roles
    ensures w.(roles := v.roles, loadingRoles := v.loadingRoles) == v
  {
    if !hasUser then v
    else if Succeeded(response) then v.(roles := response.body, loadingRoles := false)
    else v.(loadingRoles := false)
  }

  /** The body posted to create a role; the level is sent as typed. */
  datatype RoleBody = RoleBody(roleName: string, permissionLevel: string, companyID: Option<int>)

  /** The new state, the body posted if any, and whether the roles are fetched again. */
  datatype AddRoleStep = AddRoleStep(view: CompanyView, sent: Option<RoleBody>, refetch: bool)

  /** `handleAddRole`: with both inputs non-empty it posts the new role (the
      authorization header reads `user.token`, so without a user the call
      throws before anything is sent); on a 2xx answer the roles are fetched
      again and both inputs are cleared. Nothing else changes. */
  function HandleAddRole(v: CompanyView, hasUser: bool, companyID: Option<int>, response: Response<()>): (step: AddRoleStep)
    ensures step.sent.Some? <==> v.newRoleName != "" && v.newRoleLevel != "" && hasUser
    ensures step.sent.Some? ==> step.sent.value == RoleBody(v.newRoleName, v.newRoleLevel, companyID)
    ensures step.refetch <==> step.sent.Some? && Succeeded(response)
    ensures step.refetch ==> step.view.newRoleName == "" && step.view.newRoleLevel == ""
    ensures !step.refetch ==> step.view == v
    ensures step.view.(newRoleName := v.newRoleName, newRoleLevel := v.newRoleLevel) == v
  {
    if v.newRoleName != "" && v.newRoleLevel != "" && hasUser then
      var body := RoleBody(v.newRoleName, v.newRoleLevel, companyID);
      if Succeeded(response) then AddRoleStep(v.(newRoleName := "", newRoleLevel := ""), Some(body), true)
      else AddRoleStep(v, Some(body), false)
    else AddRoleStep(v, None, false)
  }

  /** `handleDeleteRole`: only after the user confirms, and with a user, is the
      delete request sent; the roles are fetched again only on a 2xx answer. */
  function HandleDeleteRole(roleID: int, confirmed: bool, hasUser: bool, response: Response<()>): (r: (Option<int>, bool))
    ensures r.0.Some? <==> confirmed && hasUser
    ensures r.0.Some? ==> r.0.value == roleID
    ensures r.1 <==> r.0.Some? && Succeeded(response)
  {
    if confirmed && hasUser then (Some(roleID), Succeeded(response)) else (None, false)
  }
}

=== FILE: my_requests.dfy ===
/** The "My Requests" screen: the employee's own requests, filtered by purpose,
    sorted by the chosen mode, and shown five to a 0-based page. */
module MyRequests {
  import opened Base
  import opened Listing
  import opened Reimbursement

  /** The sort options of the dropdown; any other value sorts nothing. */
  datatype SortMode =
    | NoSort
    | PurposeAsc | PurposeDesc
    | AmountAsc | AmountDesc
    | StartDateAsc | StartDateDesc

  /** The option strings the dropdown offers, one per sorting mode. */
  const SORT_OPTIONS: set<string> :=
    {"Purpose asc", "Purpose desc", "Amount asc", "Amount desc",
     "TravelStartDate asc", "TravelStartDate desc"}

  /** The option string of a sorting mode: the `case` label that selects it. */
  function OptionText(m: SortMode): (t: string)
    requires m != NoSort
    ensures t in SORT_OPTIONS
  {
    match m
    case PurposeAsc => "Purpose asc"
    case PurposeDesc => "Purpose desc"
    case AmountAsc => "Amount asc"
    case AmountDesc => "Amount desc"
    case StartDateAsc => "TravelStartDate asc"
    case StartDateDesc => "TravelStartDate desc"
  }

  /** The `switch (sort)` of the comparator: the option strings and the
      `default` branch. Each listed option selects the mode whose label it is;
      anything else selects no sorting. */
  function ParseSortMode(option: string): (m: SortMode)
    ensures m == NoSort <==> option !in SORT_OPTIONS
    ensures m != NoSort ==> OptionText(m) == option
  {
    if option == "Purpose asc" then PurposeAsc
    else if option == "Purpose desc" then PurposeDesc
    else if option == "Amount asc" then AmountAsc
    else if option == "Amount desc" then AmountDesc
    else if option == "TravelStartDate asc" then StartDateAsc
    else if option == "TravelStartDate desc" then StartDateDesc
    else NoSort
  }

  /** Reading back the label of a sorting mode gives that mode, so distinct
      modes have distinct labels. */
  lemma OptionTextRoundTrip(m: SortMode)
    requires m != NoSort
    ensures ParseSortMode(OptionText(m)) == m
    ensures forall n: SortMode :: n != NoSort && OptionText(n) == OptionText(m) ==> n == m
  {
    forall n: SortMode | n != NoSort && OptionText(n) == OptionText(m)
      ensures n == m
    {
      assert ParseSortMode(OptionText(n)) == n;
    }
  }

  /** The three primitive orderings the comparator is built from, supplied from
      outside: `localeCompare` on purposes, the difference of the amount totals,
      and the difference of the parsed start dates. */
  datatype RequestOrders = RequestOrders(
    purpose: (string, string) -> int,
    amount: (seq<real>, seq<real>) -> int,
    date: (string, string) -> int)

  ghost predicate ConsistentOrders(o: RequestOrders) {
    Comparator(o.purpose) && Comparator(o.amount) && Comparator(o.date)
  }

  function ByPurpose(o: RequestOrders): (Request, Request) -> int {
    ByKey((r: Request) => r.Purpose, o.purpose)
  }

  function ByAmount(o: RequestOrders): (Request, Request) -> int {
    ByKey((r: Request) => r.Amounts, o.amount)
  }

  function ByStartDate(o: RequestOrders): (Request, Request) -> int {
    ByKey((r: Request) => r.TravelStartDate, o.date)
  }

  /** The comparator passed to `sort` for each mode: a "desc" case calls the
      ordering with `b` first, and the `default` case returns 0. */
  function Comparison(mode: SortMode, o: RequestOrders): (Request, Request) -> int {
    match mode
    case NoSort => (a: Request, b: Request) => 0
    case PurposeAsc => ByPurpose(o)
    case PurposeDesc => Flip(ByPurpose(o))
    case AmountAsc => ByAmount(o)
    case AmountDesc => Flip(ByAmount(o))
    case StartDateAsc => ByStartDate(o)
    case StartDateDesc => Flip(ByStartDate(o))
  }

  /** Each mode compares on its own column: the ascending modes order two
      requests as the column's ordering orders their values, and each
      descending mode is its ascending mode with the arguments swapped. */
  lemma ModesCompareColumns(o: RequestOrders, a: Request, b: Request)
    ensures Comparison(NoSort, o)(a, b) == 0
    ensures Comparison(PurposeAsc, o)(a, b) == o.purpose(a.Purpose, b.Purpose)
    ensures Comparison(AmountAsc, o)(a, b) == o.amount(a.Amounts, b.Amounts)
    ensures Comparison(StartDateAsc, o)(a, b) == o.date(a.TravelStartDate, b.TravelStartDate)
    ensures Comparison(PurposeDesc, o)(a, b) == Comparison(PurposeAsc, o)(b, a)
    ensures Comparison(AmountDesc, o)(a, b) == Comparison(AmountAsc, o)(b, a)
    ensures Comparison(StartDateDesc, o)(a, b) == Comparison(StartDateAsc, o)(b, a)
  {
  }

  /** When the primitive orderings are consistent, so is every mode's comparator. */
  lemma ComparisonConsistent(mode: SortMode, o: RequestOrders)
    requires ConsistentOrders(o)
    ensures Comparator(Comparison(mode, o))
  {
    ByKeyComparator((r: Request) => r.Purpose, o.purpose);
    ByKeyComparator((r: Request) => r.Amounts, o.amount);
    ByKeyComparator((r: Request) => r.TravelStartDate, o.date);
    match mode
    case NoSort =>
    case PurposeAsc =>
    case PurposeDesc => FlipComparator(ByPurpose(o));
    case AmountAsc =>
    case AmountDesc => FlipComparator(ByAmount(o));
    case StartDateAsc =>
    case StartDateDesc => FlipComparator(ByStartDate(o));
  }

  /** `sortedRequests`: the filtered list sorted under the chosen option. */
  function SortedRequests(rs: seq<Request>, query: string, option: string, o: RequestOrders): seq<Request> {
    Sort(FilterByPurpose(rs, query), Comparison(ParseSortMode(option), o))
  }

  /** Under "none" (the initial option) or any unknown option the filtered list
      keeps its original order. */
  lemma NoSortKeepsOrder(rs: seq<Request>, query: string, option: string, o: RequestOrders)
    requires ParseSortMode(option) == NoSort
    ensures SortedRequests(rs, query, option, o) == FilterByPurpose(rs, query)
  {
    AllTiesKeepOrder(FilterByPurpose(rs, query), Comparison(NoSort, o));
  }

  /** Every mode shows a permutation of the filtered list, whatever the column
      orders do, including comparators that are not consistent. */
  lemma SortedRequestsPermutation(rs: seq<Request>, query: string, option: string, o: RequestOrders)
    ensures multiset(SortedRequests(rs, query, option, o)) == multiset(FilterByPurpose(rs, query))
    ensures |SortedRequests(rs, query, option, o)| == |FilterByPurpose(rs, query)|
  {
  }

  /** Every mode shows a permutation of the filtered list; with consistent
      orderings it is sorted, and requests that tie keep their input order. */
  lemma SortedRequestsSpec(rs: seq<Request>, query: string, option: string, o: RequestOrders, k: Request)
    requires ConsistentOrders(o)
    ensures multiset(SortedRequests(rs, query, option, o)) == multiset(FilterByPurpose(rs, query))
    ensures SortedBy(SortedRequests(rs, query, option, o), Comparison(ParseSortMode(option), o))
    ensures var cmp := Comparison(ParseSortMode(option), o);
            Filter(SortedRequests(rs, query, option, o), SameKey(cmp, k))
              == Filter(FilterByPurpose(rs, query), SameKey(cmp, k))
  {
    var cmp := Comparison(ParseSortMode(option), o);
    ComparisonConsistent(ParseSortMode(option), o);
    SortSorted(FilterByPurpose(rs, query), cmp);
    SortStable(FilterByPurpose(rs, query), cmp, k);
  }

  // ---------------------------------------------------------------------------
  // The screen's state
  // ---------------------------------------------------------------------------

  datatype RequestsView = RequestsView(
    requests: seq<Request>,
    popupVisible: bool,
    selectedRequest: Option<Request>,
    currentPage: nat,
    filter: string,
    sort: string,
    loading: bool)

  /** The state on first render. */
  function Initial(): RequestsView {
    RequestsView([], false, None, 0, "", "none", true)
  }

  /** The fetch effect: nothing happens without a user (the screen keeps
      loading); otherwise a 2xx answer replaces the list, any failure leaves it,
      and loading ends either way. */
  function Loaded(v: RequestsView, hasUser: bool, response: Response<seq<Request>>): (w: RequestsView)
    ensures !hasUser ==> w == v
    ensures hasUser ==> !w.loading
    ensures hasUser && Succeeded(response) ==> w.requests == response.body
    ensures !Succeeded(response) ==> w.requests == v.requests
    ensures w.(requests := v.requests, loading := v.loading) == v
  {
    if !hasUser then v
    else if Succeeded(response) then v.(requests := response.body, loading := false)
    else v.(loading := false)
  }

  function TotalPagesOf(v: RequestsView, o: RequestOrders): nat {
    TotalPages(|SortedRequests(v.requests, v.filter, v.sort, o)|, ITEMS_PER_PAGE)
  }

  /** `currentRequests`: the rows on the current page. */
  function CurrentRequests(v: RequestsView, o: RequestOrders): seq<Request> {
    Page(SortedRequests(v.requests, v.filter, v.sort, o), v.currentPage, ITEMS_PER_PAGE)
  }

  /** The pages `0 .. totalPages-1` together show the sorted list exactly once. */
  lemma PagesShowEverything(v: RequestsView, o: RequestOrders)
    ensures Pages(SortedRequests(v.requests, v.filter, v.sort, o), TotalPagesOf(v, o), ITEMS_PER_PAGE)
         == SortedRequests(v.requests, v.filter, v.sort, o)
    ensures |CurrentRequests(v, o)| <= ITEMS_PER_PAGE
    ensures |CurrentRequests(v, o)| > 0 <==> v.currentPage < TotalPagesOf(v, o)
  {
    PagesCoverList(SortedRequests(v.requests, v.filter, v.sort, o), ITEMS_PER_PAGE);
    PageShape(SortedRequests(v.requests, v.filter, v.sort, o), v.currentPage, ITEMS_PER_PAGE);
  }

  /** `handlePageChange`: only the page moves, within the page count. */
  function HandlePageChange(v: RequestsView, direction: string, o: RequestOrders): (w: RequestsView)
    ensures w.(currentPage := v.currentPage) == v
    ensures v.currentPage < TotalPagesOf(v, o) ==> w.currentPage < TotalPagesOf(v, o)
    ensures w.currentPage > v.currentPage ==> direction == "next" && w.currentPage < TotalPagesOf(v, o)
    ensures w.currentPage < v.currentPage ==> direction == "prev"
  {
    v.(currentPage := ChangePage(v.currentPage, TotalPagesOf(v, o), direction))
  }

  /** "View" opens the detail popup on one request. */
  function HandleViewClick(v: RequestsView, r: Request): (w: RequestsView)
    ensures w.popupVisible && w.selectedRequest == Some(r)
    ensures w.(popupVisible := v.popupVisible, selectedRequest := v.selectedRequest) == v
  {
    v.(selectedRequest := Some(r), popupVisible := true)
  }

  function HandleClosePopup(v: RequestsView): (w: RequestsView)
    ensures !w.popupVisible && w.selectedRequest == None
    ensures w.(popupVisible := v.popupVisible, selectedRequest := v.selectedRequest) == v
  {
    v.(popupVisible := false, selectedRequest := None)
  }
}

=== FILE: new_request.dfy ===
/** The "New Reimbursement Request" form: editing the fields, attaching
    receipts, building the payload that is posted, and the success popup. */
module NewRequest {
  import opened Base
  import opened Text
  import opened Listing

  /** A selected file, as far as the form uses it. */
  datatype File = File(name: string, size: int)

  datatype RequestForm = RequestForm(
    travelAmount: string,
    accommodationAmount: string,
    mealsAmount: string,
    miscellaneousAmount: string,
    travelStartDate: string,
    travelEndDate: string,
    purpose: string,
    description: string,
    receipts: seq<File>)

  /** The form on first render and after a successful submission is dismissed. */
  function EmptyForm(): RequestForm {
    RequestForm("", "", "", "", "", "", "", "", [])
  }

  /** The text inputs `handleInputChange` is called with. */
  datatype FormField =
    | TravelAmount | AccommodationAmount | MealsAmount | MiscellaneousAmount
    | TravelStartDate | TravelEndDate | Purpose | Description

  function Get(f: RequestForm, field: FormField): string {
    match field
    case TravelAmount => f.travelAmount
    case AccommodationAmount => f.accommodationAmount
    case MealsAmount => f.mealsAmount
    case MiscellaneousAmount => f.miscellaneousAmount
    case TravelStartDate => f.travelStartDate
    case TravelEndDate => f.travelEndDate
    case Purpose => f.purpose
    case Description => f.description
  }

  /** `handleInputChange(field, value)`: the named field takes the value, every
      other field and the receipts are kept. */
  function HandleInputChange(f: RequestForm, field: FormField, value: string): (g: RequestForm)
    ensures Get(g, field) == value
    ensures forall other :: other != field ==> Get(g, other) == Get(f, other)
    ensures g.receipts == f.receipts
  {
    match field
    case TravelAmount => f.(travelAmount := value)
    case AccommodationAmount => f.(accommodationAmount := value)
    case MealsAmount => f.(mealsAmount := value)
    case MiscellaneousAmount => f.(miscellaneousAmount := value)
    case TravelStartDate => f.(travelStartDate := value)
    case TravelEndDate => f.(travelEndDate := value)
    case Purpose => f.(purpose := value)
    case Description => f.(description := value)
  }

  /** Setting a field to what it already holds changes nothing; setting it
      twice keeps the last value. */
  lemma InputChangeLaws(f: RequestForm, field: FormField, a: string, b: string)
    ensures HandleInputChange(f, field, Get(f, field)) == f
    ensures HandleInputChange(HandleInputChange(f, field, a), field, b) == HandleInputChange(f, field, b)
  {
  }

  /** `handleFileChange(files)`: the new files go after the receipts already
      attached, which stay where they were; no text field changes. */
  function HandleFileChange(f: RequestForm, files: seq<File>): (g: RequestForm)
    ensures |g.receipts| == |f.receipts| + |files|
    ensures g.receipts[..|f.receipts|] == f.receipts
    ensures g.receipts[|f.receipts|..] == files
    ensures forall field :: Get(g, field) == Get(f, field)
  {
    f.(receipts := f.receipts + files)
  }

  // ---------------------------------------------------------------------------
  // The payload
  // ---------------------------------------------------------------------------

  /** The expense categories, in the order the form checks them. */
  datatype Category = Travel | Accommodation | Meals | Miscellaneous

  const CATEGORIES: seq<Category> := [Travel, Accommodation, Meals, Miscellaneous]

  /** The name a category is posted under. */
  function Name(c: Category): string {
    match c
    case Travel => "Travel"
    case Accommodation => "Accommodation"
    case Meals => "Meals"
    case Miscellaneous => "Miscellaneous"
  }

  /** Different categories are posted under different names. */
  lemma NameInjective(c: Category, d: Category)
    ensures Name(c) == Name(d) ==> c == d
  {
    if c != d {
      assert Name(c)[0] != Name(d)[0] || |Name(c)| != |Name(d)|;
    }
  }

  function Names(cs: seq<Category>): (names: seq<string>)
    ensures |names| == |cs|
    ensures forall k :: 0 <= k < |cs| ==> names[k] == Name(cs[k])
  {
    seq(|cs|, k requires 0 <= k < |cs| => Name(cs[k]))
  }

  /** The amount input of a category. */
  function AmountFor(f: RequestForm, c: Category): string {
    match c
    case Travel => f.travelAmount
    case Accommodation => f.accommodationAmount
    case Meals => f.mealsAmount
    case Miscellaneous => f.miscellaneousAmount
  }

  function HasAmount(f: RequestForm): Category -> bool {
    (c: Category) => AmountFor(f, c) != ""
  }

  /** One `if (amount) { expenseTypes.push(name); amounts.push(parseFloat(amount)) }`. */
  function PushIfFilled(types: seq<Category>, amounts: seq<real>, f: RequestForm, c: Category,
                        parse: string -> real): (seq<Category>, seq<real>)
  {
    if AmountFor(f, c) != "" then (types + [c], amounts + [parse(AmountFor(f, c))]) else (types, amounts)
  }

  /** The checks for `cats`, one after another, onto arrays built so far: the
      filled categories are appended in order, each with its parsed amount,
      and what was already there stays. */
  function BuildFrom(types: seq<Category>, amounts: seq<real>, cats: seq<Category>, f: RequestForm,
                     parse: string -> real): (r: (seq<Category>, seq<real>))
    requires |types| == |amounts|
    ensures |r.0| == |r.1|
    ensures r.0 == types + Filter(cats, HasAmount(f))
    ensures r.1[..|amounts|] == amounts
    ensures forall k :: |types| <= k < |r.0| ==> r.1[k] == parse(AmountFor(f, r.0[k]))
    decreases |cats|
  {
    if cats == [] then (types, amounts)
    else
      var p := PushIfFilled(types, amounts, f, cats[0], parse);
      assert types + Filter(cats, HasAmount(f)) == p.0 + Filter(cats[1..], HasAmount(f));
      BuildFrom(p.0, p.1, cats[1..], f, parse)
  }

  /** The two arrays built by the four checks in order. `parse` stands for
      `parseFloat`. The categories are those of the fixed list whose input is
      non-empty, in list order, and each amount is the parsed input of its
      category. */
  function BuildExpenses(f: RequestForm, parse: string -> real): (r: (seq<Category>, seq<real>))
    ensures r.0 == Filter(CATEGORIES, HasAmount(f))
    ensures |r.1| == |r.0|
    ensures forall k :: 0 <= k < |r.0| ==> r.1[k] == parse(AmountFor(f, r.0[k]))
  {
    assert [] + Filter(CATEGORIES, HasAmount(f)) == Filter(CATEGORIES, HasAmount(f));
    BuildFrom([], [], CATEGORIES, f, parse)
  }

  /** A list in which no value appears twice. */
  ghost predicate NoDuplicates<T(!new)>(s: seq<T>) {
    forall x :: multiset(s)[x] <= 1
  }

  /** Every category is on the fixed list, exactly once. */
  lemma CategoriesListedOnce(c: Category)
    ensures c in CATEGORIES
    ensures multiset(CATEGORIES)[c] == 1
  {
    assert multiset(CATEGORIES)
        == multiset{Travel} + multiset{Accommodation} + multiset{Meals} + multiset{Miscellaneous};
    match c
    case Travel => assert CATEGORIES[0] == c;
    case Accommodation => assert CATEGORIES[1] == c;
    case Meals => assert CATEGORIES[2] == c;
    case Miscellaneous => assert CATEGORIES[3] == c;
  }

  /** The categories are at most the four, in the fixed order, each present
      exactly when its input is non-empty, and never twice. */
  lemma ExpensesShape(f: RequestForm, parse: string -> real)
    ensures |BuildExpenses(f, parse).0| <= 4
    ensures IsSubsequence(BuildExpenses(f, parse).0, CATEGORIES)
    ensures forall c :: c in BuildExpenses(f, parse).0 <==> AmountFor(f, c) != ""
    ensures NoDuplicates(BuildExpenses(f, parse).0)
  {
    var cats := BuildExpenses(f, parse).0;
    FilterIsSubsequence(CATEGORIES, HasAmount(f));
    forall c: Category
      ensures c in cats <==> AmountFor(f, c) != ""
      ensures multiset(cats)[c] <= 1
    {
      CategoriesListedOnce(c);
      FilterMultiset(CATEGORIES, HasAmount(f), c);
    }
  }

  const UPLOADS := "/uploads/"

  /** `receipts.map(file => `/uploads/${file.name}`)`: one path per file, in
      order, from which the file name can be read back. */
  function ReceiptPaths(files: seq<File>): (paths: seq<string>)
    ensures |paths| == |files|
    ensures forall i :: 0 <= i < |files| ==> IsPrefix(UPLOADS, paths[i]) && paths[i][|UPLOADS|..] == files[i].name
  {
    seq(|files|, i requires 0 <= i < |files| => UPLOADS + files[i].name)
  }

  /** Attaching more files leaves the paths of the earlier ones as they were. */
  lemma ReceiptPathsAppend(a: seq<File>, b: seq<File>)
    ensures ReceiptPaths(a + b) == ReceiptPaths(a) + ReceiptPaths(b)
  {
    var whole := ReceiptPaths(a + b);
    forall i | 0 <= i < |a| + |b|
      ensures whole[i] == (ReceiptPaths(a) + ReceiptPaths(b))[i]
    {
      var name := (a + b)[i].name;
      assert whole[i] == UPLOADS + whole[i][|UPLOADS|..];
      if i < |a| {
        var p := ReceiptPaths(a)[i];
        assert p == UPLOADS + p[|UPLOADS|..];
      } else {
        var p := ReceiptPaths(b)[i - |a|];
        assert p == UPLOADS + p[|UPLOADS|..];
      }
    }
  }

  /** The JSON body posted to create the request. */
  datatype RequestPayload = RequestPayload(
    EmployeeID: Option<int>,
    CompanyID: Option<int>,
    ExpenseTypes: seq<string>,
    Amounts: seq<real>,
    TravelStartDate: string,
    TravelEndDate: string,
    Purpose: string,
    Description: string,
    Receipts: seq<string>)

  /** `requestData`: the IDs from the token, the expense arrays, the text
      fields as typed, and one receipt path per attached file. */
  function BuildPayload(f: RequestForm, employeeID: Option<int>, companyID: Option<int>,
                        parse: string -> real): (p: RequestPayload)
    ensures |p.ExpenseTypes| == |p.Amounts|
    ensures p.ExpenseTypes == Names(Filter(CATEGORIES, HasAmount(f)))
    ensures forall k :: 0 <= k < |p.Amounts| ==> p.Amounts[k] == parse(AmountFor(f, Filter(CATEGORIES, HasAmount(f))[k]))
    ensures p.Receipts == ReceiptPaths(f.receipts)
    ensures p.EmployeeID == employeeID && p.CompanyID == companyID
    ensures p.TravelStartDate == f.travelStartDate && p.TravelEndDate == f.travelEndDate
    ensures p.Purpose == f.purpose && p.Description == f.description
  {
    var e := BuildExpenses(f, parse);
    RequestPayload(employeeID, companyID, Names(e.0), e.1, f.travelStartDate, f.travelEndDate,
                   f.purpose, f.description, ReceiptPaths(f.receipts))
  }

  // ---------------------------------------------------------------------------
  // Submitting and the popup
  // ---------------------------------------------------------------------------

  datatype NewRequestView = NewRequestView(form: RequestForm, popupVisible: bool, isSubmissionSuccessful: bool)

  function Initial(): NewRequestView {
    NewRequestView(EmptyForm(), false, false)
  }

  const FAILED_ALERT := "Failed to submit request!"
  const ERROR_ALERT := "An error occurred!"

  /** The new state, the payload that was posted, and the alert shown if any. */
  datatype SubmitStep = SubmitStep(view: NewRequestView, posted: RequestPayload, alert: Option<string>)

  /** `handleSubmit`: the payload is always posted. A 2xx answer opens the
      popup and marks the submission successful; a non-2xx answer alerts the
      failure; a thrown error (network or unreadable JSON) alerts the error.
      The form itself is never changed here. */
  function HandleSubmit(v: NewRequestView, employeeID: Option<int>, companyID: Option<int>,
                        parse: string -> real, response: Response<()>): (step: SubmitStep)
    ensures step.posted == BuildPayload(v.form, employeeID, companyID, parse)
    ensures step.view.form == v.form
    ensures step.alert.None? <==> Succeeded(response)
    ensures Succeeded(response) ==> step.view.popupVisible && step.view.isSubmissionSuccessful
    ensures !Succeeded(response) ==> step.view == v
    ensures response.Thrown? ==> step.alert == Some(ERROR_ALERT)
    ensures response.Answered? && !Succeeded(response) ==> step.alert == Some(FAILED_ALERT)
  {
    var payload := BuildPayload(v.form, employeeID, companyID, parse);
    match response
    case Thrown => SubmitStep(v, payload, Some(ERROR_ALERT))
    case Answered(status, _) =>
      if IsOk(status) then SubmitStep(v.(popupVisible := true, isSubmissionSuccessful := true), payload, None)
      else SubmitStep(v, payload, Some(FAILED_ALERT))
  }

  /** `handleClosePopup`: hides the popup; after a successful submission the
      form is emptied and the success flag cleared, otherwise the form stays. */
  function HandleClosePopup(v: NewRequestView): (w: NewRequestView)
    ensures !w.popupVisible && !w.isSubmissionSuccessful
    ensures v.isSubmissionSuccessful ==> w.form == EmptyForm()
    ensures !v.isSubmissionSuccessful ==> w.form == v.form
  {
    if v.isSubmissionSuccessful then NewRequestView(EmptyForm(), false, false)
    else v.(popupVisible := false)
  }

  /** `handleGoToRequests`: navigates to the requests list, then closes the popup. */
  function HandleGoToRequests(v: NewRequestView): (r: (string, NewRequestView))
    ensures r.0 == "/requests"
    ensures !r.1.popupVisible && !r.1.isSubmissionSuccessful
    ensures v.isSubmissionSuccessful ==> r.1.form == EmptyForm()
  {
    ("/requests", HandleClosePopup(v))
  }

  /** A submission the server accepts, once its popup is closed, leaves an
      empty form; one it refuses keeps everything that was typed. */
  lemma SubmitThenClose(v: NewRequestView, employeeID: Option<int>, companyID: Option<int>,
                        parse: string -> real, response: Response<()>)
    requires !v.isSubmissionSuccessful
    ensures var w := HandleClosePopup(HandleSubmit(v, employeeID, companyID, parse, response).view);
            w.form == (if Succeeded(response) then EmptyForm() else v.form)
  {
  }
}

=== FILE: reimbursement.dfy ===
/** The reimbursement request record as the backend sends it, the purpose
    filter shared by the "My Requests" and "My Team Requests" screens, and
    counting requests by status. */
module Reimbursement {
  import opened Text
  import opened Listing

  /** A request's `Status` as the backend reports it. */
  type Status = string

  const PENDING: Status := "Pending"
  const APPROVED: Status := "Approved"
  const REJECTED: Status := "Rejected"

  /** One reimbursement request, with the backend's field names. Amounts are
      kept as opaque numbers; nothing here adds them up. */
  datatype Request = Request(
    RequestID: int,
    CompanyEmployeeID: int,
    Purpose: string,
    ExpenseTypes: seq<string>,
    Amounts: seq<real>,
    TravelStartDate: string,
    TravelEndDate: string,
    Status: Status,
    Description: string,
    Receipts: seq<string>)

  /** Rows per page on both request screens (`ITEMS_PER_PAGE`). */
  const ITEMS_PER_PAGE: nat := 5

  // ---------------------------------------------------------------------------
  // The purpose filter
  // ---------------------------------------------------------------------------

  /** `request.Purpose.toLowerCase().includes(filter.toLowerCase())`. */
  function PurposeMatches(query: string): Request -> bool {
    (r: Request) => MatchesQuery(r.Purpose, query)
  }

  function FilterByPurpose(rs: seq<Request>, query: string): seq<Request> {
    Filter(rs, PurposeMatches(query))
  }

  /** The filter keeps exactly the requests whose lower-cased purpose contains
      the lower-cased query, each as often as in the input, and in input order. */
  lemma FilterByPurposeSpec(rs: seq<Request>, query: string)
    ensures forall r :: r in FilterByPurpose(rs, query) <==> r in rs && MatchesQuery(r.Purpose, query)
    ensures forall r :: multiset(FilterByPurpose(rs, query))[r]
                     == if MatchesQuery(r.Purpose, query) then multiset(rs)[r] else 0
    ensures IsSubsequence(FilterByPurpose(rs, query), rs)
  {
    FilterIsSubsequence(rs, PurposeMatches(query));
    forall r
      ensures multiset(FilterByPurpose(rs, query))[r]
           == if MatchesQuery(r.Purpose, query) then multiset(rs)[r] else 0
    {
      FilterMultiset(rs, PurposeMatches(query), r);
    }
  }

  /** An empty query keeps every request, in order. */
  lemma EmptyQueryKeepsAll(rs: seq<Request>)
    ensures FilterByPurpose(rs, "") == rs
  {
    forall r | r in rs
      ensures PurposeMatches("")(r)
    {
      MatchesEmptyQuery(r.Purpose);
    }
    FilterKeepsAll(rs, PurposeMatches(""));
  }

  /** Filtering twice with the same query is filtering once. */
  lemma FilterByPurposeIdempotent(rs: seq<Request>, query: string)
    ensures FilterByPurpose(FilterByPurpose(rs, query), query) == FilterByPurpose(rs, query)
  {
    FilterIdempotent(rs, PurposeMatches(query));
  }

  // ---------------------------------------------------------------------------
  // Counting by status
  // ---------------------------------------------------------------------------

  function HasStatus(status: Status): Request -> bool {
    (r: Request) => r.Status == status
  }

  /** `requests.filter(request => request.Status === status).length`. */
  function CountByStatus(rs: seq<Request>, status: Status): (n: nat)
    ensures n <= |rs|
  {
    |Filter(rs, HasStatus(status))|
  }

  /** The status column of a list of requests. */
  function StatusColumn(rs: seq<Request>): (col: seq<Status>)
    ensures |col| == |rs|
    ensures forall i :: 0 <= i < |rs| ==> col[i] == rs[i].Status
  {
    seq(|rs|, i requires 0 <= i < |rs| => rs[i].Status)
  }

  /** The count is the number of times the status occurs in the status column. */
  lemma {:induction false} CountIsOccurrences(rs: seq<Request>, status: Status)
    ensures CountByStatus(rs, status) == multiset(StatusColumn(rs))[status]
    decreases |rs|
  {
    if rs != [] {
      CountIsOccurrences(rs[1..], status);
      assert StatusColumn(rs) == [rs[0].Status] + StatusColumn(rs[1..]);
    }
  }

  lemma {:induction false} CountHeadTail(rs: seq<Request>, status: Status)
    requires rs != []
    ensures CountByStatus(rs, status) == (if rs[0].Status == status then 1 else 0) + CountByStatus(rs[1..], status)
  {
    FilterHeadTail(rs, HasStatus(status));
  }

  /** Pending, approved and rejected requests together are at most all requests
      (a status outside the three is counted in none of them). */
  lemma {:induction false} StatusCountsBounded(rs: seq<Request>)
    ensures CountByStatus(rs, PENDING) + CountByStatus(rs, APPROVED) + CountByStatus(rs, REJECTED) <= |rs|
    decreases |rs|
  {
    if rs != [] {
      StatusCountsBounded(rs[1..]);
      CountHeadTail(rs, PENDING);
      CountHeadTail(rs, APPROVED);
      CountHeadTail(rs, REJECTED);
    }
  }
}

=== FILE: sidebar.dfy ===
/** The navigation sidebar: which menu entries a signed-in user sees, decided
    by the role and permission-level claims of the stored token. */
module Sidebar {
  import opened Base
  import opened Listing
  import MyCompany

  const PRODUCT_ADMIN := "productAdmin"
  const COMPANY_ADMIN := "companyAdmin"

  /** The menu entries, in the order the menu lists them. */
  datatype MenuEntry =
    | CompaniesLink | CreateCompanyLink
    | MyCompanyLink | EmployeeLink | EmployeesLink
    | DashboardLink | NewRequestLink | MyRequestsLink | MyTeamRequestsLink
    | NotificationsLink

  function Path(e: MenuEntry): string {
    match e
    case CompaniesLink => "/companies"
    case CreateCompanyLink => "/company"
    case MyCompanyLink => "/mycompany"
    case EmployeeLink => "/employee"
    case EmployeesLink => "/employees"
    case DashboardLink => "/dashboard"
    case NewRequestLink => "/newrequest"
    case MyRequestsLink => "/requests"
    case MyTeamRequestsLink => "/myteamrequests"
    case NotificationsLink => "/notifications"
  }

  function Label(e: MenuEntry): string {
    match e
    case CompaniesLink => "Companies"
    case CreateCompanyLink => "Create Company"
    case MyCompanyLink => "My Company"
    case EmployeeLink => "Employee"
    case EmployeesLink => "Employees"
    case DashboardLink => "Dashboard"
    case NewRequestLink => "New Request"
    case MyRequestsLink => "My Requests"
    case MyTeamRequestsLink => "My Team Requests"
    case NotificationsLink => "Notifications"
  }

  /** No two entries share a path, so the path is the entry's key and at most
      one entry is highlighted for the current location. */
  lemma PathsDistinct(a: MenuEntry, b: MenuEntry)
    ensures Path(a) == Path(b) <==> a == b
  {
  }

  /** The menu, in order: the product administrator's entries, the company
      administrator's, everyone else's, and Notifications. */
  const PRODUCT_ENTRIES: seq<MenuEntry> := [CompaniesLink, CreateCompanyLink]
  const COMPANY_ENTRIES: seq<MenuEntry> := [MyCompanyLink, EmployeeLink, EmployeesLink]
  const EMPLOYEE_ENTRIES: seq<MenuEntry> := [DashboardLink, NewRequestLink, MyRequestsLink, MyTeamRequestsLink]
  const MENU: seq<MenuEntry> := PRODUCT_ENTRIES + COMPANY_ENTRIES + EMPLOYEE_ENTRIES + [NotificationsLink]

  /** The three kinds of user the menu tells apart. */
  datatype RoleKind = ProductAdmin | CompanyAdmin | OtherRole

  /** The `roleID === ...` tests: only the exact claims name an administrator;
      a missing token or claim is an ordinary user. */
  function KindOf(roleID: Claim<string>): (k: RoleKind)
    ensures k == ProductAdmin <==> roleID == Present(PRODUCT_ADMIN)
    ensures k == CompanyAdmin <==> roleID == Present(COMPANY_ADMIN)
  {
    if roleID == Present(PRODUCT_ADMIN) then ProductAdmin
    else if roleID == Present(COMPANY_ADMIN) then CompanyAdmin
    else OtherRole
  }

  /** The `visible` flag of each entry. The request entries test
      `permissionLevel !== null`, which a token without the claim passes; the
      team entry tests `permissionLevel > 1`, which it fails. */
  predicate Visible(e: MenuEntry, kind: RoleKind, level: Claim<int>) {
    match e
    case CompaniesLink | CreateCompanyLink => kind == ProductAdmin
    case MyCompanyLink | EmployeeLink | EmployeesLink => kind == CompanyAdmin
    case DashboardLink => kind == OtherRole
    case NewRequestLink | MyRequestsLink => !level.NoToken? && kind == OtherRole
    case MyTeamRequestsLink => AboveOne(level) && kind == OtherRole
    case NotificationsLink => true
  }

  /** The role record fetched for the company; the menu never reads it. */
  type Role = MyCompany.Role

  /** The fetched roles and whether that fetch is still outstanding. */
  datatype RolesState = RolesState(roles: seq<Role>, loadingRoles: bool)

  /** `fetchRoles`: without a user or a truthy company ID nothing is asked;
      otherwise a 2xx answer replaces the roles and anything else keeps them.
      Loading ends on every path. */
  function FetchRoles(s: RolesState, hasUser: bool, hasCompany: bool, response: Response<seq<Role>>): (r: (RolesState, bool))
    ensures !r.0.loadingRoles
    ensures r.1 <==> hasUser && hasCompany
    ensures r.0.roles == if r.1 && Succeeded(response) then response.body else s.roles
  {
    if !hasUser || !hasCompany then (s.(loadingRoles := false), false)
    else if Succeeded(response) then (RolesState(response.body, false), true)
    else (s.(loadingRoles := false), true)
  }

  /** Every entry is on the menu. */
  lemma InMenu(e: MenuEntry)
    ensures e in MENU
  {
    if e in PRODUCT_ENTRIES {
    } else if e in COMPANY_ENTRIES {
    } else if e in EMPLOYEE_ENTRIES {
    } else {
      assert e == NotificationsLink;
    }
  }

  /** The `visible` flags as the filter the render applies. */
  function Shows(kind: RoleKind, level: Claim<int>): MenuEntry -> bool {
    (e: MenuEntry) => Visible(e, kind, level)
  }

  /** An entry is listed exactly when it is visible. */
  lemma ListedIffVisible(kind: RoleKind, level: Claim<int>)
    ensures forall e :: e in Filter(MENU, Shows(kind, level)) <==> Visible(e, kind, level)
  {
    forall e
      ensures e in Filter(MENU, Shows(kind, level)) <==> Visible(e, kind, level)
    {
      InMenu(e);
    }
  }

  /** The filter written out for an arbitrary test, from the last entry
      back and without the general filter's contract, so that unfolding it
      over a menu built entry by entry stays cheap. */
  function Kept(s: seq<MenuEntry>, shown: MenuEntry -> bool): seq<MenuEntry> {
    if s == [] then [] else Kept(s[..|s| - 1], shown) + Piece(s[|s| - 1], shown)
  }

  /** What one entry contributes: itself when shown, nothing otherwise. */
  function Piece(e: MenuEntry, shown: MenuEntry -> bool): seq<MenuEntry> {
    if shown(e) then [e] else []
  }

  lemma {:induction false} KeptIsFilter(s: seq<MenuEntry>, shown: MenuEntry -> bool)
    ensures Kept(s, shown) == Filter(s, shown)
  {
    if s != [] {
      var init, last := s[..|s| - 1], s[|s| - 1];
      assert s == init + [last];
      KeptIsFilter(init, shown);
      FilterConcat(init, [last], shown);
      FilterHeadTail([last], shown);
      assert [last][1..] == [];
    }
  }

  /** Keeping a menu with one more entry appends that entry's piece. */
  lemma KeptSnoc(s: seq<MenuEntry>, e: MenuEntry, shown: MenuEntry -> bool)
    ensures Kept(s + [e], shown) == Kept(s, shown) + Piece(e, shown)
  {
    assert (s + [e])[..|s|] == s;
  }

  lemma {:induction false} KeptConcat(a: seq<MenuEntry>, b: seq<MenuEntry>, shown: MenuEntry -> bool)
    ensures Kept(a + b, shown) == Kept(a, shown) + Kept(b, shown)
    decreases |b|
  {
    if b == [] {
      assert a + b == a;
    } else {
      var init, last := b[..|b| - 1], b[|b| - 1];
      assert b == init + [last];
      assert a + b == (a + init) + [last];
      KeptSnoc(a + init, last, shown);
      KeptSnoc(init, last, shown);
      KeptConcat(a, init, shown);
      assert Kept(a, shown) + Kept(init, shown) + Piece(last, shown)
          == Kept(a, shown) + (Kept(init, shown) + Piece(last, shown));
    }
  }

  lemma KeptPair(a: MenuEntry, b: MenuEntry, shown: MenuEntry -> bool)
    ensures Kept([a, b], shown) == Piece(a, shown) + Piece(b, shown)
  {
    assert [a, b] == [a] + [b];
    assert [a] == [] + [a];
    KeptSnoc([], a, shown);
    KeptSnoc([a], b, shown);
  }

  lemma KeptTriple(a: MenuEntry, b: MenuEntry, c: MenuEntry, shown: MenuEntry -> bool)
    ensures Kept([a, b, c], shown) == Piece(a, shown) + Piece(b, shown) + Piece(c, shown)
  {
    assert [a, b, c] == [a, b] + [c];
    KeptSnoc([a, b], c, shown);
    KeptPair(a, b, shown);
  }

  lemma KeptQuad(a: MenuEntry, b: MenuEntry, c: MenuEntry, d: MenuEntry, shown: MenuEntry -> bool)
    ensures Kept([a, b, c, d], shown) == Piece(a, shown) + Piece(b, shown) + Piece(c, shown) + Piece(d, shown)
  {
    assert [a, b, c, d] == [a, b, c] + [d];
    KeptSnoc([a, b, c], d, shown);
    KeptTriple(a, b, c, shown);
  }

  /** An entry's piece under the menu's own test. */
  lemma PieceShows(e: MenuEntry, kind: RoleKind, level: Claim<int>)
    ensures Piece(e, Shows(kind, level)) == if Visible(e, kind, level) then [e] else []
  {
  }

  /** Notifications is shown to everyone. */
  lemma BellShown(kind: RoleKind, level: Claim<int>)
    ensures Piece(NotificationsLink, Shows(kind, level)) == [NotificationsLink]
  {
    PieceShows(NotificationsLink, kind, level);
  }

  /** A menu of three sections and a last entry is kept section by section. */
  lemma KeptSections(a: seq<MenuEntry>, b: seq<MenuEntry>, c: seq<MenuEntry>, last: MenuEntry, shown: MenuEntry -> bool)
    ensures Kept(a + b + c + [last], shown) == Kept(a, shown) + Kept(b, shown) + Kept(c, shown) + Piece(last, shown)
  {
    KeptSnoc(a + b + c, last, shown);
    KeptConcat(a + b, c, shown);
    KeptConcat(a, b, shown);
  }

  /** With the last entry shown and two sections kept empty, the menu is the
      remaining section's kept entries and the last entry. */
  lemma KeptFirstSection(a: seq<MenuEntry>, b: seq<MenuEntry>, c: seq<MenuEntry>, last: MenuEntry, shown: MenuEntry -> bool)
    requires Piece(last, shown) == [last] && Kept(b, shown) == [] && Kept(c, shown) == []
    ensures Kept(a + b + c + [last], shown) == Kept(a, shown) + [last]
  {
    KeptSections(a, b, c, last, shown);
    var kept := Kept(a, shown);
    assert kept + [] + [] == kept;
  }

  lemma KeptSecondSection(a: seq<MenuEntry>, b: seq<MenuEntry>, c: seq<MenuEntry>, last: MenuEntry, shown: MenuEntry -> bool)
    requires Piece(last, shown) == [last] && Kept(a, shown) == [] && Kept(c, shown) == []
    ensures Kept(a + b + c + [last], shown) == Kept(b, shown) + [last]
  {
    KeptSections(a, b, c, last, shown);
    var kept := Kept(b, shown);
    assert [] + kept + [] == kept;
  }

  lemma KeptThirdSection(a: seq<MenuEntry>, b: seq<MenuEntry>, c: seq<MenuEntry>, last: MenuEntry, shown: MenuEntry -> bool)
    requires Piece(last, shown) == [last] && Kept(a, shown) == [] && Kept(b, shown) == []
    ensures Kept(a + b + c + [last], shown) == Kept(c, shown) + [last]
  {
    KeptSections(a, b, c, last, shown);
    var kept := Kept(c, shown);
    assert [] + [] + kept == kept;
  }

  /** The product administrator's section is shown to the product
      administrator alone. */
  lemma ProductSection(kind: RoleKind, level: Claim<int>)
    ensures Kept(PRODUCT_ENTRIES, Shows(kind, level)) == if kind == ProductAdmin then PRODUCT_ENTRIES else []
  {
    KeptPair(CompaniesLink, CreateCompanyLink, Shows(kind, level));
    PieceShows(CompaniesLink, kind, level);
    PieceShows(CreateCompanyLink, kind, level);
  }

  /** The company administrator's section is shown to the company
      administrator alone. */
  lemma CompanySection(kind: RoleKind, level: Claim<int>)
    ensures Kept(COMPANY_ENTRIES, Shows(kind, level)) == if kind == CompanyAdmin then COMPANY_ENTRIES else []
  {
    KeptTriple(MyCompanyLink, EmployeeLink, EmployeesLink, Shows(kind, level));
    PieceShows(MyCompanyLink, kind, level);
    PieceShows(EmployeeLink, kind, level);
    PieceShows(EmployeesLink, kind, level);
  }

  /** No administrator sees the employee section. */
  lemma EmployeeSectionHidden(kind: RoleKind, level: Claim<int>)
    requires kind != OtherRole
    ensures Kept(EMPLOYEE_ENTRIES, Shows(kind, level)) == []
  {
    KeptQuad(DashboardLink, NewRequestLink, MyRequestsLink, MyTeamRequestsLink, Shows(kind, level));
    PieceShows(DashboardLink, kind, level);
    PieceShows(NewRequestLink, kind, level);
    PieceShows(MyRequestsLink, kind, level);
    PieceShows(MyTeamRequestsLink, kind, level);
  }

  /** Anyone else sees the dashboard, the two request pages when there is a
      token, and the team page when the level is above 1. */
  lemma EmployeeSection(level: Claim<int>)
    ensures Kept(EMPLOYEE_ENTRIES, Shows(OtherRole, level))
         == [DashboardLink] + (if level.NoToken? then [] else [NewRequestLink, MyRequestsLink])
          + (if AboveOne(level) then [MyTeamRequestsLink] else [])
  {
    var shown := Shows(OtherRole, level);
    KeptQuad(DashboardLink, NewRequestLink, MyRequestsLink, MyTeamRequestsLink, shown);
    PieceShows(DashboardLink, OtherRole, level);
    PieceShows(NewRequestLink, OtherRole, level);
    PieceShows(MyRequestsLink, OtherRole, level);
    PieceShows(MyTeamRequestsLink, OtherRole, level);
    var create, mine := Piece(NewRequestLink, shown), Piece(MyRequestsLink, shown);
    assert create + mine == if level.NoToken? then [] else [NewRequestLink, MyRequestsLink];
    assert Piece(DashboardLink, shown) + create + mine == [DashboardLink] + (create + mine);
  }

  /** What the sidebar draws: nothing, a loading text, or the menu. */
  datatype SidebarView = Hidden | LoadingRoles | Nav(entries: seq<MenuEntry>)

  /** The render. The auth context offers no `isLoading`, so only the user
      decides whether the sidebar is drawn at all. */
  function Render(hasUser: bool, loadingRoles: bool, roleID: Claim<string>, level: Claim<int>): (v: SidebarView)
    ensures v.Hidden? <==> !hasUser
    ensures v.LoadingRoles? <==> hasUser && loadingRoles
    ensures v.Nav? ==> forall e :: e in v.entries <==> Visible(e, KindOf(roleID), level)
    ensures v.Nav? ==> NotificationsLink in v.entries
  {
    if !hasUser then Hidden
    else if loadingRoles then LoadingRoles
    else
      var kind := KindOf(roleID);
      ListedIffVisible(kind, level);
      assert Visible(NotificationsLink, kind, level);
      assert Shows(kind, level)(NotificationsLink);
      assert NotificationsLink in MENU;
      Nav(Filter(MENU, Shows(kind, level)))
  }

  /** The menu a signed-in user of the given kind sees once roles are loaded. */
  lemma MenuOfRender(roleID: Claim<string>, level: Claim<int>)
    ensures Render(true, false, roleID, level) == Nav(Kept(MENU, Shows(KindOf(roleID), level)))
  {
    KeptIsFilter(MENU, Shows(KindOf(roleID), level));
  }

  /** The exact menus: each administrator sees their own section and
      Notifications. */
  lemma AdminMenus(level: Claim<int>)
    ensures Render(true, false, Present(PRODUCT_ADMIN), level).entries == PRODUCT_ENTRIES + [NotificationsLink]
    ensures Render(true, false, Present(COMPANY_ADMIN), level).entries == COMPANY_ENTRIES + [NotificationsLink]
  {
    MenuOfRender(Present(PRODUCT_ADMIN), level);
    MenuOfRender(Present(COMPANY_ADMIN), level);
    ProductAdminKept(level);
    CompanyAdminKept(level);
  }

  lemma ProductAdminKept(level: Claim<int>)
    ensures Kept(MENU, Shows(ProductAdmin, level)) == PRODUCT_ENTRIES + [NotificationsLink]
  {
    ProductSection(ProductAdmin, level);
    CompanySection(ProductAdmin, level);
    EmployeeSectionHidden(ProductAdmin, level);
    BellShown(ProductAdmin, level);
    KeptFirstSection(PRODUCT_ENTRIES, COMPANY_ENTRIES, EMPLOYEE_ENTRIES, NotificationsLink, Shows(ProductAdmin, level));
  }

  lemma CompanyAdminKept(level: Claim<int>)
    ensures Kept(MENU, Shows(CompanyAdmin, level)) == COMPANY_ENTRIES + [NotificationsLink]
  {
    ProductSection(CompanyAdmin, level);
    CompanySection(CompanyAdmin, level);
    EmployeeSectionHidden(CompanyAdmin, level);
    BellShown(CompanyAdmin, level);
    KeptSecondSection(PRODUCT_ENTRIES, COMPANY_ENTRIES, EMPLOYEE_ENTRIES, NotificationsLink, Shows(CompanyAdmin, level));
  }

  /** Any other user sees the dashboard; the request pages need a token (even
      one without a level claim), and the team page needs a level above 1. */
  lemma EmployeeMenus(roleID: Claim<string>, level: Claim<int>)
    requires roleID != Present(PRODUCT_ADMIN) && roleID != Present(COMPANY_ADMIN)
    ensures Render(true, false, roleID, level).entries
         == [DashboardLink] + (if level.NoToken? then [] else [NewRequestLink, MyRequestsLink])
          + (if AboveOne(level) then [MyTeamRequestsLink] else []) + [NotificationsLink]
  {
    MenuOfRender(roleID, level);
    EmployeeKept(level);
    EmployeeSection(level);
  }

  /** For anyone else the administrator sections drop out, leaving the
      employee section and Notifications. */
  lemma EmployeeKept(level: Claim<int>)
    ensures Kept(MENU, Shows(OtherRole, level))
         == Kept(EMPLOYEE_ENTRIES, Shows(OtherRole, level)) + [NotificationsLink]
  {
    ProductSection(OtherRole, level);
    CompanySection(OtherRole, level);
    BellShown(OtherRole, level);
    KeptThirdSection(PRODUCT_ENTRIES, COMPANY_ENTRIES, EMPLOYEE_ENTRIES, NotificationsLink, Shows(OtherRole, level));
  }
}

=== FILE: team_requests.dfy ===
/** The "My Team Requests" screen: a manager's view of the requests of their
    team, with the approve / reject flow behind a confirmation popup. */
module TeamRequests {
  import opened Base
  import opened Listing
  import opened Reimbursement

  datatype TeamView = TeamView(
    requests: seq<Request>,
    popupVisible: bool,
    confirmationVisible: bool,
    selectedRequest: Option<Request>,
    currentPage: nat,
    filter: string,
    loading: bool,
    action: Option<string>)

  /** The state on first render. */
  function Initial(): TeamView {
    TeamView([], false, false, None, 0, "", true, None)
  }

  /** The fetch effect: nothing happens without a user; otherwise a 2xx answer
      replaces the list, a failure keeps it, and loading ends either way. */
  function Loaded(v: TeamView, hasUser: bool, response: Response<seq<Request>>): (w: TeamView)
    ensures !hasUser ==> w == v
    ensures hasUser ==> !w.loading
    ensures hasUser && Succeeded(response) ==> w.requests == response.body
    ensures !Succeeded(response) ==> w.requests == v.requests
    ensures w.(requests := v.requests, loading := v.loading) == v
  {
    if !hasUser then v
    else if Succeeded(response) then v.(requests := response.body, loading := false)
    else v.(loading := false)
  }

  // ---------------------------------------------------------------------------
  // The table: filtered, unsorted, five rows to a 0-based page
  // ---------------------------------------------------------------------------

  function TotalPagesOf(v: TeamView): nat {
    TotalPages(|FilterByPurpose(v.requests, v.filter)|, ITEMS_PER_PAGE)
  }

  function CurrentRequests(v: TeamView): seq<Request> {
    Page(FilterByPurpose(v.requests, v.filter), v.currentPage, ITEMS_PER_PAGE)
  }

  /** The pages together show the filtered list in its original order, and a
      page has rows exactly when it is below the page count. */
  lemma PagesShowEverything(v: TeamView)
    ensures Pages(FilterByPurpose(v.requests, v.filter), TotalPagesOf(v), ITEMS_PER_PAGE)
         == FilterByPurpose(v.requests, v.filter)
    ensures |CurrentRequests(v)| <= ITEMS_PER_PAGE
    ensures |CurrentRequests(v)| > 0 <==> v.currentPage < TotalPagesOf(v)
  {
    PagesCoverList(FilterByPurpose(v.requests, v.filter), ITEMS_PER_PAGE);
    PageShape(FilterByPurpose(v.requests, v.filter), v.currentPage, ITEMS_PER_PAGE);
  }

  /** `handlePageChange`: only the page moves, and never past the page count. */
  function HandlePageChange(v: TeamView, direction: string): (w: TeamView)
    ensures w.(currentPage := v.currentPage) == v
    ensures v.currentPage < TotalPagesOf(v) ==> w.currentPage < TotalPagesOf(v)
    ensures w.currentPage > v.currentPage ==> direction == "next" && w.currentPage < TotalPagesOf(v)
    ensures w.currentPage < v.currentPage ==> direction == "prev"
  {
    v.(currentPage := ChangePage(v.currentPage, TotalPagesOf(v), direction))
  }

  // ---------------------------------------------------------------------------
  // Popups
  // ---------------------------------------------------------------------------

  function HandleViewClick(v: TeamView, r: Request): (w: TeamView)
    ensures w.popupVisible && w.selectedRequest == Some(r)
    ensures w.(popupVisible := v.popupVisible, selectedRequest := v.selectedRequest) == v
  {
    v.(selectedRequest := Some(r), popupVisible := true)
  }

  function HandleClosePopup(v: TeamView): (w: TeamView)
    ensures !w.popupVisible && w.selectedRequest == None
    ensures w.(popupVisible := v.popupVisible, selectedRequest := v.selectedRequest) == v
  {
    v.(popupVisible := false, selectedRequest := None)
  }

  /** `handleConfirmationClose`: defined on the screen but attached to no
      element ("No" calls `handleConfirmAction(false)` instead); it would
      close only the confirmation. */
  function HandleConfirmationClose(v: TeamView): (w: TeamView)
    ensures !w.confirmationVisible
    ensures w.(confirmationVisible := v.confirmationVisible) == v
  {
    v.(confirmationVisible := false)
  }

  /** "Approve" / "Reject": remembers the action and asks for confirmation;
      the request list is not touched yet. */
  function HandleActionClick(v: TeamView, action: string): (w: TeamView)
    ensures w.action == Some(action) && w.confirmationVisible
    ensures w.requests == v.requests
    ensures w.(action := v.action, confirmationVisible := v.confirmationVisible) == v
  {
    v.(action := Some(action), confirmationVisible := true)
  }

  // ---------------------------------------------------------------------------
  // Approving and rejecting
  // ---------------------------------------------------------------------------

  /** The status a decision writes locally: "Approved" for the action
      "approve", "Rejected" for anything else (including no action). */
  function StatusFor(action: Option<string>): (s: Status)
    ensures s == APPROVED || s == REJECTED
    ensures s == APPROVED <==> action == Some("approve")
  {
    if action == Some("approve") then APPROVED else REJECTED
  }

  /** The local update after a successful decision: every request carrying the
      decided ID takes the new status, every other request is left alone, and
      no field but `Status` changes. */
  function ApplyDecision(rs: seq<Request>, id: int, status: Status): (r: seq<Request>)
    ensures |r| == |rs|
    ensures forall i :: 0 <= i < |rs| ==> r[i].(Status := rs[i].Status) == rs[i]
    ensures forall i :: 0 <= i < |rs| ==> r[i].Status == (if rs[i].RequestID == id then status else rs[i].Status)
    decreases |rs|
  {
    if rs == [] then []
    else
      var head := if rs[0].RequestID == id then rs[0].(Status := status) else rs[0];
      [head] + ApplyDecision(rs[1..], id, status)
  }

  /** Deciding the same request the same way twice changes nothing more. */
  lemma ApplyDecisionIdempotent(rs: seq<Request>, id: int, status: Status)
    ensures ApplyDecision(ApplyDecision(rs, id, status), id, status) == ApplyDecision(rs, id, status)
  {
    var once := ApplyDecision(rs, id, status);
    var twice := ApplyDecision(once, id, status);
    forall i | 0 <= i < |rs|
      ensures twice[i] == once[i]
    {
      assert twice[i].(Status := once[i].Status) == once[i];
    }
  }

  /** A list without the decided ID is returned as it was. */
  lemma ApplyDecisionElsewhere(rs: seq<Request>, id: int, status: Status)
    requires forall i :: 0 <= i < |rs| ==> rs[i].RequestID != id
    ensures ApplyDecision(rs, id, status) == rs
  {
    var r := ApplyDecision(rs, id, status);
    forall i | 0 <= i < |rs|
      ensures r[i] == rs[i]
    {
      assert r[i].(Status := rs[i].Status) == rs[i];
    }
  }

  /** A decision never changes which requests the purpose filter shows, only
      their status: filtering and deciding commute. */
  lemma {:induction false} DecisionKeepsFilter(rs: seq<Request>, id: int, status: Status, query: string)
    ensures FilterByPurpose(ApplyDecision(rs, id, status), query)
         == ApplyDecision(FilterByPurpose(rs, query), id, status)
    decreases |rs|
  {
    if rs != [] {
      var after := ApplyDecision(rs, id, status);
      DecisionKeepsFilter(rs[1..], id, status, query);
      assert after[1..] == ApplyDecision(rs[1..], id, status);
      assert after[0].Purpose == rs[0].Purpose;
      FilterHeadTail(after, PurposeMatches(query));
      FilterHeadTail(rs, PurposeMatches(query));
    }
  }

  /** When exactly one request, at index `i`, carries the decided ID and it is
      pending, a decision moves exactly that one request from the pending
      count to the count of the new status. */
  lemma {:induction false} DecisionMovesOneRequest(rs: seq<Request>, i: nat, status: Status)
    requires i < |rs| && rs[i].Status == PENDING && status != PENDING
    requires forall j :: 0 <= j < |rs| && j != i ==> rs[j].RequestID != rs[i].RequestID
    ensures CountByStatus(ApplyDecision(rs, rs[i].RequestID, status), PENDING) + 1 == CountByStatus(rs, PENDING)
    ensures CountByStatus(ApplyDecision(rs, rs[i].RequestID, status), status) == CountByStatus(rs, status) + 1
    decreases |rs|
  {
    var id := rs[i].RequestID;
    var after := ApplyDecision(rs, id, status);
    assert after[1..] == ApplyDecision(rs[1..], id, status);
    CountHeadTail(after, PENDING);
    CountHeadTail(after, status);
    CountHeadTail(rs, PENDING);
    CountHeadTail(rs, status);
    if i == 0 {
      ApplyDecisionElsewhere(rs[1..], id, status);
    } else {
      DecisionMovesOneRequest(rs[1..], i - 1, status);
    }
  }

  /** What the screen posts to the approve-reject endpoint. */
  datatype ApprovalBody = ApprovalBody(RequestID: int, Action: Option<string>, EmployeeID: Option<int>)

  /** The new screen state, and the body posted if a request went out. */
  datatype ConfirmStep = ConfirmStep(view: TeamView, sent: Option<ApprovalBody>)

  /** `handleConfirmAction(confirm)`: "Yes" with a selected request posts the
      decision and, on a 2xx answer, updates that request's status locally;
      every path ends with both popups closed and the selection and action
      cleared. The page, the filter and the loading flag are never touched. */
  function HandleConfirmAction(v: TeamView, confirm: bool, employeeID: Option<int>, response: Response<()>): (step: ConfirmStep)
    ensures step.sent.Some? <==> confirm && v.selectedRequest.Some?
    ensures step.sent.Some? ==> step.sent.value == ApprovalBody(v.selectedRequest.value.RequestID, v.action, employeeID)
    ensures !step.view.popupVisible && !step.view.confirmationVisible
    ensures step.view.selectedRequest == None && step.view.action == None
    ensures step.view.currentPage == v.currentPage && step.view.filter == v.filter && step.view.loading == v.loading
    ensures !(step.sent.Some? && Succeeded(response)) ==> step.view.requests == v.requests
    ensures step.sent.Some? && Succeeded(response) ==>
              step.view.requests == ApplyDecision(v.requests, v.selectedRequest.value.RequestID, StatusFor(v.action))
  {
    var closed := v.(popupVisible := false, confirmationVisible := false, selectedRequest := None, action := None);
    if confirm && v.selectedRequest.Some? then
      var id := v.selectedRequest.value.RequestID;
      var body := ApprovalBody(id, v.action, employeeID);
      if Succeeded(response) then
        ConfirmStep(closed.(requests := ApplyDecision(v.requests, id, StatusFor(v.action))), Some(body))
      else
        ConfirmStep(closed, Some(body))
    else
      ConfirmStep(closed, None)
  }

  /** After a confirmed "approve" that the server accepted, the decided request
      shows as approved, and every other request keeps its status. */
  lemma ConfirmedApprovalShows(v: TeamView, employeeID: Option<int>, response: Response<()>, i: nat)
    requires v.selectedRequest.Some? && v.action == Some("approve") && Succeeded(response)
    requires i < |v.requests|
    ensures var w := HandleConfirmAction(v, true, employeeID, response).view;
            |w.requests| == |v.requests| &&
            w.requests[i].Status == (if v.requests[i].RequestID == v.selectedRequest.value.RequestID
                                     then APPROVED else v.requests[i].Status)
  {
  }
}

=== FILE: text.dfy ===
/** The handful of JavaScript string operations the screens rely on:
    `toLowerCase`, `toUpperCase`, `includes`, `split`, the `<` comparison of two
    strings, and `toString` of an integer. */
module Text {

  // ---------------------------------------------------------------------------
  // Case mapping (ASCII letters)
  // ---------------------------------------------------------------------------

  predicate IsUpperAscii(c: char) {
    'A' <= c <= 'Z'
  }

  predicate IsLowerAscii(c: char) {
    'a' <= c <= 'z'
  }

  function Lower(c: char): (r: char)
    ensures !IsUpperAscii(r)
    ensures IsUpperAscii(c) <==> r != c
  {
    if IsUpperAscii(c) then (c as int + 32) as char else c
  }

  function Upper(c: char): (r: char)
    ensures !IsLowerAscii(r)
    ensures IsLowerAscii(c) <==> r != c
  {
    if IsLowerAscii(c) then (c as int - 32) as char else c
  }

  /** `s.toLowerCase()`. */
  function LowerStr(s: string): (r: string)
    ensures |r| == |s|
    ensures forall k :: 0 <= k < |r| ==> !IsUpperAscii(r[k])
    ensures forall k :: 0 <= k < |r| ==> Lower(r[k]) == Lower(s[k])
  {
    seq(|s|, k requires 0 <= k < |s| => Lower(s[k]))
  }

  /** Lower-casing twice is lower-casing once. */
  lemma LowerStrIdempotent(s: string)
    ensures LowerStr(LowerStr(s)) == LowerStr(s)
  {
    var once := LowerStr(s);
    assert forall k :: 0 <= k < |once| ==> Lower(once[k]) == once[k];
  }

  /** `key.charAt(0).toUpperCase() + key.slice(1)`: the first character
      upper-cased, the rest untouched; the empty string stays empty. */
  function Capitalize(key: string): (r: string)
    ensures |r| == |key|
    ensures |key| > 0 ==> r[0] == Upper(key[0]) && r[1..] == key[1..]
  {
    if key == [] then [] else [Upper(key[0])] + key[1..]
  }

  // ---------------------------------------------------------------------------
  // Substring containment: `s.includes(q)`
  // ---------------------------------------------------------------------------

  predicate IsPrefix(p: string, s: string) {
    |p| <= |s| && s[..|p|] == p
  }

  /** `s.includes(q)`, searched left to right. */
  predicate Includes(s: string, q: string)
    decreases |s|
  {
    IsPrefix(q, s) || (|s| > 0 && Includes(s[1..], q))
  }

  /** Reference meaning of containment: `q` sits in `s` starting at `i`. */
  ghost predicate OccursAt(s: string, q: string, i: int) {
    0 <= i && i + |q| <= |s| && s[i..i + |q|] == q
  }

  /** The left-to-right search finds `q` exactly when `q` occurs somewhere. */
  lemma {:induction false} IncludesIff(s: string, q: string)
    ensures Includes(s, q) <==> exists i :: OccursAt(s, q, i)
    decreases |s|
  {
    if Includes(s, q) {
      if IsPrefix(q, s) {
        assert OccursAt(s, q, 0);
      } else {
        IncludesIff(s[1..], q);
        var i :| OccursAt(s[1..], q, i);
        assert s[1..][i..i + |q|] == s[i + 1..i + 1 + |q|];
        assert OccursAt(s, q, i + 1);
      }
    }
    if exists i :: OccursAt(s, q, i) {
      var i :| OccursAt(s, q, i);
      if i == 0 {
        assert IsPrefix(q, s);
      } else {
        assert s[1..][i - 1..i - 1 + |q|] == s[i..i + |q|];
        assert OccursAt(s[1..], q, i - 1);
        IncludesIff(s[1..], q);
      }
    }
  }

  /** Every string includes the empty string (an empty filter matches all). */
  lemma IncludesEmpty(s: string)
    ensures Includes(s, [])
  {
    assert IsPrefix([], s);
  }

  /** The case-insensitive containment test every listing screen uses:
      `text.toLowerCase().includes(query.toLowerCase())`. */
  predicate MatchesQuery(text: string, query: string) {
    Includes(LowerStr(text), LowerStr(query))
  }

  lemma MatchesEmptyQuery(text: string)
    ensures MatchesQuery(text, [])
  {
    IncludesEmpty(LowerStr(text));
  }

  // ---------------------------------------------------------------------------
  // `s.split(sep)` for a one-character separator, and its inverse `join`
  // ---------------------------------------------------------------------------

  /** Number of occurrences of `c` in `s`. */
  function Occurrences(s: string, c: char): (n: nat)
    ensures n <= |s|
  {
    if s == [] then 0 else (if s[0] == c then 1 else 0) + Occurrences(s[1..], c)
  }

  /** `s.split(sep)`: the pieces between separators. The empty string splits
      into one empty piece, and a trailing separator yields a trailing empty piece. */
  function Split(s: string, sep: char): (r: seq<string>)
    ensures |r| == Occurrences(s, sep) + 1
    ensures forall k :: 0 <= k < |r| ==> sep !in r[k]
    decreases |s|
  {
    if s == [] then [[]]
    else
      var rest := Split(s[1..], sep);
      if s[0] == sep then [[]] + rest
      else [[s[0]] + rest[0]] + rest[1..]
  }

  /** `parts.join(sep)`. */
  function Join(parts: seq<string>, sep: char): string
    decreases |parts|
  {
    if |parts| == 0 then []
    else if |parts| == 1 then parts[0]
    else parts[0] + [sep] + Join(parts[1..], sep)
  }

  /** Joining the pieces back with the separator gives the original string. */
  lemma {:induction false} JoinSplit(s: string, sep: char)
    ensures Join(Split(s, sep), sep) == s
    decreases |s|
  {
    if s != [] {
      var rest := Split(s[1..], sep);
      JoinSplit(s[1..], sep);
      if s[0] == sep {
        assert Split(s, sep) == [[]] + rest;
        assert ([[]] + rest)[1..] == rest;
      } else {
        var r := Split(s, sep);
        assert r == [[s[0]] + rest[0]] + rest[1..];
        if |rest| == 1 {
          assert Join(rest, sep) == rest[0];
        } else {
          assert r[1..] == rest[1..];
          assert Join(rest, sep) == rest[0] + [sep] + Join(rest[1..], sep);
        }
      }
    }
  }

  /** A separator-free prefix is glued onto the first piece of what follows. */
  lemma {:induction false} SplitPrefix(p: string, t: string, sep: char)
    requires sep !in p
    ensures Split(p + t, sep) == [p + Split(t, sep)[0]] + Split(t, sep)[1..]
    decreases |p|
  {
    if p != [] {
      assert (p + t)[1..] == p[1..] + t;
      assert p[0] != sep;
      SplitPrefix(p[1..], t, sep);
      assert [p[0]] + (p[1..] + Split(t, sep)[0]) == p + Split(t, sep)[0];
    } else {
      var r := Split(t, sep);
      assert p + t == t;
      assert p + r[0] == r[0];
      assert r == [r[0]] + r[1..];
    }
  }

  /** Splitting a join of separator-free pieces gives the pieces back. */
  lemma {:induction false} SplitJoin(parts: seq<string>, sep: char)
    requires |parts| >= 1
    requires forall k :: 0 <= k < |parts| ==> sep !in parts[k]
    ensures Split(Join(parts, sep), sep) == parts
    decreases |parts|
  {
    if |parts| == 1 {
      SplitPrefix(parts[0], [], sep);
      assert parts[0] + [] == parts[0];
    } else {
      var tail := Join(parts[1..], sep);
      SplitJoin(parts[1..], sep);
      assert parts[0] + [sep] + tail == parts[0] + ([sep] + tail);
      SplitPrefix(parts[0], [sep] + tail, sep);
      assert ([sep] + tail)[1..] == tail;
      assert parts[0] + [] == parts[0];
    }
  }

  // ---------------------------------------------------------------------------
  // The `<` comparison of two strings: lexicographic by character, that is by
  // Unicode code point (JavaScript compares UTF-16 code units; the two agree
  // unless characters above U+FFFF meet characters from U+E000 to U+FFFF)
  // ---------------------------------------------------------------------------

  predicate StrLess(a: string, b: string)
    decreases |a|
  {
    if a == [] then b != []
    else if b == [] then false
    else if a[0] != b[0] then a[0] < b[0]
    else StrLess(a[1..], b[1..])
  }

  lemma {:induction false} StrLessIrreflexive(a: string)
    ensures !StrLess(a, a)
    decreases |a|
  {
    if a != [] {
      StrLessIrreflexive(a[1..]);
    }
  }

  lemma {:induction false} StrLessAsymmetric(a: string, b: string)
    ensures !(StrLess(a, b) && StrLess(b, a))
    decreases |a|
  {
    if a != [] && b != [] && a[0] == b[0] {
      StrLessAsymmetric(a[1..], b[1..]);
    }
  }

  lemma {:induction false} StrLessTransitive(a: string, b: string, c: string)
    requires StrLess(a, b) && StrLess(b, c)
    ensures StrLess(a, c)
    decreases |a|
  {
    if a != [] && b != [] && c != [] && a[0] == b[0] && b[0] == c[0] {
      StrLessTransitive(a[1..], b[1..], c[1..]);
    }
  }

  /** Two different strings are always ordered one way or the other. */
  lemma {:induction false} StrLessTotal(a: string, b: string)
    ensures a == b || StrLess(a, b) || StrLess(b, a)
    decreases |a|
  {
    if a != [] && b != [] && a[0] == b[0] {
      StrLessTotal(a[1..], b[1..]);
      if a[1..] == b[1..] {
        assert a == [a[0]] + a[1..] && b == [b[0]] + b[1..];
      }
    }
  }

  // ---------------------------------------------------------------------------
  // `n.toString()` for integers
  // ---------------------------------------------------------------------------

  predicate IsDigit(c: char) {
    '0' <= c <= '9'
  }

  function DigitChar(d: nat): (c: char)
    requires d < 10
    ensures IsDigit(c)
  {
    ('0' as int + d) as char
  }

  /** The decimal rendering of a natural number, without leading zeros. */
  function NatToDecimal(n: nat): (r: string)
    ensures |r| >= 1
    ensures forall k :: 0 <= k < |r| ==> IsDigit(r[k])
    decreases n
  {
    if n < 10 then [DigitChar(n)] else NatToDecimal(n / 10) + [DigitChar(n % 10)]
  }

  /** `n.toString()`. */
  function IntToDecimal(n: int): string {
    if n < 0 then "-" + NatToDecimal(-n) else NatToDecimal(n)
  }

  function DigitValue(c: char): (d: nat)
    requires IsDigit(c)
    ensures d < 10
  {
    c as int - '0' as int
  }

  /** Reads a string of decimal digits back as a number. */
  function DecimalValue(s: string): nat
    requires forall k :: 0 <= k < |s| ==> IsDigit(s[k])
    decreases |s|
  {
    if s == [] then 0 else DecimalValue(s[..|s| - 1]) * 10 + DigitValue(s[|s| - 1])
  }

  /** Rendering a number and reading it back gives the number. */
  lemma {:induction false} DecimalRoundTrip(n: nat)
    ensures DecimalValue(NatToDecimal(n)) == n
    decreases n
  {
    if n >= 10 {
      var r := NatToDecimal(n);
      DecimalRoundTrip(n / 10);
      assert r[..|r| - 1] == NatToDecimal(n / 10);
    }
  }

  /** Digits and lower-casing do not interact: a rendered number is already lower case. */
  lemma LowerDecimal(n: int)
    ensures LowerStr(IntToDecimal(n)) == IntToDecimal(n)
  {
    var s := IntToDecimal(n);
    assert forall k :: 0 <= k < |s| ==> !IsUpperAscii(s[k]);
  }
}
